=== FILE: README.md ===
# RC506 Quality Hub — a Dafny model of the scoring and data core

RC506 Quality Hub is a call-centre quality-assurance web application. Auditors score
voice and chat interactions against a rubric of yes/no criteria. An AI service can
pre-fill the audit, and supervisors read per-project scorecards and a CRM view of all
audits. This project models the parts of the application that decide something. Each
part is a Dafny module:

- **Security** (`security.dfy`): the red and yellow detectors run before any text is
  sent to the AI. A red detector blocks the text; a yellow detector replaces personal
  data with tags. The module holds a reference verdict and the method that computes it.
  Beside them is the interception as written, with the `lastIndex` state of the
  module-level global regular expressions. See "Findings".
- **Gemini** (`gemini.dfy`): the response schema built from the rubric, the retry
  policy, the clean-up of the model's text, and the normalisation of the parsed answer.
  The parsed answer is modelled as JSON values with JavaScript's coercions (truthiness,
  `||`, `String`, `Number`).
- **Subscription** (`subscription.dfy`): the plan limits and the usage check.
- **RouteGuard** (`route_guard.dfy`): the ordered authentication, role and plan checks
  of a protected route.
- **Storage** (`storage.dfy`): the local store. It is a class whose list fields are
  updated by the upsert and delete operations. It also holds the default rubric, the
  rubric toggle, the usage counters, the CSV text and the PIN login.
- **AuditForm** (`audit_form.dfy`): which criteria apply to an audit, the score, the
  perception and CSAT, the validation on save, and the ticket number.
- **Scorecard** (`scorecard.dfy`): a project's averages, failures per criterion, pass
  rates per criterion, top weaknesses, category radar and top agents.
- **Crm** (`crm.dfy`): the CRM filters, the agent initials, the average quality, and
  the export of the selected audits. Reloading the data clears the selection.

`common.dfy` holds the shared building blocks:

- `Math.round` of an exact quotient;
- ASCII case mapping, `trim`, `includes`, string comparison, `split` and `join`;
- `filter`, a stable sort and `slice`.

`types.dfy` holds the records of `src/types.ts`.

The regular expressions themselves are a parameter, `Security.Engine`. It provides a
search from a position, giving the end of the first match, and a replace-all. Clocks,
randomness and the network are parameters as well, or are left out.

## Model

| member | source | states |
|---|---|---|
| Security.Intercept | src/services/securityService.ts:56-101 | The reference verdict blocks exactly when a red detector matches, and then has a reason and the placeholder for content. It flags nothing exactly when no detector of either level matches. |
| Security.InterceptAndValidate | src/services/securityService.ts:56-101 | The report equals the reference verdict; the text is blocked exactly when one of the four red detectors matches. |
| Security.MatchedLabelsExactly | src/services/securityService.ts:66-73 | A label is flagged exactly when some detector with that label matches the text. |
| Security.MatchedLabels | src/services/securityService.ts:66-73 | There are never more flags than detectors. |
| Security.LastMatched | src/services/securityService.ts:66-73 | The pattern the reason comes from is one of the detectors, and it matches the text. |
| Security.MatchedLabelsEmpty | src/services/securityService.ts:66-73 | No flag is raised exactly when no detector matches. |
| Security.MatchedLabelsInOrder | src/services/securityService.ts:66-73 | The flags are exactly the labels of the matching detectors, once each and in dictionary order: a sub-sequence of the detectors' labels, so never more flags than detectors. |
| Security.LastMatchedIsLast | src/services/securityService.ts:66-73 | The reason comes from the last matching red detector, and one exists exactly when some red detector matches. |
| Security.Sanitize | src/services/securityService.ts:86-93 | With no match among the detectors, the text passes through unchanged. |
| Security.CleanTextPasses | src/services/securityService.ts:57-63 | A text that matches nothing gives an unblocked report: no flags, no reason, "Security Scan Passed", and the text itself. |
| Security.BlockedVerdict | src/services/securityService.ts:66-80 | A blocked report carries the placeholder whatever the text was, the violation detail, and the last red label as reason. Its flags are exactly the labels of the red detectors that matched, each once and in dictionary order. |
| Security.UnblockedVerdict | src/services/securityService.ts:82-100 | An unblocked report has no reason. Its detail says "sanitized" exactly when a yellow detector matched. It flags the yellow labels, and replaces e-mails first, then phone numbers. |
| Security.TestStepSpec | src/services/securityService.ts:67 | `test` on a global expression hits exactly when a match starts at or after `lastIndex` within the text. On a hit `lastIndex` moves to the match's end, on a miss back to 0. No other expression's state changes. |
| Security.TestStep | src/services/securityService.ts:67 | `test` hits exactly when a match starts at or after `lastIndex`, within the text. `lastIndex` then moves to the match's end, and back to 0 on a miss. |
| Security.RedScanAsWritten | src/services/securityService.ts:66-73 | The red loop as written raises no more flags than detectors, and has a reason exactly when it flagged something. |
| Security.YellowScanAsWritten | src/services/securityService.ts:86-93 | The yellow loop as written raises no more flags than detectors, and a text it flags nothing in comes out unchanged. |
| Security.InterceptAsWritten | src/services/securityService.ts:56-101 | A blocked report as written has the placeholder and the violation detail; an unblocked one has no reason. |
| Security.RedScanAsWrittenSpec | src/services/securityService.ts:66-73 | The red loop as written flags each detector at most once and in dictionary order (a sub-sequence of the detectors' labels). It has a reason exactly when it flagged something, and the reason's detector is one of the loop's and the one flagged last. |
| Security.YellowScanAsWrittenSpec | src/services/securityService.ts:86-93 | The yellow loop as written flags each detector at most once and in dictionary order (a sub-sequence of the detectors' labels). A text in which it flags nothing comes out unchanged. |
| Security.InterceptAsWrittenSpec | src/services/securityService.ts:56-101 | A report of the call as written is blocked exactly when it has a reason, and then it has flags and the placeholder for content. A report without flags passes the text unchanged with "Security Scan Passed". |
| Security.YellowScanFrame | src/services/securityService.ts:86-93 | From any state, the yellow loop as written moves no expression outside the loop. |
| Security.RedScanFromRest | src/services/securityService.ts:66-73 | The red loop as written, started with every `lastIndex` at 0, raises the reference flags and reason. It leaves each red expression's `lastIndex` where its first test put it. |
| Security.YellowScanFromRest | src/services/securityService.ts:86-93 | The yellow loop as written, started at rest, gives the reference flags and tagged text. |
| Security.AsWrittenFreshAgrees | src/services/securityService.ts:56-101 | The first call as written, with every expression at rest, gives the reference verdict. |
| Security.RedScanMisses | src/services/securityService.ts:66-73 | When every red test misses, nothing is flagged, and expressions outside the loop keep their state. |
| Security.FirstCallLeavesCardAtEnd | src/services/securityService.ts:66-73 | A text blocked only by the card detector leaves that detector's `lastIndex` at the end of the match, and every other one at 0. |
| Security.SecondCallPasses | src/services/securityService.ts:56-101 | When the card search from the left-over `lastIndex` misses and nothing else matches, the call as written passes the text through in clear. |
| Security.SecondRedScanMisses | src/services/securityService.ts:66-73 | In that state the red loop flags nothing and leaves the yellow expressions at rest. |
| Security.RepeatedScanMissesCard | src/services/securityService.ts:56-101 | A card number found once is blocked by the first call. The same text passes in clear on the second call, although the reference verdict blocks it. |
| Security.CardNumberPassesOnSecondCall | src/services/securityService.ts:12 | Concretely, "4111 1111 1111 1111" is blocked by the first call and forwarded in clear by the second. |
| Gemini.OrElse | src/services/geminiService.ts:100 | `v \|\| d` is v when v is truthy, else d. |
| Gemini.StringToNumber | src/services/geminiService.ts:123-124 | A number read from text starting with a digit is never negative. |
| Gemini.NumberTextRoundTrip | src/services/geminiService.ts:123-124 | `Number` of the decimal text of n is n. |
| Gemini.GetDynamicSchema | src/services/geminiService.ts:15-60 | The schema always has the same top-level properties and required list. With no rubric, customData has only `_info`. Otherwise it has exactly one boolean property per rubric id, described by the label of the last item with that id. |
| Gemini.RequiredFieldsDeclared | src/services/geminiService.ts:15-60 | Every required field is a declared top-level property. |
| Gemini.WithRetry | src/services/geminiService.ts:62-72 | The outcome is the attempt after all retries. Every retried attempt failed with status 429 or at least 500. The waits double from `delay`. Retrying stops at success, at another error, or when retries run out. |
| Gemini.DoubledDelays | src/services/geminiService.ts:67-68 | Waiting `delay` and then restarting with twice the delay gives the delays delay·2^i. |
| Gemini.DefaultRetry | src/services/geminiService.ts:62 | With the defaults there are at most three retries, waiting 1000, 2000 and 4000 ms in that order. |
| Gemini.NonRetryableRethrown | src/services/geminiService.ts:70 | A first failure that is not retryable is rethrown at once, with no wait. |
| Gemini.IndexOf | src/services/geminiService.ts:89 | `indexOf` gives the first occurrence, or -1 exactly when the character is absent. |
| Gemini.LastIndexOf | src/services/geminiService.ts:90 | `lastIndexOf` gives the last occurrence, or -1 exactly when the character is absent. |
| Gemini.CleanJsonResponse | src/services/geminiService.ts:87-93 | The result starts with `{` and ends with `}`. When the first `{` comes before the last `}`, it is exactly the text from the one to the other. Otherwise (a brace missing, or "}{") it is "{}". |
| Gemini.CleanIdempotent | src/services/geminiService.ts:87-93 | Cleaning twice is cleaning once. |
| Gemini.SentimentOf | src/services/geminiService.ts:99-102 | The sentiment is POSITIVE exactly when the upper-cased value contains "POS". Otherwise it is NEGATIVE exactly when that value contains "NEG", and NEUTRAL when it contains neither. It is never MIXED. |
| Gemini.ToParticipant | src/services/geminiService.ts:107-112 | The role is AGENT exactly when the upper-cased role contains "AGENT", otherwise CUSTOMER. The sentiment is only POSITIVE or NEUTRAL. |
| Gemini.MapParticipants | src/services/geminiService.ts:106-113 | Mapping fails (a TypeError) exactly when some element is null. Otherwise each element maps in order. |
| Gemini.Normalize | src/services/geminiService.ts:95-132 | Normalisation fails exactly on a null participant. Otherwise: customData has exactly the rubric ids, each the truthiness of the raw answer; there is at least one participant; score defaults to 0 and csat to 3; the interaction is INTERNAL exactly when its text contains "INTERN". |
| Gemini.SanitizeCustomData | src/services/geminiService.ts:116-120 | The loop produces exactly one boolean per rubric id, `!!customRaw[id]`. |
| Gemini.NormalizeFields | src/services/geminiService.ts:98-129 | The sentiment is the one read from the raw `sentiment`. A truthy score or csat is converted to a number. When the answer lists participants, they are exactly the mapped ones. The notes are the raw notes when they are a string, and the fixed notice otherwise. |
| Gemini.NormalizeResult | src/services/geminiService.ts:95-132 | The method computes the normalisation specified by `Normalize`. |
| Gemini.NoParticipantsGivesSystem | src/services/geminiService.ts:129 | With no participants array, or an empty one, the result has the single System participant. |
| Subscription.Limits | src/services/subscriptionService.ts:9-14 | FREE allows 3 audits, STANDARD 50, AI_PRO and ENTERPRISE 9999. The copilot is available on every plan but FREE. The advanced model comes exactly with AI_PRO and ENTERPRISE. |
| Subscription.CheckUsageLimit | src/services/subscriptionService.ts:43-61 | A missing user is denied as not authenticated. A bypassing user is allowed. Anyone else is allowed exactly while the count is below the plan's limit. A reason is given exactly on denial, and it names the limit and the plan. |
| Subscription.DenialPersists | src/services/subscriptionService.ts:43-61 | Once denied, a higher count stays denied. |
| Subscription.FreeUserQuota | src/services/subscriptionService.ts:49-58 | A user with no plan is treated as FREE: allowed with no usage or with 2 audits, denied at 3. |
| Subscription.ReasonNamesLimit | src/services/subscriptionService.ts:55-58 | The denial text contains the limit and the plan name. |
| RouteGuard.PlanRank | src/components/ProtectedRoute.tsx:14-19 | FREE ranks 0, STANDARD 1, AI_PRO 2 and ENTERPRISE 3. |
| RouteGuard.Guard | src/components/ProtectedRoute.tsx:21-45 | No user goes to the redirect path, "/login" by default. A role not held by a non-ADMIN goes to "/app". After that, a plan ranked below the required one goes to "/app/subscription". An ADMIN is never sent to "/app" for a role. Otherwise the children render, or the outlet when there are none. |
| RouteGuard.LimitsFollowRank | src/components/ProtectedRoute.tsx:14-19 | A higher-ranked plan never has a lower audit limit. |
| Storage.IndexOfKey | src/services/storageService.ts:63 | `findIndex` gives the first index with the id, or -1 exactly when the id is absent. |
| Storage.Upsert | src/services/storageService.ts:63-68 | A known id is replaced in place with everything else unchanged; a new one is appended. The id is present afterwards. |
| Storage.UpsertFront | src/services/storageService.ts:215-221 | As Upsert, except that a new chat session goes to the front. |
| Storage.UpsertKeys | src/services/storageService.ts:63-68 | The ids after an upsert are the ids before plus the saved one, and the list never shrinks. |
| Storage.RemoveKey | src/services/storageService.ts:75-76 | Deleting keeps every entry with another id and adds none, and leaves no entry with the deleted id. |
| Storage.RemoveKeyOrder | src/services/storageService.ts:75-76 | Deleting keeps the relative order and leaves a list without the id unchanged. |
| Storage.DefaultRubric | src/services/storageService.ts:124-136 | The default rubric has one item per default label, in key order. |
| Storage.DefaultRubricShape | src/services/storageService.ts:20-31 | There are 10 default items with distinct ids, all active and for both channels. "grammar" and "compliance" are the hard ones; none is in the compliance category. |
| Storage.Toggled | src/services/storageService.ts:146-153 | Only the first item with the id flips `isActive`; nothing else changes. An unknown id changes nothing. |
| Storage.ToggleTwice | src/services/storageService.ts:146-153 | Toggling twice restores the rubric. |
| Storage.CsvFields | src/services/storageService.ts:204 | A row has seven fields: the ticket id, or the id when it is empty, and the score with "%", missing counted as 0. |
| Storage.CsvLines | src/services/storageService.ts:204-205 | There is one comma-joined line per audit, in order. |
| Storage.CsvText | src/services/storageService.ts:202-205 | The text is the header line alone for no audits, otherwise the header line, a line break and the audit lines joined by line breaks. |
| Storage.CsvReadBack | src/services/storageService.ts:202-205 | Splitting the CSV on line breaks and commas gives back the header and each audit's fields, in order, when no field holds a comma or line break. |
| Storage.NoCharInJoin | src/services/storageService.ts:205 | A character in neither the parts nor the separator is not in the join. |
| Storage.FindUser | src/services/storageService.ts:175 | The user found is the first one with both the id and the PIN. Nothing is found exactly when no user has both. |
| Storage.Store.constructor | src/services/storageService.ts:56-59 | The store starts empty, with no stored rubric or settings. |
| Storage.Store.SaveAudit | src/services/storageService.ts:61-73 | The audits become the upsert of the audit, stamped with the company name as its organisation. |
| Storage.Store.DeleteAudit | src/services/storageService.ts:75-80 | The audits become those with another id. |
| Storage.Store.SaveAgent | src/services/storageService.ts:84-93 | The agents become the upsert of the agent. |
| Storage.Store.DeleteAgent | src/services/storageService.ts:95-100 | The agents become those with another id. |
| Storage.Store.SaveProject | src/services/storageService.ts:104-114 | The projects become the upsert of the project built from the arguments and the company name. |
| Storage.Store.DeleteProject | src/services/storageService.ts:116-121 | The projects become those with another id. |
| Storage.Store.GetRubric | src/services/storageService.ts:124-136 | A stored rubric is returned; otherwise the defaults are returned and stored. |
| Storage.Store.SaveRubricItem | src/services/storageService.ts:138-144 | The stored rubric becomes the upsert of the item into the current rubric. |
| Storage.Store.ToggleRubricItem | src/services/storageService.ts:146-153 | The stored rubric becomes the current one with that item toggled. |
| Storage.Store.DeleteRubricItem | src/services/storageService.ts:155-158 | The stored rubric becomes the current one without that id. |
| Storage.Store.SaveUser | src/services/storageService.ts:162-168 | The users become the upsert of the user. |
| Storage.Store.DeleteUser | src/services/storageService.ts:170-173 | The users become those with another id. |
| Storage.Store.Authenticate | src/services/storageService.ts:175 | Login gives the first stored user with that id and PIN, or none exactly when no stored user has both. |
| Storage.Store.SaveChatSession | src/services/storageService.ts:215-221 | The sessions become the upsert of the session, a new one in front. |
| Storage.Store.DeleteChatSession | src/services/storageService.ts:222-225 | The sessions become those with another id. |
| Storage.Store.UpdateUsageStats | src/services/storageService.ts:227-238 | The audit count goes up by one and the tokens by the argument. The company name and plan are kept. |
| AuditForm.ProjectNamed | src/components/AuditForm.tsx:70 | `find` gives the first project with the name, or none exactly when no project has it. |
| AuditForm.FilteredRubric | src/components/AuditForm.tsx:66-76 | With no rubric loaded, the previous list stays. Otherwise only active criteria for the audit's channel are kept, restricted to the selected project's ids when it has some. |
| AuditForm.FilteredRubricExact | src/components/AuditForm.tsx:66-76 | The filtered list is exactly the rubric's applicable criteria, in rubric order. |
| AuditForm.FilterTwice | src/components/AuditForm.tsx:68-72 | Filtering twice is filtering by both conditions. |
| AuditForm.CountPassed | src/components/AuditForm.tsx:96-101 | The number of criteria answered true is at most the number of criteria. |
| AuditForm.Score | src/components/AuditForm.tsx:96-101 | The score lies in 0..100 and is 0 without criteria. |
| AuditForm.CalculateScore | src/components/AuditForm.tsx:96-101 | The counting loop yields the rounded percentage of criteria answered true. |
| AuditForm.CountPassedAll | src/components/AuditForm.tsx:96-101 | All criteria are counted exactly when all are answered true. |
| AuditForm.ScoreIgnoresOtherIds | src/components/AuditForm.tsx:96-101 | Answers for ids outside the filtered rubric do not change the score. |
| AuditForm.FullScoreIffAllPassed | src/components/AuditForm.tsx:96-101 | With fewer than 200 criteria, the score is 100 exactly when every one is answered true. |
| AuditForm.PerceptionOf | src/components/AuditForm.tsx:103-108 | OPTIMAL exactly at 100; POOR exactly below 75. |
| AuditForm.CsatOf | src/components/AuditForm.tsx:120 | The CSAT is 5 for OPTIMAL, 4 for ACCEPTABLE and 2 for POOR. |
| AuditForm.OptimalIffAllPassed | src/components/AuditForm.tsx:96-108 | An empty form is POOR. Otherwise the perception is OPTIMAL exactly when every criterion is answered true. |
| AuditForm.HandleSave | src/components/AuditForm.tsx:110-122 | Nothing is saved exactly when agent, project or ticket is empty. A saved audit carries the agent, project, date, type, answers, score, the CSAT of the perception and the ticket. An edit keeps its id and status; a new audit gets a fresh id and PENDING_REVIEW. |
| AuditForm.TicketNumber | src/components/AuditForm.tsx:59 | The random part lies in 1000..9999. |
| AuditForm.FourDigits | src/components/AuditForm.tsx:59 | That number always has four digits. |
| AuditForm.TicketId | src/components/AuditForm.tsx:59 | A ticket reads "QA-", four digits, "-", then the year. |
| Scorecard.ProjectAudits | src/components/ProjectScorecard.tsx:20 | The project's audits are exactly the audits whose project is the selected one, and no more than all audits. |
| Scorecard.AverageScore | src/components/ProjectScorecard.tsx:37-38 | The average is 0 with no audits. Otherwise it is the mean score rounded to the nearest integer, missing scores counted as 0. |
| Scorecard.SumScoresBounds | src/components/ProjectScorecard.tsx:38 | With scores in 0..100, the sum lies between 0 and 100 times the count. |
| Scorecard.AverageBounds | src/components/ProjectScorecard.tsx:37-45 | The project, voice and chat averages lie in 0..100 when every score does. |
| Scorecard.ChannelAverage | src/components/ProjectScorecard.tsx:42-45 | A channel's average is 0 when the project has no audit of that channel, equals the project average when every audit is of that channel, and lies in 0..100 when the scores do. |
| Scorecard.TargetScore | src/components/ProjectScorecard.tsx:48 | The target is 90 when the config, its targets or its score is missing or 0, and otherwise the configured score; it is never 0. |
| Common.SortByCorrect | src/components/ProjectScorecard.tsx:78 | The sort returns an ascending permutation of its input, of the same length. |
| Common.SortByStable | src/components/ProjectScorecard.tsx:78 | The sort is stable: the elements with any one key keep their input order. |
| Scorecard.CountFailures | src/components/ProjectScorecard.tsx:52-59 | The loops give, for each criterion, the number of audits that answered it exactly false. A criterion has an entry exactly when that number is positive. |
| Scorecard.FailCount | src/components/ProjectScorecard.tsx:52-59 | A criterion fails in at most as many audits as there are. |
| Scorecard.AnsweredIds | src/components/ProjectScorecard.tsx:99-104 | An audit answers at most as many ids as are asked. |
| Scorecard.PassedIds | src/components/ProjectScorecard.tsx:99-104 | An audit passes at most the ids it answers. |
| Scorecard.TotalPasses | src/components/ProjectScorecard.tsx:64-69 | Passes never exceed answers. |
| Scorecard.Rate | src/components/ProjectScorecard.tsx:72 | A pass rate lies in 0..100. It is 0 without answers or passes, and 100 when every answer passes. |
| Scorecard.CountAnswers | src/components/ProjectScorecard.tsx:95-119 | The nested loops count exactly the answers and the passes for the category's ids. |
| Scorecard.NoAnswersWithoutData | src/components/ProjectScorecard.tsx:98 | An audit without customData answers nothing. |
| Scorecard.StatOf | src/components/ProjectScorecard.tsx:61-74 | Each criterion keeps its fields, and its pass rate lies in 0..100. |
| Scorecard.Stats | src/components/ProjectScorecard.tsx:61-74 | There is one stat per rubric item, in order. |
| Scorecard.RubricStats | src/components/ProjectScorecard.tsx:61-75 | The stats are ascending by pass rate and are a permutation of the stats of the criteria answered at least once. Every answered criterion appears, none unanswered, and every rate is in 0..100. |
| Scorecard.WeaknessName | src/components/ProjectScorecard.tsx:81-83 | A weakness is named by the translation of the rubric's first item with its id, else by that item's label; an id with no item is shown bare. |
| Scorecard.ItemWithId | src/components/ProjectScorecard.tsx:81 | `find` gives the first item with the id, or none exactly when no item has it. |
| Scorecard.FailureEntries | src/components/ProjectScorecard.tsx:77 | One entry per key, each with its failure count, in enumeration order. |
| Scorecard.RankedFailures | src/components/ProjectScorecard.tsx:77-78 | The ranked failures are a permutation of the failure entries, in non-increasing order of count. |
| Scorecard.TopWeaknesses | src/components/ProjectScorecard.tsx:77-87 | Given the keys of the failures object (each criterion failed at least once, once each), exactly min(5, number of failing criteria) weaknesses are listed. |
| Scorecard.TopWeaknessesOrdered | src/components/ProjectScorecard.tsx:77-79 | Weaknesses are in descending order of failures. |
| Scorecard.TopWeaknessesFromKeys | src/components/ProjectScorecard.tsx:77-87 | Each shown weakness is the entry of a failing criterion: its name, its failure count, and that count as a percentage of the project's audits, within 0..100. |
| Scorecard.TopWeaknessesComplete | src/components/ProjectScorecard.tsx:77-79 | A criterion failed more often than a shown one is itself shown, with its count and under its translated name, its label or its id. |
| Scorecard.DedupSpec | src/components/ProjectScorecard.tsx:90 | Deduplication keeps every element once and adds none. |
| Scorecard.CategoryIds | src/components/ProjectScorecard.tsx:92-93 | The ids gathered are exactly those of the category's items. |
| Scorecard.Categories | src/components/ProjectScorecard.tsx:90 | Each category of the rubric appears exactly once among the radar's spokes, and no other category does. |
| Scorecard.RadarData | src/components/ProjectScorecard.tsx:90-127 | There is one point per category, in order of first appearance. Each point has the category upper-cased, the project's and all audits' pass rates in 0..100, and full mark 100. |
| Scorecard.AgentCountPositive | src/components/ProjectScorecard.tsx:132 | Every listed agent has at least one audit, so the mean is defined. |
| Scorecard.AgentScores | src/components/ProjectScorecard.tsx:130-135 | The loop lists each agent once, in order of first appearance, with the total of its scores and its number of audits. |
| Scorecard.AgentStep | src/components/ProjectScorecard.tsx:131-135 | One more audit adds its score and one audit to its own agent only. |
| Scorecard.TallyMapAt | src/components/ProjectScorecard.tsx:130-135 | The tallies accumulated audit by audit hold exactly the listed agents, each with the total of its scores and its number of audits; an unlisted agent has none. |
| Scorecard.NamesStep | src/components/ProjectScorecard.tsx:132 | One more audit lists its agent if the agent is new. |
| Scorecard.ScoredAgents | src/components/ProjectScorecard.tsx:137-138 | Each agent, in first-appearance order, is paired with its rounded mean score. |
| Scorecard.TopAgents | src/components/ProjectScorecard.tsx:137-140 | Exactly min(5, number of distinct agents) agents are listed. |
| Scorecard.RankAgents | src/components/ProjectScorecard.tsx:130-140 | The loop and the ranking compute `TopAgents`. |
| Scorecard.MeanScore | src/components/ProjectScorecard.tsx:138 | An agent's score is its total over its count rounded half up, and lies in 0..100 when each score does. |
| Scorecard.AgentTotalBounds | src/components/ProjectScorecard.tsx:133 | With scores in 0..100, an agent's total lies between 0 and 100 times its count. |
| Scorecard.TopAgentsOrdered | src/components/ProjectScorecard.tsx:139 | Best first. |
| Scorecard.TopAgentsScores | src/components/ProjectScorecard.tsx:130-140 | Each shown agent has audits in the project and is shown with its rounded mean. Means lie in 0..100 when scores do. |
| Scorecard.TopAgentsComplete | src/components/ProjectScorecard.tsx:137-140 | No left-out agent has a better mean than a shown one. |
| Crm.FilteredAudits | src/components/CRM.tsx:90-98 | An audit is listed exactly when all three filters hold: the lowercased term is in its agent, project or non-empty ticket; its status matches or the filter is ALL; its date lies within the non-empty bounds. |
| Crm.ContainsEmpty | src/components/CRM.tsx:92 | Every text contains the empty term. |
| Crm.NoFilterListsAll | src/components/CRM.tsx:90-98 | With an empty term, status ALL and no dates, every audit is listed, in order. |
| Crm.FilteredAgents | src/components/CRM.tsx:100 | An agent is listed exactly when its name contains the term, ignoring case. |
| Crm.FilteredProjects | src/components/CRM.tsx:101 | A project is listed exactly when its name contains the term, ignoring case. |
| Crm.AvgQuality | src/components/CRM.tsx:104 | The average quality is 0 when nothing is listed, and lies in 0..100 when every score does. |
| Crm.FirstWhitespace | src/components/CRM.tsx:66 | Finds the first whitespace character, or the length when there is none. |
| Crm.WhitespaceRun | src/components/CRM.tsx:66 | Measures the leading run of whitespace. |
| Crm.SplitWords | src/components/CRM.tsx:66 | Splitting on whitespace runs always gives at least one part. |
| Crm.SplitWordsCount | src/components/CRM.tsx:66-68 | A text without whitespace gives itself as its only word; one with whitespace gives two or more parts. |
| Crm.SplitWordsFirst | src/components/CRM.tsx:66-69 | A text not starting with whitespace has a non-empty first word that starts with its first character. |
| Crm.LastWhitespace | src/components/CRM.tsx:69 | Finds the last whitespace character, or -1. |
| Crm.LastWhitespaceAt | src/components/CRM.tsx:69 | The last whitespace is the one with none after it. |
| Crm.LastWhitespaceSuffix | src/components/CRM.tsx:66 | The last whitespace of a text is found in the suffix after a whitespace character, if it has one. |
| Crm.SplitWordsStep | src/components/CRM.tsx:66 | A split is the first word followed by the split of the rest. |
| Crm.SplitWordsLast | src/components/CRM.tsx:69 | The last word is everything after the last whitespace. |
| Crm.TrimEnds | src/components/CRM.tsx:66 | A trimmed text neither starts nor ends with whitespace. |
| Crm.WordsOfTrimmed | src/components/CRM.tsx:69 | The first and last words of a trimmed multi-word name are non-empty, so their first characters exist. |
| Crm.GetInitials | src/components/CRM.tsx:65-70 | The initials are at most two characters. |
| Crm.InitialsSpec | src/components/CRM.tsx:65-70 | The '?' branch is never taken. A one-word name gives its first two characters, upper-cased. Otherwise the first character and the one after the last inner whitespace, upper-cased. |
| Crm.CrmView.constructor | src/components/CRM.tsx:27-36 | The page starts with no data and an empty selection. |
| Crm.CrmView.LoadAllData | src/components/CRM.tsx:39-54 | A successful load replaces audits, agents and projects and clears the selection; a failed load changes nothing. |
| Crm.CrmView.Selected | src/components/CRM.tsx:83 | Exactly the loaded audits whose id is selected. |
| Crm.CrmView.BulkExport | src/components/CRM.tsx:82-87 | Nothing is exported exactly when no loaded audit is selected; otherwise the CSV of exactly the selected audits. |
| Crm.ReloadThenExport | src/components/CRM.tsx:49 | Right after a reload there is nothing to export. |

## Left out

- Rendering, toasts, navigation and React state plumbing are not modelled. Only the computations the pages perform are.
- The regular-expression engine is not modelled. `Security.Engine` stands for the six expressions of the security dictionary, and the properties hold for any engine. The concrete counterexample uses an engine that recognises exactly one card number.
- Floating point is not modelled. Integer scores are exact, and `Math.round(k / n * 100)` is taken as the rounding of the exact quotient. For a few counts the binary product lands just below .5 and rounds down: 23 passes of 40 criteria give 57.49999999999999 and a score of 57 in JavaScript, where this model gives 58.
- The `toFixed` CSAT averages, the 4.5 CSAT target and the estimated cost (tokens × 0.00000015) are floating-point display values and are not modelled.
- Storage.Store.UpdateUsageStats: the two scoring call sites pass no token count, so the token sum becomes NaN there. The model takes the count as an integer argument and does not capture the NaN.
- Case mapping (`toUpperCase`, `toLowerCase`) is ASCII only; the Unicode tables are not modelled.
- JSON text parsing (`JSON.parse`) is not modelled. The AI's answer enters as an already parsed JSON value.
- Gemini.StringToNumber: `Number` of a string is modelled only for decimal integer text. Fractions, exponents, hex and `Infinity` give NaN in the model.
- Gemini.WithRetry: the error is modelled as an optional numeric status. A string status such as "500" (which JavaScript compares numerically) and `throw null` (whose `.status` itself throws) are not modelled.
- Gemini.Normalize: property access on a non-object answer and its inherited prototype keys (`constructor`, `__proto__`) are not modelled. Nor are the `durationAnalysis`, participant `name` and `tone` texts beyond their defaults.
- Scorecard.CountFailures, Scorecard.AgentScores: keys inherited from `Object.prototype` (an agent named "constructor", a criterion named "__proto__") are not modelled.
- Scorecard.TopWeaknesses: the key order of `Object.entries(failures)` is a parameter. JavaScript lists integer-like keys first, in ascending order, and the rest in insertion order; only ties are affected, since the sort is stable (`Common.SortByStable`). `keys` must list exactly the criteria failed at least once, each once, as `CountFailures` builds them.
- Scorecard.TopAgents: agents are ranked in first-appearance order. An agent name that is an integer-like string would be enumerated first by JavaScript; only ties are affected, since the sort is stable (`Common.SortByStable`).
- Scorecard.WeaknessName: the translation table is a parameter (an empty text meaning no translation).
- The merge of stored settings over the defaults (`{...defaults, ...JSON.parse(data)}`) is not modelled; the store holds a whole settings record or none.
- The Supabase cloud push and delete, `fullCloudPull`, `exportData`, `importData`, the Blob/anchor download, PDF output and payment calls are network or file I/O and are not modelled.
- Randomness and clocks are parameters: `Date.now()` ids (`freshId`), `Math.random` (a real in [0, 1)) and the year.
- The channel-specific audit fields and free-text notes are not modelled. Only the fields the modelled computations read are kept.
- No operation in the CRM page ever adds an id to the selection. The model therefore gives the selection only the constructor, `LoadAllData` and `BulkExport`, as the source does.
- `handleDelete` in the CRM page only reloads the data (it deletes nothing); it is `LoadAllData`.

## Findings

| source | as written | input that shows it | evidently intended | confidence | as-written member | corrected member |
|---|---|---|---|---|---|---|
| src/services/securityService.ts:12, 67, 87 | The detectors are module-level regular expressions with the `g` flag, so `test` resumes from the `lastIndex` the previous call left. A text blocked by the card detector leaves `lastIndex` at the end of the card number. The next call searches from there, misses it, resets `lastIndex`, and forwards the text in clear. | "4111 1111 1111 1111" submitted twice in a row | Every call judges its text from the start, so the same text is blocked every time | high, not executed | Security.CardNumberPassesOnSecondCall | Security.InterceptAndValidate |

=== FILE: audit_form.dfy ===
/**
 * The scoring rules of the manual audit form (src/components/AuditForm.tsx):
 * which rubric criteria apply to an audit, the percentage score, the
 * perception and CSAT derived from it, the validation before saving, and
 * the generated ticket number.
 */
module AuditForm {
  import opened Common
  import opened Types

  // ---------------------------------------------------------------------
  // The rubric filter effect.
  // ---------------------------------------------------------------------

  /** The criterion applies to the channel of the audit. */
  predicate ForChannel(r: RubricItem, t: AuditType) {
    r.channel == BOTH || (r.channel == OnlyVoice && t == VOICE) || (r.channel == OnlyChat && t == CHAT)
  }

  /** The first project with the given name (`find`). */
  function ProjectNamed(projects: seq<Project>, name: string): (r: Option<Project>)
    ensures r.Some? ==> r.value in projects && r.value.name == name
    ensures r.None? ==> forall p :: p in projects ==> p.name != name
    ensures forall i :: (0 <= i < |projects| && projects[i].name == name &&
      (forall j :: 0 <= j < i ==> projects[j].name != name)) ==> r == Some(projects[i])
  {
    if projects == [] then None
    else if projects[0].name == name then Some(projects[0])
    else
      assert forall p :: p in projects[1..] ==> p in projects;
      assert forall i :: 0 < i < |projects| ==> projects[1..][i - 1] == projects[i];
      ProjectNamed(projects[1..], name)
  }

  /** The ids a selected project restricts the rubric to, when it names a
      project that has a non-empty `rubricIds`. */
  function ProjectRestriction(projects: seq<Project>, project: string): Option<seq<string>> {
    if project == "" then None
    else match ProjectNamed(projects, project)
      case Some(p) =>
        if p.rubricIds.Some? && |p.rubricIds.value| > 0 then p.rubricIds else None
      case None => None
  }

  predicate Applies(r: RubricItem, t: AuditType, restriction: Option<seq<string>>) {
    r.isActive && ForChannel(r, t) && (restriction.None? || r.id in restriction.value)
  }

  /** The filter effect: with an empty rubric the previous list stays;
      otherwise the active criteria for the channel, further restricted to
      the selected project's ids when it has some. */
  function FilteredRubric(allRubric: seq<RubricItem>, t: AuditType, project: string,
                          projects: seq<Project>, previous: seq<RubricItem>): (r: seq<RubricItem>)
    ensures allRubric == [] ==> r == previous
    ensures allRubric != [] ==> forall x :: x in r ==> x in allRubric && Applies(x, t, ProjectRestriction(projects, project))
  {
    if allRubric == [] then previous
    else
      var indicators := Filter(allRubric, (x: RubricItem) => x.isActive && ForChannel(x, t));
      match ProjectRestriction(projects, project)
      case Some(ids) => Filter(indicators, (x: RubricItem) => x.id in ids)
      case None => indicators
  }

  /** Every applicable criterion is kept, in the order of the rubric. */
  lemma {:induction false} FilteredRubricExact(allRubric: seq<RubricItem>, t: AuditType, project: string,
                                               projects: seq<Project>, previous: seq<RubricItem>)
    requires allRubric != []
    ensures var restriction := ProjectRestriction(projects, project);
      FilteredRubric(allRubric, t, project, projects, previous) ==
        Filter(allRubric, (x: RubricItem) => Applies(x, t, restriction))
  {
    var restriction := ProjectRestriction(projects, project);
    var first := (x: RubricItem) => x.isActive && ForChannel(x, t);
    match restriction
    case Some(ids) =>
      FilterTwice(allRubric, first, (x: RubricItem) => x.id in ids, (x: RubricItem) => Applies(x, t, restriction));
    case None =>
      FilterTwice(allRubric, first, (x: RubricItem) => true, (x: RubricItem) => Applies(x, t, restriction));
      FilterAll(Filter(allRubric, first), (x: RubricItem) => true);
  }

  /** Two filters in a row are one filter by the conjunction. */
  lemma {:induction false} FilterTwice<T>(xs: seq<T>, p: T -> bool, q: T -> bool, both: T -> bool)
    requires forall x :: both(x) == (p(x) && q(x))
    ensures Filter(Filter(xs, p), q) == Filter(xs, both)
  {
    if xs != [] {
      FilterTwice(xs[1..], p, q, both);
    }
  }

  // ---------------------------------------------------------------------
  // calculateScore, perception and CSAT.
  // ---------------------------------------------------------------------

  /** `!!answers[id]`. */
  predicate Passed(answers: map<string, bool>, id: string) {
    id in answers && answers[id]
  }

  /** The number of criteria answered true. */
  function CountPassed(rubric: seq<RubricItem>, answers: map<string, bool>): (r: nat)
    ensures r <= |rubric|
  {
    if rubric == [] then 0
    else CountPassed(rubric[..|rubric| - 1], answers) + (if Passed(answers, rubric[|rubric| - 1].id) then 1 else 0)
  }

  /** The score of a set of answers: 0 without criteria, otherwise the
      rounded percentage of criteria answered true. */
  function Score(rubric: seq<RubricItem>, answers: map<string, bool>): (r: int)
    ensures 0 <= r <= 100
    ensures rubric == [] ==> r == 0
  {
    if rubric == [] then 0 else Percent(CountPassed(rubric, answers), |rubric|)
  }

  /** `calculateScore`, counting in a loop. */
  method CalculateScore(filteredRubric: seq<RubricItem>, answers: map<string, bool>) returns (score: int)
    ensures score == Score(filteredRubric, answers)
  {
    if |filteredRubric| == 0 {
      return 0;
    }
    var trues := 0;
    var i := 0;
    while i < |filteredRubric|
      invariant 0 <= i <= |filteredRubric|
      invariant trues == CountPassed(filteredRubric[..i], answers)
    {
      assert filteredRubric[..i + 1][..i] == filteredRubric[..i];
      if filteredRubric[i].id in answers && answers[filteredRubric[i].id] {
        trues := trues + 1;
      }
      i := i + 1;
    }
    assert filteredRubric[..i] == filteredRubric;
    score := Percent(trues, |filteredRubric|);
  }

  /** Every criterion answered true. */
  predicate AllPassed(rubric: seq<RubricItem>, answers: map<string, bool>) {
    forall i :: 0 <= i < |rubric| ==> Passed(answers, rubric[i].id)
  }

  lemma {:induction false} CountPassedAll(rubric: seq<RubricItem>, answers: map<string, bool>)
    ensures CountPassed(rubric, answers) == |rubric| <==> AllPassed(rubric, answers)
  {
    if rubric != [] {
      var init := rubric[..|rubric| - 1];
      CountPassedAll(init, answers);
      assert forall i :: 0 <= i < |init| ==> init[i] == rubric[i];
    }
  }

  /** Answers for ids outside the rubric do not change the score. */
  lemma {:induction false} ScoreIgnoresOtherIds(rubric: seq<RubricItem>, a: map<string, bool>, b: map<string, bool>)
    requires forall i :: 0 <= i < |rubric| ==> (Passed(a, rubric[i].id) <==> Passed(b, rubric[i].id))
    ensures CountPassed(rubric, a) == CountPassed(rubric, b)
    ensures Score(rubric, a) == Score(rubric, b)
  {
    if rubric != [] {
      var init := rubric[..|rubric| - 1];
      assert forall i :: 0 <= i < |init| ==> init[i] == rubric[i];
      ScoreIgnoresOtherIds(init, a, b);
    }
  }

  /** With fewer than 200 criteria the score is 100 exactly when every
      criterion is answered true. */
  lemma FullScoreIffAllPassed(rubric: seq<RubricItem>, answers: map<string, bool>)
    requires 0 < |rubric| < 200
    ensures Score(rubric, answers) == 100 <==> AllPassed(rubric, answers)
  {
    CountPassedAll(rubric, answers);
    PercentFullOnlyWhenAll(CountPassed(rubric, answers), |rubric|);
  }

  /** The perception effect. */
  function PerceptionOf(score: int): (p: Perception)
    ensures p == OPTIMAL <==> score == 100
    ensures p == POOR <==> score < 75
  {
    if score == 100 then OPTIMAL else if score >= 75 then ACCEPTABLE else POOR
  }

  /** The CSAT saved with the audit. */
  function CsatOf(p: Perception): (c: int)
    ensures c in {2, 4, 5}
    ensures c == 5 <==> p == OPTIMAL
    ensures p == ACCEPTABLE ==> c == 4
    ensures p == POOR ==> c == 2
  {
    match p
    case OPTIMAL => 5
    case ACCEPTABLE => 4
    case POOR => 2
  }

  /** The perception of a scored form is OPTIMAL exactly when every one of
      its (fewer than 200) criteria is answered true; an empty form is POOR. */
  lemma OptimalIffAllPassed(rubric: seq<RubricItem>, answers: map<string, bool>)
    requires |rubric| < 200
    ensures rubric == [] ==> PerceptionOf(Score(rubric, answers)) == POOR
    ensures rubric != [] ==> (PerceptionOf(Score(rubric, answers)) == OPTIMAL <==> AllPassed(rubric, answers))
  {
    if rubric != [] {
      FullScoreIffAllPassed(rubric, answers);
    }
  }

  // ---------------------------------------------------------------------
  // handleSave and the ticket number.
  // ---------------------------------------------------------------------

  /** The form's fields at the moment of saving. */
  datatype FormState = FormState(
    agentName: string,
    project: string,
    ticketId: string,
    date: string,
    auditType: AuditType,
    perception: Perception,
    answers: map<string, bool>,
    filteredRubric: seq<RubricItem>)

  /** `handleSave`: nothing is saved while the agent, project or ticket is
      empty; an edited audit keeps its id and status, a new one gets
      `freshId` (the clock) and PENDING_REVIEW. */
  method HandleSave(form: FormState, initialData: Option<Audit>, freshId: string) returns (saved: Option<Audit>)
    ensures saved.None? <==> form.agentName == "" || form.project == "" || form.ticketId == ""
    ensures saved.Some? ==> saved.value.qualityScore == Some(Score(form.filteredRubric, form.answers))
    ensures saved.Some? ==> saved.value.csat == CsatOf(form.perception)
    ensures saved.Some? ==> saved.value.readableId == form.ticketId
    ensures saved.Some? ==> saved.value.agentName == form.agentName && saved.value.project == form.project
    ensures saved.Some? ==> saved.value.date == form.date && saved.value.auditType == form.auditType
    ensures saved.Some? ==> saved.value.customData == Some(form.answers)
    ensures saved.Some? && initialData.Some? ==> saved.value.status == initialData.value.status
    ensures saved.Some? && initialData.None? ==> saved.value.status == PENDING_REVIEW
    ensures saved.Some? && initialData.Some? && initialData.value.id != "" ==> saved.value.id == initialData.value.id
    ensures saved.Some? && (initialData.None? || initialData.value.id == "") ==> saved.value.id == freshId
  {
    if form.agentName == "" || form.project == "" || form.ticketId == "" {
      return None;
    }
    var score := CalculateScore(form.filteredRubric, form.answers);
    var id := if initialData.Some? && initialData.value.id != "" then initialData.value.id else freshId;
    var status := if initialData.Some? then initialData.value.status else PENDING_REVIEW;
    saved := Some(Audit(id, form.ticketId, form.agentName, form.project, form.date, form.auditType, status,
                        CsatOf(form.perception), Some(score), Some(form.answers), None));
  }

  /** `Math.floor(1000 + random * 9000)` for `random` in [0, 1). */
  function TicketNumber(random: real): (n: int)
    requires 0.0 <= random < 1.0
    ensures 1000 <= n <= 9999
  {
    assert random * 9000.0 < 9000.0;
    (1000.0 + random * 9000.0).Floor
  }

  lemma FourDigits(n: nat)
    requires 1000 <= n <= 9999
    ensures |NatToString(n)| == 4
  {
    var a, b, c := n / 10, n / 10 / 10, n / 10 / 10 / 10;
    assert 100 <= a <= 999 && 10 <= b <= 99 && 1 <= c <= 9;
    assert |NatToString(c)| == 1;
    assert |NatToString(b)| == 2;
    assert |NatToString(a)| == 3;
  }

  /** A generated ticket id: "QA-", four digits, "-", the year. */
  function TicketId(random: real, year: nat): (r: string)
    requires 0.0 <= random < 1.0
    ensures |r| >= 9 && r[..3] == "QA-" && r[7] == '-'
    ensures forall i :: 3 <= i < 7 ==> '0' <= r[i] <= '9'
  {
    var n := TicketNumber(random);
    FourDigits(n);
    "QA-" + NatToString(n) + "-" + NatToString(year)
  }
}

=== FILE: common.dfy ===
/**
 * Shared vocabulary of the model: optional values, the JavaScript string
 * operations the application relies on (substring search, ASCII case
 * mapping, trimming, joining and splitting, code-unit ordering, number
 * formatting), `Math.round` of a quotient, and order-preserving filtering
 * and stable sorting of sequences.
 */
module Common {

  datatype Option<+T> = None | Some(value: T)

  /** A value, or the exception the source would throw instead. */
  datatype Result<+T> = Success(value: T) | Failure(error: string)

  // ---------------------------------------------------------------------
  // Rounding: Math.round(p / q) on exact rationals.
  // ---------------------------------------------------------------------

  /** `Math.round(p / q)` for a positive divisor: the nearest integer to
      p/q, a half rounded towards +infinity. */
  function RoundDiv(p: int, q: int): (r: int)
    requires q > 0
    ensures (2 * q) * r <= 2 * p + q < (2 * q) * r + 2 * q
  {
    var d := 2 * q;
    var r := (2 * p + q) / d;
    assert 2 * p + q == d * r + (2 * p + q) % d;
    r
  }

  /** Multiplying by a non-negative factor keeps an order. */
  lemma MulMono(a: int, b: int, c: int)
    requires a >= 0 && b <= c
    ensures a * b <= a * c
  {
    assert a * c - a * b == a * (c - b);
  }

  /** The rounded quotient lies between any bounds of the exact one. */
  lemma RoundDivBetween(p: int, q: int, lo: int, hi: int)
    requires q > 0 && lo * q <= p <= hi * q
    ensures lo <= RoundDiv(p, q) <= hi
  {
    var r := RoundDiv(p, q);
    if r < lo {
      MulMono(2 * q, r + 1, lo);
    }
    if r > hi {
      MulMono(2 * q, hi + 1, r);
    }
  }

  /** `Math.round(k / n * 100)`: a percentage of k out of n. */
  function Percent(k: int, n: int): (r: int)
    requires n > 0
    ensures 0 <= k <= n ==> 0 <= r <= 100
  {
    if 0 <= k <= n then RoundDivBetween(100 * k, n, 0, 100); RoundDiv(100 * k, n)
    else RoundDiv(100 * k, n)
  }

  /** A rounded percentage is 100 only when nothing is missing, as long as
      fewer than 200 things are counted (199/200 already rounds to 100). */
  lemma PercentFullOnlyWhenAll(k: int, n: int)
    requires 0 < n < 200 && 0 <= k <= n
    ensures Percent(k, n) == 100 <==> k == n
  {
    var r := Percent(k, n);
    if k == n {
      RoundDivBetween(100 * k, n, 100, 100);
    } else if r >= 100 {
      MulMono(2 * n, 100, r);
    }
  }

  // ---------------------------------------------------------------------
  // Characters and strings (JavaScript semantics, ASCII case mapping).
  // ---------------------------------------------------------------------

  /** The characters JavaScript's `trim` removes and `\s` matches: the
      WhiteSpace and LineTerminator code points of ECMAScript. */
  predicate IsWhitespace(c: char) {
    var n := c as int;
    n == 0x09 || n == 0x0A || n == 0x0B || n == 0x0C || n == 0x0D || n == 0x20 ||
    n == 0xA0 || n == 0x1680 || (0x2000 <= n <= 0x200A) || n == 0x2028 ||
    n == 0x2029 || n == 0x202F || n == 0x205F || n == 0x3000 || n == 0xFEFF
  }

  function UpperChar(c: char): char {
    if 'a' <= c <= 'z' then (c as int - 32) as char else c
  }

  function LowerChar(c: char): char {
    if 'A' <= c <= 'Z' then (c as int + 32) as char else c
  }

  /** `toUpperCase`, restricted to the ASCII letters. */
  function Upper(s: string): (r: string)
    ensures |r| == |s|
    ensures forall i :: 0 <= i < |s| ==> r[i] == UpperChar(s[i])
  {
    seq(|s|, i requires 0 <= i < |s| => UpperChar(s[i]))
  }

  /** `toLowerCase`, restricted to the ASCII letters. */
  function Lower(s: string): (r: string)
    ensures |r| == |s|
    ensures forall i :: 0 <= i < |s| ==> r[i] == LowerChar(s[i])
  {
    seq(|s|, i requires 0 <= i < |s| => LowerChar(s[i]))
  }

  /** `s.includes(t)`: t occurs in s at some position. */
  predicate Contains(s: string, t: string)
    decreases |s|
  {
    t <= s || (|s| > 0 && Contains(s[1..], t))
  }

  /** t occurs in s starting at index i. */
  predicate OccursAt(s: string, t: string, i: int) {
    0 <= i <= |s| - |t| && s[i..i + |t|] == t
  }

  /** The recursive definition of `Contains` finds exactly the occurrences. */
  lemma {:induction false} ContainsAt(s: string, t: string)
    ensures Contains(s, t) <==> exists i :: OccursAt(s, t, i)
    decreases |s|
  {
    if t <= s {
      assert OccursAt(s, t, 0);
    } else if |s| > 0 {
      ContainsAt(s[1..], t);
      if Contains(s[1..], t) {
        var i :| OccursAt(s[1..], t, i);
        assert s[1..][i..i + |t|] == s[i + 1..i + 1 + |t|];
        assert OccursAt(s, t, i + 1);
      }
      if exists i :: OccursAt(s, t, i) {
        var i :| OccursAt(s, t, i);
        if i != 0 {
          assert s[1..][i - 1..i - 1 + |t|] == s[i..i + |t|];
          assert OccursAt(s[1..], t, i - 1);
        }
      }
    } else {
      assert forall i :: !OccursAt(s, t, i);
    }
  }

  /** `trimStart`. */
  function TrimStart(s: string): (r: string)
    ensures r <= s || (|r| <= |s| && r == s[|s| - |r|..])
    ensures r != [] ==> !IsWhitespace(r[0])
  {
    if |s| > 0 && IsWhitespace(s[0]) then TrimStart(s[1..]) else s
  }

  /** `trimEnd`. */
  function TrimEnd(s: string): (r: string)
    ensures r <= s
    ensures r != [] ==> !IsWhitespace(r[|r| - 1])
  {
    if |s| > 0 && IsWhitespace(s[|s| - 1]) then TrimEnd(s[..|s| - 1]) else s
  }

  /** `trim`. */
  function Trim(s: string): string {
    TrimEnd(TrimStart(s))
  }

  /** Trimming a text whose ends are not whitespace changes nothing. */
  lemma TrimUnchanged(s: string)
    requires s != [] && !IsWhitespace(s[0]) && !IsWhitespace(s[|s| - 1])
    ensures Trim(s) == s
  {
  }

  function DigitChar(d: nat): char
    requires d < 10
  {
    "0123456789"[d]
  }

  /** `String(n)` for a natural number: its decimal digits, no leading zero. */
  function NatToString(n: nat): (r: string)
    ensures |r| >= 1
    ensures forall i :: 0 <= i < |r| ==> '0' <= r[i] <= '9'
    ensures |r| > 1 ==> r[0] != '0'
  {
    if n < 10 then [DigitChar(n)] else NatToString(n / 10) + [DigitChar(n % 10)]
  }

  /** `String(i)` for an integer. */
  function IntToString(i: int): string {
    if i < 0 then "-" + NatToString(-i) else NatToString(i)
  }

  /** The value of a string of decimal digits. */
  function DigitsValue(s: string): nat
    requires forall i :: 0 <= i < |s| ==> '0' <= s[i] <= '9'
  {
    if s == [] then 0 else 10 * DigitsValue(s[..|s| - 1]) + (s[|s| - 1] as int - '0' as int)
  }

  lemma {:induction false} NatToStringValue(n: nat)
    ensures DigitsValue(NatToString(n)) == n
  {
    if n >= 10 {
      NatToStringValue(n / 10);
      var s := NatToString(n);
      assert s[..|s| - 1] == NatToString(n / 10);
    }
  }

  /** JavaScript's `<` on two strings: code-unit lexicographic order. */
  predicate StrLess(a: string, b: string) {
    if a == [] then b != []
    else if b == [] then false
    else if a[0] != b[0] then a[0] < b[0]
    else StrLess(a[1..], b[1..])
  }

  /** JavaScript's `<=` on two strings. */
  predicate StrLessEq(a: string, b: string) {
    a == b || StrLess(a, b)
  }

  /** `parts.join(sep)`. */
  function Join(parts: seq<string>, sep: string): string {
    if |parts| == 0 then ""
    else if |parts| == 1 then parts[0]
    else parts[0] + sep + Join(parts[1..], sep)
  }

  /** `s.split(sep)` for a one-character separator. */
  function Split(s: string, sep: char): (r: seq<string>)
    ensures |r| >= 1
    decreases |s|
  {
    if s == [] then [""]
    else if s[0] == sep then [""] + Split(s[1..], sep)
    else var rest := Split(s[1..], sep); [[s[0]] + rest[0]] + rest[1..]
  }

  /** Splitting the first part off a joined text. */
  lemma {:induction false} SplitPrefix(p: string, rest: string, sep: char)
    requires sep !in p
    ensures Split(p + [sep] + rest, sep) == [p] + Split(rest, sep)
    decreases |p|
  {
    if p == [] {
      assert p + [sep] + rest == [sep] + rest;
      assert ([sep] + rest)[1..] == rest;
    } else {
      var s := p + [sep] + rest;
      assert s[0] == p[0];
      assert s[1..] == p[1..] + [sep] + rest;
      SplitPrefix(p[1..], rest, sep);
      assert [p[0]] + p[1..] == p;
    }
  }

  /** A part without the separator splits to itself. */
  lemma {:induction false} SplitPlain(p: string, sep: char)
    requires sep !in p
    ensures Split(p, sep) == [p]
    decreases |p|
  {
    if p != [] {
      SplitPlain(p[1..], sep);
      assert [p[0]] + p[1..] == p;
    }
  }

  /** Joining with a one-character separator is undone by splitting on it,
      provided no part contains the separator. */
  lemma {:induction false} SplitJoin(parts: seq<string>, sep: char)
    requires |parts| >= 1
    requires forall i :: 0 <= i < |parts| ==> sep !in parts[i]
    ensures Split(Join(parts, [sep]), sep) == parts
    decreases |parts|
  {
    if |parts| == 1 {
      SplitPlain(parts[0], sep);
    } else {
      SplitJoin(parts[1..], sep);
      SplitPrefix(parts[0], Join(parts[1..], [sep]), sep);
      assert [parts[0]] + parts[1..] == parts;
    }
  }

  // ---------------------------------------------------------------------
  // Sequences: Array.prototype.filter, a stable sort, slice(0, n).
  // ---------------------------------------------------------------------

  /** `xs.filter(p)`. */
  function Filter<T>(xs: seq<T>, p: T -> bool): (r: seq<T>)
    ensures |r| <= |xs|
    ensures forall x :: x in r ==> x in xs && p(x)
  {
    if xs == [] then []
    else if p(xs[0]) then [xs[0]] + Filter(xs[1..], p)
    else Filter(xs[1..], p)
  }

  /** Filtering keeps every element that satisfies the predicate. */
  lemma {:induction false} FilterKeeps<T>(xs: seq<T>, p: T -> bool, x: T)
    requires x in xs && p(x)
    ensures x in Filter(xs, p)
  {
    if xs[0] != x {
      FilterKeeps(xs[1..], p, x);
    }
  }

  /** Filtering keeps exactly the elements that satisfy the predicate. */
  lemma FilterExact<T>(xs: seq<T>, p: T -> bool)
    ensures forall x :: x in Filter(xs, p) <==> x in xs && p(x)
  {
    forall x | x in xs && p(x) ensures x in Filter(xs, p) {
      FilterKeeps(xs, p, x);
    }
  }

  /** Filtering commutes with concatenation: relative order is kept. */
  lemma {:induction false} FilterAppend<T>(a: seq<T>, b: seq<T>, p: T -> bool)
    ensures Filter(a + b, p) == Filter(a, p) + Filter(b, p)
  {
    if a != [] {
      assert (a + b)[1..] == a[1..] + b;
      FilterAppend(a[1..], b, p);
    } else {
      assert a + b == b;
    }
  }

  /** A filter whose predicate holds everywhere keeps the whole sequence. */
  lemma {:induction false} FilterAll<T>(xs: seq<T>, p: T -> bool)
    requires forall i :: 0 <= i < |xs| ==> p(xs[i])
    ensures Filter(xs, p) == xs
  {
    if xs != [] {
      FilterAll(xs[1..], p);
    }
  }

  /** a is b with some elements left out: a sub-sequence in b's order. */
  predicate IsSubseq<T(==)>(a: seq<T>, b: seq<T>)
    decreases |b|
  {
    || a == []
    || (&& b != []
        && (|| IsSubseq(a, b[..|b| - 1])
            || (a[|a| - 1] == b[|b| - 1] && IsSubseq(a[..|a| - 1], b[..|b| - 1]))))
  }

  /** Appending to b keeps a sub-sequence, and appending the same element
      to both extends it. */
  lemma IsSubseqSnoc<T>(a: seq<T>, b: seq<T>, x: T)
    requires IsSubseq(a, b)
    ensures IsSubseq(a, b + [x])
    ensures IsSubseq(a + [x], b + [x])
  {
    assert (b + [x])[..|b|] == b;
    assert (a + [x])[..|a|] == a;
  }

  predicate SortedBy<T>(xs: seq<T>, key: T -> int) {
    forall i, j :: 0 <= i < j < |xs| ==> key(xs[i]) <= key(xs[j])
  }

  /** Inserts x before the first element whose key is not smaller. */
  function InsertBy<T>(x: T, xs: seq<T>, key: T -> int): seq<T> {
    if xs == [] || key(x) <= key(xs[0]) then [x] + xs
    else [xs[0]] + InsertBy(x, xs[1..], key)
  }

  /** `xs.sort((a, b) => key(a) - key(b))`: a stable insertion sort. */
  function SortBy<T>(xs: seq<T>, key: T -> int): seq<T> {
    if xs == [] then [] else InsertBy(xs[0], SortBy(xs[1..], key), key)
  }

  /** Insertion adds exactly the one element. */
  lemma {:induction false} InsertByPerm<T>(x: T, xs: seq<T>, key: T -> int)
    ensures multiset(InsertBy(x, xs, key)) == multiset(xs) + multiset{x}
    ensures |InsertBy(x, xs, key)| == |xs| + 1
  {
    if xs != [] && key(x) > key(xs[0]) {
      InsertByPerm(x, xs[1..], key);
      assert xs == [xs[0]] + xs[1..];
    }
  }

  lemma {:induction false} InsertByCorrect<T>(x: T, xs: seq<T>, key: T -> int)
    requires SortedBy(xs, key)
    ensures SortedBy(InsertBy(x, xs, key), key)
    ensures multiset(InsertBy(x, xs, key)) == multiset(xs) + multiset{x}
    ensures |InsertBy(x, xs, key)| == |xs| + 1
  {
    InsertByPerm(x, xs, key);
    if xs != [] && key(x) > key(xs[0]) {
      var tail := xs[1..];
      InsertByCorrect(x, tail, key);
      var rest := InsertBy(x, tail, key);
      InsertByAbove(x, xs, rest, key);
      var r := [xs[0]] + rest;
      assert InsertBy(x, xs, key) == r;
      forall i, j | 0 <= i < j < |r| ensures key(r[i]) <= key(r[j]) {
        assert r[j] == rest[j - 1];
        if i > 0 {
          assert r[i] == rest[i - 1];
        }
      }
    }
  }

  /** Inserting x after the head of a sorted sequence, when x sorts after
      it, gives elements none of which sorts before the head. */
  lemma InsertByAbove<T>(x: T, xs: seq<T>, rest: seq<T>, key: T -> int)
    requires SortedBy(xs, key) && xs != [] && key(x) > key(xs[0])
    requires multiset(rest) == multiset(xs[1..]) + multiset{x}
    ensures forall j :: 0 <= j < |rest| ==> key(xs[0]) <= key(rest[j])
  {
    forall j | 0 <= j < |rest| ensures key(xs[0]) <= key(rest[j]) {
      assert rest[j] in multiset(rest);
      if rest[j] != x {
        assert rest[j] in multiset(xs[1..]);
        var k :| 0 <= k < |xs[1..]| && xs[1..][k] == rest[j];
        assert xs[k + 1] == rest[j];
      }
    }
  }

  /** The sort yields an ascending permutation of its input. */
  lemma {:induction false} SortByCorrect<T>(xs: seq<T>, key: T -> int)
    ensures SortedBy(SortBy(xs, key), key)
    ensures multiset(SortBy(xs, key)) == multiset(xs)
    ensures |SortBy(xs, key)| == |xs|
  {
    if xs != [] {
      SortByCorrect(xs[1..], key);
      InsertByCorrect(xs[0], SortBy(xs[1..], key), key);
      assert xs == [xs[0]] + xs[1..];
    }
  }

  /** The elements whose key is v. */
  function KeyIs<T>(key: T -> int, v: int): T -> bool {
    y => key(y) == v
  }

  /** Insertion passes only over smaller keys, so among the elements of
      key v the new one comes first. */
  lemma {:induction false} InsertByTies<T>(x: T, ys: seq<T>, key: T -> int, v: int)
    ensures Filter(InsertBy(x, ys, key), KeyIs(key, v)) ==
            if key(x) == v then [x] + Filter(ys, KeyIs(key, v)) else Filter(ys, KeyIs(key, v))
  {
    var p := KeyIs(key, v);
    if ys == [] || key(x) <= key(ys[0]) {
      assert ([x] + ys)[1..] == ys;
    } else {
      InsertByTies(x, ys[1..], key, v);
      assert ([ys[0]] + InsertBy(x, ys[1..], key))[1..] == InsertBy(x, ys[1..], key);
      if key(x) == v {
        assert !p(ys[0]);
      }
    }
  }

  /** The sort is stable: the elements of any one key keep their input
      order. */
  lemma {:induction false} SortByStable<T>(xs: seq<T>, key: T -> int, v: int)
    ensures Filter(SortBy(xs, key), KeyIs(key, v)) == Filter(xs, KeyIs(key, v))
  {
    if xs != [] {
      SortByStable(xs[1..], key, v);
      InsertByTies(xs[0], SortBy(xs[1..], key), key, v);
    }
  }

  /** `xs.slice(0, n)`. */
  function Take<T>(xs: seq<T>, n: nat): (r: seq<T>)
    ensures |r| == if |xs| < n then |xs| else n
    ensures r <= xs
  {
    if |xs| <= n then xs else xs[..n]
  }

  /** Does the key occur in the list? */
  predicate HasKey<T>(xs: seq<T>, key: T -> string, k: string) {
    exists i :: 0 <= i < |xs| && key(xs[i]) == k
  }
}

=== FILE: crm.dfy ===
/**
 * The CRM page (src/components/CRM.tsx): the search, status and date
 * filters over the loaded audits, agents and projects, the initials shown
 * for an agent, the average quality, and the export of the selected
 * audits.
 */
module Crm {
  import opened Common
  import opened Types
  import Storage
  import Scorecard

  // ---------------------------------------------------------------------
  // Filters.
  // ---------------------------------------------------------------------

  /** The status select: every status, or one. */
  datatype StatusFilter = ALL | Only(status: AuditStatus)

  /** The lowercased term occurs in the lowercased agent, project or (non
      empty) ticket id. */
  predicate MatchesSearch(a: Audit, term: string) {
    || Contains(Lower(a.agentName), Lower(term))
    || Contains(Lower(a.project), Lower(term))
    || (a.readableId != "" && Contains(Lower(a.readableId), Lower(term)))
  }

  predicate MatchesStatus(a: Audit, filter: StatusFilter) {
    filter == ALL || a.status == filter.status
  }

  /** Inclusive bounds on the date text; an empty bound is no bound. */
  predicate MatchesDates(a: Audit, startDate: string, endDate: string) {
    (startDate == "" || StrLessEq(startDate, a.date)) && (endDate == "" || StrLessEq(a.date, endDate))
  }

  predicate Shown(a: Audit, term: string, filter: StatusFilter, startDate: string, endDate: string) {
    MatchesSearch(a, term) && MatchesStatus(a, filter) && MatchesDates(a, startDate, endDate)
  }

  /** `filteredAudits`: an audit is listed exactly when it matches all
      three filters, in the loaded order. */
  function FilteredAudits(audits: seq<Audit>, term: string, filter: StatusFilter,
                          startDate: string, endDate: string): (r: seq<Audit>)
    ensures forall a :: a in r ==> a in audits && Shown(a, term, filter, startDate, endDate)
    ensures forall a :: a in audits && Shown(a, term, filter, startDate, endDate) ==> a in r
  {
    var keep := (a: Audit) => Shown(a, term, filter, startDate, endDate);
    forall a | a in audits && keep(a)
      ensures a in Filter(audits, keep)
    {
      FilterKeeps(audits, keep, a);
    }
    Filter(audits, keep)
  }

  /** Every string contains the empty string. */
  lemma ContainsEmpty(s: string)
    ensures Contains(s, "")
  {
  }

  /** With an empty term, status ALL and no dates, every audit is listed. */
  lemma {:induction false} NoFilterListsAll(audits: seq<Audit>)
    ensures FilteredAudits(audits, "", ALL, "", "") == audits
  {
    forall i | 0 <= i < |audits|
      ensures Shown(audits[i], "", ALL, "", "")
    {
      ContainsEmpty(Lower(audits[i].agentName));
    }
    FilterAll(audits, (a: Audit) => Shown(a, "", ALL, "", ""));
  }

  /** The agents and projects tabs: names containing the term, ignoring
      case. */
  function FilteredAgents(agents: seq<Agent>, term: string): (r: seq<Agent>)
    ensures forall a :: a in r <==> a in agents && Contains(Lower(a.name), Lower(term))
  {
    var keep := (a: Agent) => Contains(Lower(a.name), Lower(term));
    forall a | a in agents && keep(a)
      ensures a in Filter(agents, keep)
    {
      FilterKeeps(agents, keep, a);
    }
    Filter(agents, keep)
  }

  function FilteredProjects(projects: seq<Project>, term: string): (r: seq<Project>)
    ensures forall p :: p in r <==> p in projects && Contains(Lower(p.name), Lower(term))
  {
    var keep := (p: Project) => Contains(Lower(p.name), Lower(term));
    forall p | p in projects && keep(p)
      ensures p in Filter(projects, keep)
    {
      FilterKeeps(projects, keep, p);
    }
    Filter(projects, keep)
  }

  /** `avgQualityVal`: the rounded mean score of the listed audits (the
      same rounding as the scorecard), 0 when none is listed. */
  lemma AvgQuality(audits: seq<Audit>, term: string, filter: StatusFilter, startDate: string, endDate: string)
    ensures var shown := FilteredAudits(audits, term, filter, startDate, endDate);
      && (shown == [] ==> Scorecard.AverageScore(shown) == 0)
      && (Scorecard.ScoresInRange(audits) ==> 0 <= Scorecard.AverageScore(shown) <= 100)
  {
    var shown := FilteredAudits(audits, term, filter, startDate, endDate);
    if Scorecard.ScoresInRange(audits) {
      forall i | 0 <= i < |shown|
        ensures 0 <= ScoreOrZero(shown[i]) <= 100
      {
        assert shown[i] in audits;
      }
      Scorecard.AverageBounds(shown);
    }
  }

  // ---------------------------------------------------------------------
  // getInitials
  // ---------------------------------------------------------------------

  predicate NoWhitespace(s: string) {
    forall k :: 0 <= k < |s| ==> !IsWhitespace(s[k])
  }

  /** The index of the first whitespace, or the length. */
  function FirstWhitespace(s: string): (r: nat)
    ensures r <= |s|
    ensures forall k :: 0 <= k < r ==> !IsWhitespace(s[k])
    ensures r < |s| ==> IsWhitespace(s[r])
  {
    if s == [] || IsWhitespace(s[0]) then 0 else 1 + FirstWhitespace(s[1..])
  }

  /** The length of the leading run of whitespace. */
  function WhitespaceRun(s: string): (r: nat)
    ensures r <= |s|
    ensures forall k :: 0 <= k < r ==> IsWhitespace(s[k])
    ensures r < |s| ==> !IsWhitespace(s[r])
  {
    if s != [] && IsWhitespace(s[0]) then 1 + WhitespaceRun(s[1..]) else 0
  }

  function Last(parts: seq<string>): string
    requires |parts| >= 1
  {
    parts[|parts| - 1]
  }

  /** `s.split(/\s+/)`: the pieces between maximal runs of whitespace. */
  function SplitWords(s: string): (parts: seq<string>)
    ensures |parts| >= 1
    decreases |s|
  {
    var i := FirstWhitespace(s);
    if i == |s| then [s]
    else
      var j := i + WhitespaceRun(s[i..]);
      [s[..i]] + SplitWords(s[j..])
  }

  /** A text without whitespace is its own single word; a text with
      whitespace splits into two or more parts. */
  lemma SplitWordsCount(s: string)
    ensures NoWhitespace(s) ==> SplitWords(s) == [s]
    ensures !NoWhitespace(s) ==> |SplitWords(s)| >= 2
  {
    var i := FirstWhitespace(s);
    if i < |s| {
      assert !NoWhitespace(s);
    }
  }

  /** A text that does not start with whitespace gives a non-empty first
      word that starts with its first character. */
  lemma SplitWordsFirst(s: string)
    requires s != [] && !IsWhitespace(s[0])
    ensures SplitWords(s)[0] != "" && SplitWords(s)[0][0] == s[0]
  {
  }

  /** The index of the last whitespace, or -1. */
  function LastWhitespace(s: string): (r: int)
    ensures -1 <= r < |s|
    ensures r >= 0 ==> IsWhitespace(s[r])
    ensures forall k :: r < k < |s| ==> !IsWhitespace(s[k])
  {
    if s == [] then -1
    else if IsWhitespace(s[|s| - 1]) then |s| - 1
    else LastWhitespace(s[..|s| - 1])
  }

  /** The last whitespace is the one with none after it. */
  lemma {:induction false} LastWhitespaceAt(s: string, k: int)
    requires 0 <= k < |s| && IsWhitespace(s[k])
    requires forall m :: k < m < |s| ==> !IsWhitespace(s[m])
    ensures LastWhitespace(s) == k
  {
    if k < |s| - 1 {
      var init := s[..|s| - 1];
      assert forall m :: k < m < |init| ==> init[m] == s[m];
      LastWhitespaceAt(init, k);
    }
  }

  /** Seen from a whitespace character onward, the last whitespace is the
      one in the suffix after it, if any, else that character. */
  lemma LastWhitespaceSuffix(s: string, j: int)
    requires 1 <= j <= |s| && IsWhitespace(s[j - 1])
    ensures LastWhitespace(s[j..]) >= 0 ==> LastWhitespace(s) == j + LastWhitespace(s[j..])
    ensures LastWhitespace(s[j..]) < 0 ==> LastWhitespace(s) == j - 1
  {
    var rest := s[j..];
    var k := LastWhitespace(rest);
    assert forall m :: j <= m < |s| ==> s[m] == rest[m - j];
    if k >= 0 {
      LastWhitespaceAt(s, j + k);
    } else {
      LastWhitespaceAt(s, j - 1);
    }
  }

  /** One step of the split: the first word, then the split of what
      follows the first run of whitespace. */
  lemma SplitWordsStep(s: string) returns (j: int)
    requires !NoWhitespace(s)
    ensures 1 <= j <= |s| && IsWhitespace(s[j - 1])
    ensures SplitWords(s) == [s[..FirstWhitespace(s)]] + SplitWords(s[j..])
    ensures Last(SplitWords(s)) == Last(SplitWords(s[j..]))
  {
    j := FirstRunEnd(s);
    var tail := SplitWords(s[j..]);
    assert SplitWords(s) == [s[..FirstWhitespace(s)]] + tail;
    LastOfCons(s[..FirstWhitespace(s)], tail);
  }

  lemma LastOfCons(word: string, parts: seq<string>)
    requires |parts| >= 1
    ensures Last([word] + parts) == Last(parts)
  {
  }

  /** Where the first run of whitespace ends. */
  lemma FirstRunEnd(s: string) returns (j: int)
    requires !NoWhitespace(s)
    ensures FirstWhitespace(s) < |s|
    ensures j == FirstWhitespace(s) + WhitespaceRun(s[FirstWhitespace(s)..])
    ensures 1 <= j <= |s| && IsWhitespace(s[j - 1])
  {
    var i := FirstWhitespace(s);
    assert i < |s|;
    var run := WhitespaceRun(s[i..]);
    assert s[i..][0] == s[i];
    j := i + run;
    assert s[i..][run - 1] == s[j - 1];
  }

  /** With whitespace in the text, the last word is everything after the
      last whitespace character. */
  lemma {:induction false} SplitWordsLast(s: string)
    requires !NoWhitespace(s)
    ensures LastWhitespace(s) >= 0
    ensures Last(SplitWords(s)) == s[LastWhitespace(s) + 1..]
  {
    var j := SplitWordsStep(s);
    var rest := s[j..];
    LastWhitespaceSuffix(s, j);
    if LastWhitespace(rest) < 0 {
      assert NoWhitespace(rest);
      assert Last(SplitWords(rest)) == rest;
    } else {
      assert !NoWhitespace(rest);
      SplitWordsLast(rest);
      var k := LastWhitespace(rest);
      assert s[j + k + 1..] == rest[k + 1..];
    }
  }

  /** Trimming leaves no whitespace at either end. */
  lemma TrimEnds(s: string)
    ensures Trim(s) != [] ==> !IsWhitespace(Trim(s)[0]) && !IsWhitespace(Trim(s)[|Trim(s)| - 1])
  {
  }

  /** The first and last words of a trimmed name with inner whitespace
      are not empty. */
  lemma WordsOfTrimmed(name: string)
    requires !NoWhitespace(Trim(name))
    ensures SplitWords(Trim(name))[0] != "" && Last(SplitWords(Trim(name))) != ""
  {
    var s := Trim(name);
    TrimEnds(name);
    SplitWordsFirst(s);
    SplitWordsLast(s);
  }

  /** `getInitials`: the first two characters of a single word, otherwise
      the initials of the first and last words, uppercased. */
  function GetInitials(name: string): (r: string)
    ensures |r| <= 2
  {
    var s := Trim(name);
    var parts := SplitWords(s);
    if |parts| == 0 then "?"
    else if |parts| == 1 then Upper(parts[0][..if |parts[0]| < 2 then |parts[0]| else 2])
    else
      WordsOfTrimmed(name);
      Upper([parts[0][0], Last(parts)[0]])
  }

  /** The initials in terms of the trimmed name: a name without inner
      whitespace gives its first two characters; otherwise its first
      character and the one after the last inner whitespace. The '?'
      branch is never taken. */
  lemma InitialsSpec(name: string)
    ensures |SplitWords(Trim(name))| >= 1
    ensures var s := Trim(name);
      NoWhitespace(s) ==> GetInitials(name) == Upper(s[..if |s| < 2 then |s| else 2])
    ensures var s := Trim(name);
      !NoWhitespace(s) ==> && 0 < LastWhitespace(s) < |s| - 1
                           && GetInitials(name) == [UpperChar(s[0]), UpperChar(s[LastWhitespace(s) + 1])]
  {
    var s := Trim(name);
    if NoWhitespace(s) {
      InitialsOneWord(name);
    } else {
      InitialsManyWords(name);
    }
  }

  lemma InitialsOneWord(name: string)
    requires NoWhitespace(Trim(name))
    ensures var s := Trim(name); GetInitials(name) == Upper(s[..if |s| < 2 then |s| else 2])
  {
    SplitWordsCount(Trim(name));
  }

  lemma InitialsManyWords(name: string)
    requires !NoWhitespace(Trim(name))
    ensures var s := Trim(name);
      && 0 < LastWhitespace(s) < |s| - 1
      && GetInitials(name) == [UpperChar(s[0]), UpperChar(s[LastWhitespace(s) + 1])]
  {
    var s := Trim(name);
    TrimEnds(name);
    SplitWordsCount(s);
    SplitWordsFirst(s);
    SplitWordsLast(s);
    var parts := SplitWords(s);
    var k := LastWhitespace(s);
    assert GetInitials(name) == Upper([parts[0][0], Last(parts)[0]]);
    assert Last(parts)[0] == s[k + 1];
    assert Upper([parts[0][0], Last(parts)[0]]) == [UpperChar(s[0]), UpperChar(s[k + 1])];
  }

  // ---------------------------------------------------------------------
  // The page's loaded data and selection.
  // ---------------------------------------------------------------------

  /** What `loadAllData` fetches in one go. */
  datatype Snapshot = Snapshot(audits: seq<Audit>, agents: seq<Agent>, projects: seq<Project>)

  class CrmView {
    var audits: seq<Audit>
    var agents: seq<Agent>
    var projects: seq<Project>
    var selectedIds: set<string>

    /** The page starts empty, with nothing selected. */
    constructor ()
      ensures audits == [] && agents == [] && projects == [] && selectedIds == {}
    {
      audits, agents, projects, selectedIds := [], [], [], {};
    }

    /** `loadAllData`: a successful fetch replaces the three lists and
        clears the selection; a failed one changes nothing. */
    method LoadAllData(fetched: Option<Snapshot>)
      modifies this
      ensures fetched.Some? ==> audits == fetched.value.audits && agents == fetched.value.agents &&
                                projects == fetched.value.projects && selectedIds == {}
      ensures fetched.None? ==> audits == old(audits) && agents == old(agents) &&
                                projects == old(projects) && selectedIds == old(selectedIds)
    {
      if fetched.Some? {
        audits := fetched.value.audits;
        agents := fetched.value.agents;
        projects := fetched.value.projects;
        selectedIds := {};
      }
    }

    /** The loaded audits whose id is selected, in loaded order. */
    function Selected(): (r: seq<Audit>)
      reads this
      ensures forall a :: a in r <==> a in audits && a.id in selectedIds
    {
      var ids := selectedIds;
      var keep := (a: Audit) => a.id in ids;
      forall a | a in audits && keep(a)
        ensures a in Filter(audits, keep)
      {
        FilterKeeps(audits, keep, a);
      }
      Filter(audits, keep)
    }

    /** `handleBulkExport`: the CSV of exactly the selected audits, or
        nothing when no loaded audit is selected. */
    function BulkExport(): (r: Option<string>)
      reads this
      ensures r.None? <==> forall a :: a in audits ==> a.id !in selectedIds
      ensures r.Some? ==> r.value == Storage.CsvText(Selected())
    {
      var toExport := Selected();
      if |toExport| == 0 then None
      else
        assert toExport[0] in toExport;
        Some(Storage.CsvText(toExport))
    }
  }

  /** After a reload nothing is exported. */
  method ReloadThenExport(view: CrmView, fetched: Snapshot) returns (r: Option<string>)
    modifies view
    ensures r.None?
  {
    view.LoadAllData(Some(fetched));
    r := view.BulkExport();
  }
}

=== FILE: gemini.dfy ===
/**
 * The response handling around the Gemini calls (src/services/geminiService.ts):
 * the response schema built from the rubric, the retry with exponential
 * backoff, the slicing of the JSON object out of the raw model text, and the
 * coercion of the parsed (untrusted) object into a `SmartAnalysisResult`.
 *
 * Parsed JSON is the `Json` datatype below; a property that is absent is
 * `None` (JavaScript's `undefined`). Numbers are integers.
 */
module Gemini {
  import opened Common
  import opened Types

  // ---------------------------------------------------------------------
  // Parsed JSON and the JavaScript coercions applied to it.
  // ---------------------------------------------------------------------

  datatype Json =
    | JNull
    | JBool(b: bool)
    | JNum(n: int)
    | JStr(s: string)
    | JArr(items: seq<Json>)
    | JObj(fields: map<string, Json>)

  /** `v[key]`: an own property of an object, `undefined` otherwise. */
  function Get(v: Json, key: string): Option<Json> {
    if v.JObj? && key in v.fields then Some(v.fields[key]) else None
  }

  /** `!!v`: false for undefined, null, false, 0 and the empty string. */
  predicate Truthy(v: Option<Json>) {
    match v
    case None => false
    case Some(j) =>
      match j
      case JNull => false
      case JBool(b) => b
      case JNum(n) => n != 0
      case JStr(s) => s != ""
      case JArr(_) => true
      case JObj(_) => true
  }

  /** `v || d`. */
  function OrElse(v: Option<Json>, d: Json): (r: Json)
    ensures Truthy(v) ==> Some(r) == v
    ensures !Truthy(v) ==> r == d
  {
    if Truthy(v) then v.value else d
  }

  /** `String(v)`: arrays join their elements with ",", writing null as
      the empty text; every object is "[object Object]". */
  function ToString(v: Json): string
    decreases v
  {
    match v
    case JNull => "null"
    case JBool(b) => if b then "true" else "false"
    case JNum(n) => IntToString(n)
    case JStr(s) => s
    case JArr(items) => Join(ElementStrings(items), ",")
    case JObj(_) => "[object Object]"
  }

  function ElementStrings(items: seq<Json>): seq<string>
    decreases items
  {
    if items == [] then []
    else [if items[0].JNull? then "" else ToString(items[0])] + ElementStrings(items[1..])
  }

  predicate IsDigits(s: string) {
    s != [] && forall i :: 0 <= i < |s| ==> '0' <= s[i] <= '9'
  }

  /** `Number(s)` for the decimal integers: surrounding whitespace is
      ignored, an empty text is 0, a sign is allowed; anything else is NaN. */
  function StringToNumber(s: string): (r: Number)
    ensures r.Int? && Trim(s) != [] && '0' <= Trim(s)[0] <= '9' ==> r.n >= 0
  {
    var t := Trim(s);
    if t == [] then Int(0)
    else if IsDigits(t) then Int(DigitsValue(t))
    else if t[0] == '+' && IsDigits(t[1..]) then Int(DigitsValue(t[1..]))
    else if t[0] == '-' && IsDigits(t[1..]) then Int(-(DigitsValue(t[1..]) as int))
    else NaN
  }

  /** `Number(v)`. */
  function ToNumber(v: Json): Number {
    match v
    case JNull => Int(0)
    case JBool(b) => Int(if b then 1 else 0)
    case JNum(n) => Int(n)
    case JStr(s) => StringToNumber(s)
    case _ => StringToNumber(ToString(v))
  }

  /** A number read back from its own decimal text is itself. */
  lemma NumberTextRoundTrip(n: nat)
    ensures ToNumber(JStr(NatToString(n))) == Int(n)
  {
    var t := NatToString(n);
    assert !IsWhitespace(t[0]) && !IsWhitespace(t[|t| - 1]);
    TrimUnchanged(t);
    NatToStringValue(n);
  }

  // ---------------------------------------------------------------------
  // getDynamicSchema
  // ---------------------------------------------------------------------

  datatype SchemaType = STRING | NUMBER | BOOLEAN | ARRAY | OBJECT

  datatype SchemaProp = SchemaProp(kind: SchemaType, description: string)

  /** The response schema: its top-level properties, the properties of its
      `customData` object, and its required list. */
  datatype ResponseSchema = ResponseSchema(
    properties: seq<(string, SchemaType)>,
    customDataProperties: map<string, SchemaProp>,
    required: seq<string>)

  const TopLevelProperties: seq<(string, SchemaType)> := [
    ("score", NUMBER), ("csat", NUMBER), ("sentiment", STRING), ("interactionType", STRING),
    ("participants", ARRAY), ("customData", OBJECT), ("notes", STRING), ("durationAnalysis", STRING)
  ]

  const RequiredFields: seq<string> := ["score", "csat", "notes", "customData", "participants"]

  const InfoKey: string := "_info"

  const InfoProp: SchemaProp := SchemaProp(STRING, "No rubric items provided")

  const CriterionPrefix: string := "Evaluación para el criterio: "

  /** No item of the rubric after i and before n has the same id as item i. */
  predicate LastBefore(rubric: seq<RubricItem>, i: int, n: int)
    requires 0 <= i < n <= |rubric|
  {
    forall j :: i < j < n ==> rubric[j].id != rubric[i].id
  }

  /** No later item of the rubric has the same id as item i. */
  predicate LastWithId(rubric: seq<RubricItem>, i: int)
    requires 0 <= i < |rubric|
  {
    LastBefore(rubric, i, |rubric|)
  }

  /** Builds the schema. An empty rubric gets the single placeholder
      property `_info`, so the object is never empty; otherwise there is one
      BOOLEAN property per distinct id, described by the label of the last
      item with that id (later assignments overwrite earlier ones). */
  method GetDynamicSchema(rubric: seq<RubricItem>) returns (schema: ResponseSchema)
    ensures schema.properties == TopLevelProperties
    ensures schema.required == RequiredFields
    ensures rubric == [] ==> schema.customDataProperties == map[InfoKey := InfoProp]
    ensures rubric != [] ==> schema.customDataProperties.Keys == RubricIds(rubric)
    ensures forall i :: 0 <= i < |rubric| && LastWithId(rubric, i) ==>
      schema.customDataProperties[rubric[i].id] == SchemaProp(BOOLEAN, CriterionPrefix + rubric[i].labelText)
    ensures |schema.customDataProperties| >= 1
  {
    var props: map<string, SchemaProp> := map[];
    if |rubric| == 0 {
      props := props[InfoKey := InfoProp];
    } else {
      var i := 0;
      while i < |rubric|
        invariant 0 <= i <= |rubric|
        invariant props.Keys == RubricIds(rubric[..i])
        invariant forall a :: 0 <= a < i && LastBefore(rubric, a, i) ==>
          props[rubric[a].id] == SchemaProp(BOOLEAN, CriterionPrefix + rubric[a].labelText)
      {
        var r := rubric[i];
        ghost var before := props;
        props := props[r.id := SchemaProp(BOOLEAN, CriterionPrefix + r.labelText)];
        assert rubric[..i + 1] == rubric[..i] + [r];
        forall a | 0 <= a < i + 1 && LastBefore(rubric, a, i + 1)
          ensures props[rubric[a].id] == SchemaProp(BOOLEAN, CriterionPrefix + rubric[a].labelText)
        {
          if a < i {
            assert LastBefore(rubric, a, i) && rubric[a].id != r.id;
            assert props[rubric[a].id] == before[rubric[a].id];
          }
        }
        i := i + 1;
      }
      assert rubric[..i] == rubric;
      assert rubric[0].id in props;
    }
    schema := ResponseSchema(TopLevelProperties, props, RequiredFields);
  }

  /** Every required field is one of the schema's top-level properties. */
  lemma RequiredFieldsDeclared()
    ensures forall f :: f in RequiredFields ==> exists t :: (f, t) in TopLevelProperties
  {
    assert ("score", NUMBER) in TopLevelProperties;
    assert ("csat", NUMBER) in TopLevelProperties;
    assert ("notes", STRING) in TopLevelProperties;
    assert ("customData", OBJECT) in TopLevelProperties;
    assert ("participants", ARRAY) in TopLevelProperties;
  }

  // ---------------------------------------------------------------------
  // withRetry
  // ---------------------------------------------------------------------

  /** The outcome of one call of the wrapped function: a value, or an error
      with its `status` (None when the error has no numeric status). */
  datatype Attempt<T> = Resolved(value: T) | Rejected(status: Option<int>)

  /** A rate-limit or server error is worth another try. */
  predicate Retryable(status: Option<int>) {
    status == Some(429) || (status.Some? && status.value >= 500)
  }

  function Pow2(k: nat): (r: nat)
    ensures r >= 1
  {
    if k == 0 then 1 else 2 * Pow2(k - 1)
  }

  /** `withRetry(fn, retries, delay)`, where `call(k)` is the outcome of the
      k-th call of `fn`: the final outcome and the waits, in milliseconds,
      made before each retry. Only retryable errors are retried, each wait
      twice the one before, and never more than `retries` times; the outcome
      is the one of the last call made. */
  function WithRetry<T>(call: nat -> Attempt<T>, attempt: nat, retries: nat, delay: nat)
    : (r: (Attempt<T>, seq<nat>))
    decreases retries
    ensures |r.1| <= retries
    ensures r.0 == call(attempt + |r.1|)
    ensures forall i :: 0 <= i < |r.1| ==> r.1[i] == delay * Pow2(i)
    ensures forall k :: attempt <= k < attempt + |r.1| ==> call(k).Rejected? && Retryable(call(k).status)
    ensures r.0.Resolved? || !Retryable(r.0.status) || |r.1| == retries
  {
    var first := call(attempt);
    if first.Resolved? || retries == 0 || !Retryable(first.status) then (first, [])
    else
      var rest := WithRetry(call, attempt + 1, retries - 1, delay * 2);
      DoubledDelays(rest.1, delay);
      (rest.0, [delay] + rest.1)
  }

  /** Waits that start from twice the delay, preceded by the delay itself,
      are again the doubling sequence. */
  lemma DoubledDelays(waits: seq<nat>, delay: nat)
    requires forall i :: 0 <= i < |waits| ==> waits[i] == (delay * 2) * Pow2(i)
    ensures forall i :: 0 <= i < |waits| + 1 ==> ([delay] + waits)[i] == delay * Pow2(i)
  {
    forall i | 0 <= i < |waits| + 1
      ensures ([delay] + waits)[i] == delay * Pow2(i)
    {
      if i > 0 {
        assert Pow2(i) == 2 * Pow2(i - 1);
        assert (delay * 2) * Pow2(i - 1) == delay * (2 * Pow2(i - 1));
      }
    }
  }

  /** With the defaults (3 retries from 1000 ms) there are at most four
      calls, the waits are a prefix of 1000, 2000, 4000, and the outcome is
      the first success, the first error that is not retryable, or the
      fourth error. */
  lemma DefaultRetry<T>(call: nat -> Attempt<T>)
    ensures var (outcome, waits) := WithRetry(call, 0, 3, 1000);
      && |waits| <= 3
      && waits == [1000, 2000, 4000][..|waits|]
      && outcome == call(|waits|)
      && (forall k :: 0 <= k < |waits| ==> call(k).Rejected? && Retryable(call(k).status))
      && (outcome.Resolved? || !Retryable(outcome.status) || |waits| == 3)
  {
    var (outcome, waits) := WithRetry(call, 0, 3, 1000);
    assert Pow2(1) == 2 && Pow2(2) == 4;
    assert forall i :: 0 <= i < |waits| ==> waits[i] == [1000, 2000, 4000][i];
  }

  /** An error that is not retryable ends the retry after one call. */
  lemma NonRetryableRethrown<T>(call: nat -> Attempt<T>, retries: nat, delay: nat)
    requires call(0).Rejected? && !Retryable(call(0).status)
    ensures WithRetry(call, 0, retries, delay) == (call(0), [])
  {
  }

  // ---------------------------------------------------------------------
  // cleanJsonResponse
  // ---------------------------------------------------------------------

  /** `s.indexOf(c)`. */
  function IndexOf(s: string, c: char): (r: int)
    ensures -1 <= r < |s|
    ensures r >= 0 ==> s[r] == c && c !in s[..r]
    ensures r == -1 ==> c !in s
  {
    if s == [] then -1
    else if s[0] == c then 0
    else
      var k := IndexOf(s[1..], c);
      assert s == [s[0]] + s[1..];
      if k == -1 then -1
      else
        assert s[..k + 1] == [s[0]] + s[1..][..k];
        k + 1
  }

  /** `s.lastIndexOf(c)`. */
  function LastIndexOf(s: string, c: char): (r: int)
    ensures -1 <= r < |s|
    ensures r >= 0 ==> s[r] == c && c !in s[r + 1..]
    ensures r == -1 ==> c !in s
  {
    if s == [] then -1
    else if s[|s| - 1] == c then |s| - 1
    else
      assert s == s[..|s| - 1] + [s[|s| - 1]];
      var k := LastIndexOf(s[..|s| - 1], c);
      if k >= 0 then
        assert s[k + 1..] == s[..|s| - 1][k + 1..] + [s[|s| - 1]];
        k
      else k
  }

  const EmptyObjectText: string := "{}"

  /** The text from the first '{' to the last '}', trimmed, or "{}" when the
      text is empty or holds no such pair. */
  function CleanJsonResponse(text: string): (r: string)
    ensures |r| >= 2 && r[0] == '{' && r[|r| - 1] == '}'
    ensures 0 <= IndexOf(text, '{') < LastIndexOf(text, '}') ==>
      r == text[IndexOf(text, '{')..LastIndexOf(text, '}') + 1]
    ensures !(0 <= IndexOf(text, '{') < LastIndexOf(text, '}')) ==> r == EmptyObjectText
    ensures ('{' !in text || '}' !in text) ==> r == EmptyObjectText
  {
    if text == [] then EmptyObjectText
    else
      var start := IndexOf(text, '{');
      var end := LastIndexOf(text, '}');
      if start == -1 || end == -1 || end < start then EmptyObjectText
      else
        var slice := text[start..end + 1];
        assert slice[0] == '{' && slice[|slice| - 1] == '}';
        TrimUnchanged(slice);
        Trim(slice)
  }

  /** Cleaning an already cleaned text changes nothing. */
  lemma CleanIdempotent(text: string)
    ensures CleanJsonResponse(CleanJsonResponse(text)) == CleanJsonResponse(text)
  {
    var r := CleanJsonResponse(text);
    var start := IndexOf(r, '{');
    var end := LastIndexOf(r, '}');
    assert start == 0 && end == |r| - 1;
    assert r[0..|r|] == r;
  }

  // ---------------------------------------------------------------------
  // normalizeResult
  // ---------------------------------------------------------------------

  /** `data || {}`. */
  function Raw(data: Json): Json {
    if Truthy(Some(data)) then data else JObj(map[])
  }

  /** `String(v || d).toUpperCase()`. */
  function UpperOr(v: Option<Json>, d: string): string {
    Upper(ToString(OrElse(v, JStr(d))))
  }

  /** The overall sentiment: POSITIVE when the upper-cased value mentions
      "POS", else NEGATIVE when it mentions "NEG", else NEUTRAL. */
  function SentimentOf(raw: Json): (r: Sentiment)
    ensures r != MIXED
    ensures r == POSITIVE <==> Contains(UpperOr(Get(raw, "sentiment"), "NEUTRAL"), "POS")
    ensures r == NEGATIVE <==>
      !Contains(UpperOr(Get(raw, "sentiment"), "NEUTRAL"), "POS") &&
      Contains(UpperOr(Get(raw, "sentiment"), "NEUTRAL"), "NEG")
  {
    var sVal := UpperOr(Get(raw, "sentiment"), "NEUTRAL");
    if Contains(sVal, "POS") then POSITIVE
    else if Contains(sVal, "NEG") then NEGATIVE
    else NEUTRAL
  }

  /** One participant of the raw list. */
  function ToParticipant(p: Json): (r: Participant)
    ensures r.role == AGENT <==> Contains(UpperOr(Get(p, "role"), "UNKNOWN"), "AGENT")
    ensures r.role == AGENT || r.role == CUSTOMER
    ensures r.sentiment == POSITIVE || r.sentiment == NEUTRAL
  {
    var name := if Truthy(Get(p, "name")) then Get(p, "name").value
                else OrElse(Get(p, "role"), JStr("User"));
    Participant(
      ToString(name),
      if Contains(UpperOr(Get(p, "role"), "UNKNOWN"), "AGENT") then AGENT else CUSTOMER,
      if Contains(UpperOr(Get(p, "sentiment"), "NEUTRAL"), "POS") then POSITIVE else NEUTRAL,
      ToString(OrElse(Get(p, "tone"), JStr("Neutral"))))
  }

  /** `participants.map(...)`: reading a property of a null entry throws. */
  function MapParticipants(items: seq<Json>): (r: Result<seq<Participant>>)
    ensures r.Failure? <==> JNull in items
    ensures r.Success? ==> |r.value| == |items|
    ensures r.Success? ==> forall i :: 0 <= i < |items| ==> r.value[i] == ToParticipant(items[i])
  {
    if items == [] then Success([])
    else if items[0].JNull? then Failure(TypeError)
    else
      match MapParticipants(items[1..])
      case Failure(e) => Failure(e)
      case Success(rest) => Success([ToParticipant(items[0])] + rest)
  }

  const TypeError: string := "TypeError"

  const NoReportNotes: string := "No se generó el informe de razonamiento."

  const SystemParticipant: Participant := Participant("System", UNKNOWN, NEUTRAL, "N/A")

  /** The coerced result of a parsed response: customData has exactly the
      rubric ids as keys, each the truthiness of the raw value; the
      participant list is never empty; score and csat default to 0 and 3;
      notes must be a text; the reading fails only on a null participant. */
  function Normalize(data: Json, rubric: seq<RubricItem>): (r: Result<SmartAnalysisResult>)
    ensures var raw := Raw(data);
      r.Failure? <==> Get(raw, "participants").Some? && Get(raw, "participants").value.JArr? &&
                      JNull in Get(raw, "participants").value.items
    ensures r.Success? ==> r.value.customData.Keys == RubricIds(rubric)
    ensures r.Success? ==> forall k :: k in r.value.customData ==>
      r.value.customData[k] == Truthy(Get(OrElse(Get(Raw(data), "customData"), JObj(map[])), k))
    ensures r.Success? ==> |r.value.participants| >= 1 && r.value.sentiment != MIXED
    ensures r.Success? ==> (!Truthy(Get(Raw(data), "score")) ==> r.value.score == Int(0))
    ensures r.Success? ==> (!Truthy(Get(Raw(data), "csat")) ==> r.value.csat == Int(3))
    ensures r.Success? ==> (r.value.interactionType == INTERNAL <==>
      Contains(ToString(OrElse(Get(Raw(data), "interactionType"), JStr(""))), "INTERN"))
  {
    var raw := Raw(data);
    var customRaw := OrElse(Get(raw, "customData"), JObj(map[]));
    var mapped := match Get(raw, "participants")
                  case Some(JArr(items)) => MapParticipants(items)
                  case _ => Success([]);
    match mapped
    case Failure(e) => Failure(e)
    case Success(participants) =>
      Success(SmartAnalysisResult(
        ToNumber(OrElse(Get(raw, "score"), JNum(0))),
        ToNumber(OrElse(Get(raw, "csat"), JNum(3))),
        match Get(raw, "notes") case Some(JStr(s)) => s case _ => NoReportNotes,
        map k | k in RubricIds(rubric) :: Truthy(Get(customRaw, k)),
        SentimentOf(raw),
        if Contains(ToString(OrElse(Get(raw, "interactionType"), JStr(""))), "INTERN") then INTERNAL else EXTERNAL,
        if |participants| > 0 then participants else [SystemParticipant],
        ToString(OrElse(Get(raw, "durationAnalysis"), JStr("Análisis completado")))))
  }

  /** The fields copied from the model's answer: the sentiment read from
      the raw value, a truthy score or csat converted to a number, the
      mapped participants when the answer lists any, and the notes when
      they are a string (the fixed notice otherwise). */
  lemma NormalizeFields(data: Json, rubric: seq<RubricItem>)
    ensures var r := Normalize(data, rubric);
      r.Success? ==> r.value.sentiment == SentimentOf(Raw(data))
    ensures var r := Normalize(data, rubric);
      r.Success? && Truthy(Get(Raw(data), "score")) ==> r.value.score == ToNumber(Get(Raw(data), "score").value)
    ensures var r := Normalize(data, rubric);
      r.Success? && Truthy(Get(Raw(data), "csat")) ==> r.value.csat == ToNumber(Get(Raw(data), "csat").value)
    ensures var r := Normalize(data, rubric); var p := Get(Raw(data), "participants");
      r.Success? && p.Some? && p.value.JArr? && p.value.items != [] ==>
        MapParticipants(p.value.items).Success? && r.value.participants == MapParticipants(p.value.items).value
    ensures var r := Normalize(data, rubric); var n := Get(Raw(data), "notes");
      r.Success? ==> r.value.notes == if n.Some? && n.value.JStr? then n.value.s else NoReportNotes
  {
  }

  /** The rubric loop: one entry per rubric id, the truthiness of the raw
      value; raw keys outside the rubric are dropped, missing ones are false. */
  method SanitizeCustomData(customRaw: Json, rubric: seq<RubricItem>) returns (m: map<string, bool>)
    ensures m.Keys == RubricIds(rubric)
    ensures forall k :: k in m ==> m[k] == Truthy(Get(customRaw, k))
  {
    m := map[];
    var i := 0;
    while i < |rubric|
      invariant 0 <= i <= |rubric|
      invariant m.Keys == RubricIds(rubric[..i])
      invariant forall k :: k in m ==> m[k] == Truthy(Get(customRaw, k))
    {
      m := m[rubric[i].id := Truthy(Get(customRaw, rubric[i].id))];
      assert rubric[..i + 1] == rubric[..i] + [rubric[i]];
      i := i + 1;
    }
    assert rubric[..i] == rubric;
  }

  /** `normalizeResult`, filling customData in a loop. */
  method NormalizeResult(data: Json, rubric: seq<RubricItem>) returns (r: Result<SmartAnalysisResult>)
    ensures r == Normalize(data, rubric)
  {
    var raw := Raw(data);
    var customRaw := OrElse(Get(raw, "customData"), JObj(map[]));
    var mapped := match Get(raw, "participants")
                  case Some(JArr(items)) => MapParticipants(items)
                  case _ => Success([]);
    if mapped.Failure? {
      return Failure(mapped.error);
    }
    var custom := SanitizeCustomData(customRaw, rubric);
    assert custom == map k | k in RubricIds(rubric) :: Truthy(Get(customRaw, k));
    var participants := mapped.value;
    r := Success(SmartAnalysisResult(
      ToNumber(OrElse(Get(raw, "score"), JNum(0))),
      ToNumber(OrElse(Get(raw, "csat"), JNum(3))),
      match Get(raw, "notes") case Some(JStr(s)) => s case _ => NoReportNotes,
      custom,
      SentimentOf(raw),
      if Contains(ToString(OrElse(Get(raw, "interactionType"), JStr(""))), "INTERN") then INTERNAL else EXTERNAL,
      if |participants| > 0 then participants else [SystemParticipant],
      ToString(OrElse(Get(raw, "durationAnalysis"), JStr("Análisis completado")))));
  }

  /** With no usable participant list the single System entry is used. */
  lemma NoParticipantsGivesSystem(data: Json, rubric: seq<RubricItem>)
    requires var p := Get(Raw(data), "participants"); p.None? || !p.value.JArr? || p.value.items == []
    ensures Normalize(data, rubric).Success?
    ensures Normalize(data, rubric).value.participants == [SystemParticipant]
  {
  }
}

=== FILE: route_guard.dfy ===
/**
 * The route guard (src/components/ProtectedRoute.tsx): authentication,
 * then role, then plan rank; a route that passes renders its children, or
 * the nested outlet when it has none.
 */
module RouteGuard {
  import opened Common
  import opened Types
  import Subscription

  /** What the guard renders. */
  datatype Decision = Navigate(path: string) | RenderChildren | RenderOutlet

  const DefaultRedirect: string := "/login"
  const AppHome: string := "/app"
  const SubscriptionPage: string := "/app/subscription"

  /** `PLAN_HIERARCHY`: a strict ranking of the plans. */
  function PlanRank(tier: SubscriptionTier): (r: nat)
    ensures r < 4
    ensures r == 0 <==> tier == FREE
    ensures r == 3 <==> tier == ENTERPRISE
    ensures tier == STANDARD ==> r == 1
    ensures tier == AI_PRO ==> r == 2
  {
    match tier
    case FREE => 0
    case STANDARD => 1
    case AI_PRO => 2
    case ENTERPRISE => 3
  }

  /** A required role that the user neither holds nor overrides as ADMIN. */
  predicate RoleDenied(user: User, requiredRole: Option<UserRole>) {
    requiredRole.Some? && user.role != requiredRole.value && user.role != ADMIN
  }

  /** A required plan ranked above the user's plan (a missing plan is FREE). */
  predicate PlanDenied(user: User, requiredPlan: Option<SubscriptionTier>) {
    requiredPlan.Some? && PlanRank(Subscription.TierOf(user)) < PlanRank(requiredPlan.value)
  }

  /** The guard. `redirectPath` defaults to "/login" when not given;
      `hasChildren` says whether the route was given children. */
  function Guard(currentUser: Option<User>, requiredRole: Option<UserRole>,
                 requiredPlan: Option<SubscriptionTier>, redirectPath: Option<string>,
                 hasChildren: bool): (d: Decision)
    ensures currentUser.None? ==>
      d == Navigate(match redirectPath case Some(p) => p case None => DefaultRedirect)
    ensures currentUser.Some? ==> (d == Navigate(AppHome) <==> RoleDenied(currentUser.value, requiredRole))
    ensures currentUser.Some? && !RoleDenied(currentUser.value, requiredRole) ==>
      (d == Navigate(SubscriptionPage) <==> PlanDenied(currentUser.value, requiredPlan))
    ensures !d.Navigate? <==>
      currentUser.Some? && !RoleDenied(currentUser.value, requiredRole) &&
      !PlanDenied(currentUser.value, requiredPlan)
    ensures !d.Navigate? ==> (d == RenderChildren <==> hasChildren)
    ensures currentUser.Some? && currentUser.value.role == ADMIN ==> d != Navigate(AppHome)
  {
    match currentUser
    case None => Navigate(match redirectPath case Some(p) => p case None => DefaultRedirect)
    case Some(user) =>
      if RoleDenied(user, requiredRole) then Navigate(AppHome)
      else if PlanDenied(user, requiredPlan) then Navigate(SubscriptionPage)
      else if hasChildren then RenderChildren
      else RenderOutlet
  }

  /** The audit quota never shrinks as the plan rank grows. */
  lemma {:induction false} LimitsFollowRank(a: SubscriptionTier, b: SubscriptionTier)
    requires PlanRank(a) <= PlanRank(b)
    ensures Subscription.Limits(a).audits <= Subscription.Limits(b).audits
  {
    match a
    case FREE =>
    case STANDARD => assert b != FREE;
    case AI_PRO => assert b == AI_PRO || b == ENTERPRISE;
    case ENTERPRISE => assert b == ENTERPRISE;
  }
}

=== FILE: scorecard.dfy ===
/**
 * The figures of a project's scorecard (src/components/ProjectScorecard.tsx):
 * score averages, failure counts per criterion, per-criterion pass rates,
 * the five most failed criteria, the category radar and the five best
 * agents. Rates and averages are `Math.round` of exact quotients.
 */
module Scorecard {
  import opened Common
  import opened Types

  // ---------------------------------------------------------------------
  // Averages and the target.
  // ---------------------------------------------------------------------

  function InProject(projectName: string): Audit -> bool {
    (a: Audit) => a.project == projectName
  }

  /** `audits.filter(a => a.project === selectedProject)`: exactly the
      audits of the project, in their order. */
  function ProjectAudits(audits: seq<Audit>, projectName: string): (r: seq<Audit>)
    ensures forall a :: a in r <==> a in audits && a.project == projectName
    ensures |r| <= |audits|
  {
    FilterExact(audits, InProject(projectName));
    Filter(audits, InProject(projectName))
  }

  /** The sum of the scores, a missing score counting as 0. */
  function SumScores(audits: seq<Audit>): int {
    if audits == [] then 0 else SumScores(audits[..|audits| - 1]) + ScoreOrZero(audits[|audits| - 1])
  }

  predicate ScoresInRange(audits: seq<Audit>) {
    forall i :: 0 <= i < |audits| ==> 0 <= ScoreOrZero(audits[i]) <= 100
  }

  lemma {:induction false} SumScoresBounds(audits: seq<Audit>)
    requires ScoresInRange(audits)
    ensures 0 <= SumScores(audits) <= 100 * |audits|
  {
    if audits != [] {
      var init := audits[..|audits| - 1];
      assert forall i :: 0 <= i < |init| ==> init[i] == audits[i];
      SumScoresBounds(init);
    }
  }

  /** The rounded mean score, 0 for no audits. */
  function AverageScore(audits: seq<Audit>): (r: int)
    ensures audits == [] ==> r == 0
    ensures audits != [] ==> 2 * (|audits| * r) <= 2 * SumScores(audits) + |audits| < 2 * (|audits| * r) + 2 * |audits|
  {
    if audits == [] then 0 else RoundDiv(SumScores(audits), |audits|)
  }

  /** The average stays within 0..100 when every score does. */
  lemma AverageBounds(audits: seq<Audit>)
    requires ScoresInRange(audits)
    ensures 0 <= AverageScore(audits) <= 100
  {
    if audits != [] {
      SumScoresBounds(audits);
      RoundDivBetween(SumScores(audits), |audits|, 0, 100);
    }
  }

  function OfChannel(t: AuditType): Audit -> bool {
    (a: Audit) => a.auditType == t
  }

  /** The voice and chat averages of the scorecard: the rounded mean over
      the audits of one channel, 0 when the channel has none, the project
      average when every audit is of that channel. */
  function ChannelAverage(projectAudits: seq<Audit>, t: AuditType): (r: int)
    ensures (forall a :: a in projectAudits ==> a.auditType != t) ==> r == 0
    ensures (forall a :: a in projectAudits ==> a.auditType == t) ==> r == AverageScore(projectAudits)
    ensures ScoresInRange(projectAudits) ==> 0 <= r <= 100
  {
    ChannelFacts(projectAudits, OfChannel(t));
    AverageScore(Filter(projectAudits, OfChannel(t)))
  }

  /** The filtered average: over nothing when nothing is kept, over
      everything when everything is, and within 0..100 as the scores are. */
  lemma ChannelFacts(audits: seq<Audit>, p: Audit -> bool)
    ensures (forall a :: a in audits ==> !p(a)) ==> Filter(audits, p) == []
    ensures (forall a :: a in audits ==> p(a)) ==> Filter(audits, p) == audits
    ensures ScoresInRange(audits) ==> 0 <= AverageScore(Filter(audits, p)) <= 100
  {
    var kept := Filter(audits, p);
    if forall a :: a in audits ==> p(a) {
      FilterAll(audits, p);
    }
    if ScoresInRange(audits) {
      forall i | 0 <= i < |kept|
        ensures 0 <= ScoreOrZero(kept[i]) <= 100
      {
        assert kept[i] in audits;
      }
      AverageBounds(kept);
    }
  }

  /** `targets.score || 90`. */
  function TargetScore(config: Option<Project>): (r: int)
    ensures r != 0
    ensures (config.None? || config.value.targets.None? || config.value.targets.value.score == 0) ==> r == 90
    ensures config.Some? && config.value.targets.Some? && config.value.targets.value.score != 0 ==>
      r == config.value.targets.value.score
  {
    if config.Some? && config.value.targets.Some? && config.value.targets.value.score != 0
    then config.value.targets.value.score
    else 90
  }

  // ---------------------------------------------------------------------
  // Failures per criterion.
  // ---------------------------------------------------------------------

  /** The audit answered the criterion explicitly false. */
  predicate FailsOn(a: Audit, key: string) {
    a.customData.Some? && key in a.customData.value && !a.customData.value[key]
  }

  /** The number of audits that answered the criterion false. */
  function FailCount(audits: seq<Audit>, key: string): (r: nat)
    ensures r <= |audits|
  {
    if audits == [] then 0
    else FailCount(audits[..|audits| - 1], key) + (if FailsOn(audits[|audits| - 1], key) then 1 else 0)
  }

  function CountOf(m: map<string, nat>, key: string): nat {
    if key in m then m[key] else 0
  }

  /** `failures`: for each criterion some audit answered false, the number
      of audits that did; no entry for the others. */
  method CountFailures(projectAudits: seq<Audit>) returns (failures: map<string, nat>)
    ensures forall key :: key in failures <==> FailCount(projectAudits, key) > 0
    ensures forall key :: CountOf(failures, key) == FailCount(projectAudits, key)
  {
    failures := map[];
    var i := 0;
    while i < |projectAudits|
      invariant 0 <= i <= |projectAudits|
      invariant forall key :: key in failures <==> FailCount(projectAudits[..i], key) > 0
      invariant forall key :: CountOf(failures, key) == FailCount(projectAudits[..i], key)
    {
      var a := projectAudits[i];
      assert projectAudits[..i + 1][..i] == projectAudits[..i];
      if a.customData.Some? {
        var m := a.customData.value;
        var before := failures;
        var todo := m.Keys;
        while todo != {}
          invariant todo <= m.Keys
          invariant forall key :: CountOf(failures, key) ==
                                  CountOf(before, key) + (if key in m && !m[key] && key !in todo then 1 else 0)
          invariant forall key :: key in failures <==> key in before || (key in m && !m[key] && key !in todo)
          decreases todo
        {
          var key :| key in todo;
          if !m[key] {
            failures := failures[key := CountOf(failures, key) + 1];
          }
          todo := todo - {key};
        }
      }
      i := i + 1;
    }
    assert projectAudits[..i] == projectAudits;
  }

  // ---------------------------------------------------------------------
  // Answer counts over criteria ids (rubricStats and the radar).
  // ---------------------------------------------------------------------

  /** The audit answered the criterion (`customData[id] !== undefined`). */
  predicate Answered(a: Audit, id: string) {
    a.customData.Some? && id in a.customData.value
  }

  predicate PassedOn(a: Audit, id: string) {
    Answered(a, id) && a.customData.value[id]
  }

  /** How many of the ids the audit answered, and answered true. */
  function AnsweredIds(a: Audit, ids: seq<string>): (r: nat)
    ensures r <= |ids|
  {
    if ids == [] then 0
    else AnsweredIds(a, ids[..|ids| - 1]) + (if Answered(a, ids[|ids| - 1]) then 1 else 0)
  }

  function PassedIds(a: Audit, ids: seq<string>): (r: nat)
    ensures r <= AnsweredIds(a, ids)
  {
    if ids == [] then 0
    else PassedIds(a, ids[..|ids| - 1]) + (if PassedOn(a, ids[|ids| - 1]) then 1 else 0)
  }

  /** Answers and true answers over all audits and ids. */
  function TotalAnswers(audits: seq<Audit>, ids: seq<string>): nat {
    if audits == [] then 0 else TotalAnswers(audits[..|audits| - 1], ids) + AnsweredIds(audits[|audits| - 1], ids)
  }

  function TotalPasses(audits: seq<Audit>, ids: seq<string>): (r: nat)
    ensures r <= TotalAnswers(audits, ids)
  {
    if audits == [] then 0 else TotalPasses(audits[..|audits| - 1], ids) + PassedIds(audits[|audits| - 1], ids)
  }

  /** A pass rate in percent, 0 when there is no data. */
  function Rate(pass: nat, total: nat): (r: int)
    requires pass <= total
    ensures 0 <= r <= 100
    ensures total == 0 ==> r == 0
    ensures total > 0 && pass == total ==> r == 100
    ensures pass == 0 ==> r == 0
  {
    if total == 0 then 0
    else if pass == total then RoundDivBetween(100 * pass, total, 100, 100); Percent(pass, total)
    else if pass == 0 then RoundDivBetween(0, total, 0, 0); Percent(pass, total)
    else Percent(pass, total)
  }

  /** The two nested loops of the radar over audits and the ids of a
      category. */
  method CountAnswers(audits: seq<Audit>, ids: seq<string>) returns (pass: nat, total: nat)
    ensures pass == TotalPasses(audits, ids) && total == TotalAnswers(audits, ids)
  {
    pass, total := 0, 0;
    var i := 0;
    while i < |audits|
      invariant 0 <= i <= |audits|
      invariant pass == TotalPasses(audits[..i], ids) && total == TotalAnswers(audits[..i], ids)
    {
      var a := audits[i];
      assert audits[..i + 1][..i] == audits[..i];
      if a.customData.Some? {
        var j := 0;
        while j < |ids|
          invariant 0 <= j <= |ids|
          invariant pass == TotalPasses(audits[..i], ids) + PassedIds(a, ids[..j])
          invariant total == TotalAnswers(audits[..i], ids) + AnsweredIds(a, ids[..j])
        {
          assert ids[..j + 1][..j] == ids[..j];
          if ids[j] in a.customData.value {
            total := total + 1;
            if a.customData.value[ids[j]] {
              pass := pass + 1;
            }
          }
          j := j + 1;
        }
        assert ids[..j] == ids;
      } else {
        NoAnswersWithoutData(a, ids);
      }
      i := i + 1;
    }
    assert audits[..i] == audits;
  }

  lemma {:induction false} NoAnswersWithoutData(a: Audit, ids: seq<string>)
    requires a.customData.None?
    ensures AnsweredIds(a, ids) == 0 && PassedIds(a, ids) == 0
  {
    if ids != [] {
      NoAnswersWithoutData(a, ids[..|ids| - 1]);
    }
  }

  // ---------------------------------------------------------------------
  // rubricStats
  // ---------------------------------------------------------------------

  datatype RubricStat = RubricStat(item: RubricItem, avg: int, count: nat)

  function StatOf(item: RubricItem, projectAudits: seq<Audit>): (s: RubricStat)
    ensures s.item == item && 0 <= s.avg <= 100
  {
    var ids := [item.id];
    RubricStat(item, Rate(TotalPasses(projectAudits, ids), TotalAnswers(projectAudits, ids)),
               TotalAnswers(projectAudits, ids))
  }

  function Stats(rubric: seq<RubricItem>, projectAudits: seq<Audit>): (r: seq<RubricStat>)
    ensures |r| == |rubric|
    ensures forall i :: 0 <= i < |r| ==> r[i] == StatOf(rubric[i], projectAudits)
  {
    seq(|rubric|, i requires 0 <= i < |rubric| => StatOf(rubric[i], projectAudits))
  }

  function StatAvg(s: RubricStat): int { s.avg }

  function HasAnswers(): RubricStat -> bool {
    (s: RubricStat) => s.count > 0
  }

  /** `rubricStats`: the criteria answered at least once, ascending by
      pass rate (ties keep rubric order); the stats drop exactly the
      criteria nobody answered and carry rates in 0..100. */
  function RubricStats(rubric: seq<RubricItem>, projectAudits: seq<Audit>): (r: seq<RubricStat>)
    ensures SortedBy(r, StatAvg)
    ensures multiset(r) == multiset(Filter(Stats(rubric, projectAudits), HasAnswers()))
    ensures forall s :: s in r ==> s.count > 0 && 0 <= s.avg <= 100
    ensures forall i :: 0 <= i < |rubric| && StatOf(rubric[i], projectAudits).count > 0 ==>
              StatOf(rubric[i], projectAudits) in r
  {
    var stats := Stats(rubric, projectAudits);
    var kept := Filter(stats, HasAnswers());
    SortByCorrect(kept, StatAvg);
    AnsweredKept(stats, SortBy(kept, StatAvg));
    SortBy(kept, StatAvg)
  }

  /** A rearrangement of the answered stats holds every answered stat and
      nothing else. */
  lemma AnsweredKept(stats: seq<RubricStat>, r: seq<RubricStat>)
    requires multiset(r) == multiset(Filter(stats, HasAnswers()))
    requires forall s :: s in stats ==> 0 <= s.avg <= 100
    ensures forall s :: s in r ==> s.count > 0 && 0 <= s.avg <= 100
    ensures forall i :: 0 <= i < |stats| && stats[i].count > 0 ==> stats[i] in r
  {
    var kept := Filter(stats, HasAnswers());
    forall s | s in r
      ensures s.count > 0 && 0 <= s.avg <= 100
    {
      assert s in multiset(kept);
      assert s in kept;
    }
    forall i | 0 <= i < |stats| && stats[i].count > 0
      ensures stats[i] in r
    {
      assert stats[i] in stats;
      FilterKeeps(stats, HasAnswers(), stats[i]);
      assert stats[i] in multiset(kept);
    }
  }

  // ---------------------------------------------------------------------
  // topWeaknesses
  // ---------------------------------------------------------------------

  datatype Weakness = Weakness(name: string, count: nat, percentage: int)

  datatype Failing = Failing(id: string, count: nat)

  function NegCount(f: Failing): int { -(f.count as int) }

  /** The first rubric item with the id. */
  function ItemWithId(rubric: seq<RubricItem>, id: string): (r: Option<RubricItem>)
    ensures r.Some? ==> r.value in rubric && r.value.id == id
    ensures r.None? ==> forall x :: x in rubric ==> x.id != id
    ensures forall i :: (0 <= i < |rubric| && rubric[i].id == id &&
      (forall j :: 0 <= j < i ==> rubric[j].id != id)) ==> r == Some(rubric[i])
  {
    if rubric == [] then None
    else if rubric[0].id == id then Some(rubric[0])
    else
      assert forall x :: x in rubric[1..] ==> x in rubric;
      assert forall i :: 0 < i < |rubric| ==> rubric[1..][i - 1] == rubric[i];
      ItemWithId(rubric[1..], id)
  }

  /** The display name: the translation of a known criterion (an empty
      translation meaning none), its label, or the bare id. */
  function WeaknessName(rubric: seq<RubricItem>, translate: string -> string, id: string): (r: string)
    ensures ItemWithId(rubric, id).None? ==> r == id
    ensures ItemWithId(rubric, id).Some? && translate(id) != "" ==> r == translate(id)
    ensures ItemWithId(rubric, id).Some? && translate(id) == "" ==> r == ItemWithId(rubric, id).value.labelText
  {
    match ItemWithId(rubric, id)
    case Some(item) => if translate(item.id) != "" then translate(item.id) else item.labelText
    case None => id
  }

  /** Each key with its failure count, in the order of `keys`. */
  function FailureEntries(projectAudits: seq<Audit>, keys: seq<string>): (r: seq<Failing>)
    ensures |r| == |keys|
    ensures forall i :: 0 <= i < |keys| ==> r[i] == Failing(keys[i], FailCount(projectAudits, keys[i]))
  {
    seq(|keys|, i requires 0 <= i < |keys| => Failing(keys[i], FailCount(projectAudits, keys[i])))
  }

  /** The failures ranked by count, most failed first; `keys` is the order
      in which the failures object enumerates its keys. */
  function RankedFailures(projectAudits: seq<Audit>, keys: seq<string>): (r: seq<Failing>)
    ensures multiset(r) == multiset(FailureEntries(projectAudits, keys))
    ensures forall i, j :: 0 <= i < j < |r| ==> r[j].count <= r[i].count
  {
    SortByCorrect(FailureEntries(projectAudits, keys), NegCount);
    SortBy(FailureEntries(projectAudits, keys), NegCount)
  }

  function ToWeakness(f: Failing, rubric: seq<RubricItem>, translate: string -> string, total: nat): Weakness {
    Weakness(WeaknessName(rubric, translate, f.id), f.count, if total > 0 then RoundDiv(100 * f.count, total) else 0)
  }

  /** `keys` enumerates the failures object: each criterion failed at
      least once, exactly once, and nothing else. */
  ghost predicate FailureKeys(projectAudits: seq<Audit>, keys: seq<string>) {
    && (forall k :: k in keys <==> FailCount(projectAudits, k) > 0)
    && (forall i, j :: 0 <= i < j < |keys| ==> keys[i] != keys[j])
  }

  /** The weakness each failing key would be shown as, in key order. */
  function AllWeaknesses(projectAudits: seq<Audit>, keys: seq<string>, rubric: seq<RubricItem>,
                         translate: string -> string): (ws: seq<Weakness>)
    ensures |ws| == |keys|
  {
    seq(|keys|, k requires 0 <= k < |keys| =>
      ToWeakness(Failing(keys[k], FailCount(projectAudits, keys[k])), rubric, translate, |projectAudits|))
  }

  /** `topWeaknesses`: the five most failed criteria. */
  function TopWeaknesses(projectAudits: seq<Audit>, keys: seq<string>, rubric: seq<RubricItem>,
                         translate: string -> string): (r: seq<Weakness>)
    requires FailureKeys(projectAudits, keys)
    ensures |r| == if |keys| < 5 then |keys| else 5
  {
    var top := Take(RankedFailures(projectAudits, keys), 5);
    SortByCorrect(FailureEntries(projectAudits, keys), NegCount);
    seq(|top|, i requires 0 <= i < |top| => ToWeakness(top[i], rubric, translate, |projectAudits|))
  }

  /** Each shown weakness is the entry of a failing criterion, with its
      share of the project's audits as a percentage in 0..100. */
  lemma TopWeaknessesFromKeys(projectAudits: seq<Audit>, keys: seq<string>, rubric: seq<RubricItem>,
                              translate: string -> string)
    requires FailureKeys(projectAudits, keys)
    ensures var r := TopWeaknesses(projectAudits, keys, rubric, translate);
      forall i :: 0 <= i < |r| ==> 0 <= r[i].percentage <= 100
    ensures var r := TopWeaknesses(projectAudits, keys, rubric, translate);
      forall i :: 0 <= i < |r| ==> r[i] in AllWeaknesses(projectAudits, keys, rubric, translate)
  {
    var r := TopWeaknesses(projectAudits, keys, rubric, translate);
    forall i | 0 <= i < |r|
      ensures 0 <= r[i].percentage <= 100
      ensures r[i] in AllWeaknesses(projectAudits, keys, rubric, translate)
    {
      var k := TopWeaknessFrom(projectAudits, keys, rubric, translate, i);
      WeaknessPercent(projectAudits, keys, k, rubric, translate);
    }
  }

  /** Some entry of ws has the count and the name. */
  predicate Shown(ws: seq<Weakness>, count: nat, name: string) {
    exists j :: 0 <= j < |ws| && ws[j].count == count && ws[j].name == name
  }

  /** No criterion left out was failed more often than one shown: such a
      criterion is itself shown, with its count and name. */
  lemma TopWeaknessesComplete(projectAudits: seq<Audit>, keys: seq<string>, rubric: seq<RubricItem>,
                              translate: string -> string)
    requires FailureKeys(projectAudits, keys)
    ensures var r := TopWeaknesses(projectAudits, keys, rubric, translate);
      forall i, id | 0 <= i < |r| && FailCount(projectAudits, id) > r[i].count ::
        Shown(r, FailCount(projectAudits, id), WeaknessName(rubric, translate, id))
  {
    var r := TopWeaknesses(projectAudits, keys, rubric, translate);
    forall i, id | 0 <= i < |r| && FailCount(projectAudits, id) > r[i].count
      ensures Shown(r, FailCount(projectAudits, id), WeaknessName(rubric, translate, id))
    {
      var j := TopWeaknessShown(projectAudits, keys, rubric, translate, i, id);
      assert r[j].count == FailCount(projectAudits, id) && r[j].name == WeaknessName(rubric, translate, id);
    }
  }

  /** The weaknesses are in descending order of failures. */
  lemma TopWeaknessesOrdered(projectAudits: seq<Audit>, keys: seq<string>, rubric: seq<RubricItem>,
                             translate: string -> string)
    requires FailureKeys(projectAudits, keys)
    ensures var r := TopWeaknesses(projectAudits, keys, rubric, translate);
      forall i, j :: 0 <= i < j < |r| ==> r[j].count <= r[i].count
  {
    SortByCorrect(FailureEntries(projectAudits, keys), NegCount);
  }

  /** A shown weakness is the one of some failing key. */
  lemma TopWeaknessFrom(projectAudits: seq<Audit>, keys: seq<string>, rubric: seq<RubricItem>,
                        translate: string -> string, i: int) returns (k: int)
    requires FailureKeys(projectAudits, keys)
    requires 0 <= i < |TopWeaknesses(projectAudits, keys, rubric, translate)|
    ensures 0 <= k < |keys|
    ensures TopWeaknesses(projectAudits, keys, rubric, translate)[i] == AllWeaknesses(projectAudits, keys, rubric, translate)[k]
  {
    var entries := FailureEntries(projectAudits, keys);
    SortByCorrect(entries, NegCount);
    var top := Take(RankedFailures(projectAudits, keys), 5);
    assert top[i] in multiset(entries);
    k :| 0 <= k < |entries| && entries[k] == top[i];
  }

  /** A failure count is a share of the project's audits. */
  lemma WeaknessPercent(projectAudits: seq<Audit>, keys: seq<string>, k: int, rubric: seq<RubricItem>,
                        translate: string -> string)
    requires 0 <= k < |keys|
    ensures 0 <= AllWeaknesses(projectAudits, keys, rubric, translate)[k].percentage <= 100
  {
    var c := FailCount(projectAudits, keys[k]);
    if |projectAudits| > 0 {
      RoundDivBetween(100 * c, |projectAudits|, 0, 100);
    }
  }

  /** A criterion failed more often than a shown one is itself shown. */
  lemma TopWeaknessShown(projectAudits: seq<Audit>, keys: seq<string>, rubric: seq<RubricItem>,
                         translate: string -> string, i: int, id: string) returns (j: int)
    requires FailureKeys(projectAudits, keys)
    requires 0 <= i < |TopWeaknesses(projectAudits, keys, rubric, translate)|
    requires FailCount(projectAudits, id) > TopWeaknesses(projectAudits, keys, rubric, translate)[i].count
    ensures 0 <= j < |TopWeaknesses(projectAudits, keys, rubric, translate)|
    ensures TopWeaknesses(projectAudits, keys, rubric, translate)[j].count == FailCount(projectAudits, id)
    ensures TopWeaknesses(projectAudits, keys, rubric, translate)[j].name == WeaknessName(rubric, translate, id)
  {
    var entries := FailureEntries(projectAudits, keys);
    var ranked := RankedFailures(projectAudits, keys);
    SortByCorrect(entries, NegCount);
    var top := Take(ranked, 5);
    var r := TopWeaknesses(projectAudits, keys, rubric, translate);
    assert id in keys;
    var k :| 0 <= k < |keys| && keys[k] == id;
    assert entries[k] in multiset(ranked);
    var m :| 0 <= m < |ranked| && ranked[m] == entries[k];
    assert r[i].count == top[i].count;
    assert m < |top|;
    assert r[m] == ToWeakness(entries[k], rubric, translate, |projectAudits|);
    j := m;
  }

  // ---------------------------------------------------------------------
  // radarData
  // ---------------------------------------------------------------------

  /** The distinct elements in order of first occurrence
      (`Array.from(new Set(xs))`). */
  function Dedup<T(==)>(xs: seq<T>): seq<T> {
    if xs == [] then []
    else
      var init := Dedup(xs[..|xs| - 1]);
      if xs[|xs| - 1] in init then init else init + [xs[|xs| - 1]]
  }

  /** Dedup keeps every element once and nothing else. */
  lemma {:induction false} DedupSpec<T>(xs: seq<T>)
    ensures forall i :: 0 <= i < |xs| ==> xs[i] in Dedup(xs)
    ensures forall x :: x in Dedup(xs) ==> x in xs
    ensures forall i, j :: 0 <= i < j < |Dedup(xs)| ==> Dedup(xs)[i] != Dedup(xs)[j]
  {
    if xs != [] {
      var init := xs[..|xs| - 1];
      DedupSpec(init);
      assert forall i :: 0 <= i < |init| ==> init[i] == xs[i];
    }
  }

  /** The ids of the category's items, in rubric order. */
  function CategoryIds(rubric: seq<RubricItem>, cat: RubricCategory): (r: seq<string>)
    ensures |r| <= |rubric|
    ensures forall x :: x in r ==> exists i :: 0 <= i < |rubric| && rubric[i].category == cat && rubric[i].id == x
    ensures forall i :: 0 <= i < |rubric| && rubric[i].category == cat ==> rubric[i].id in r
  {
    if rubric == [] then []
    else
      var init := rubric[..|rubric| - 1];
      var last := rubric[|rubric| - 1];
      assert forall i :: 0 <= i < |init| ==> init[i] == rubric[i];
      CategoryIds(init, cat) + (if last.category == cat then [last.id] else [])
  }

  /** The rubric's categories, each once, in order of first occurrence
      (`Array.from(new Set(rubric.map(r => r.category)))`): every
      category of the rubric appears once among the radar's spokes, and
      no other. */
  function Categories(rubric: seq<RubricItem>): (r: seq<RubricCategory>)
    ensures forall i :: 0 <= i < |rubric| ==> rubric[i].category in r
    ensures forall c :: c in r ==> exists i :: 0 <= i < |rubric| && rubric[i].category == c
    ensures forall i, j :: 0 <= i < j < |r| ==> r[i] != r[j]
  {
    var cats := seq(|rubric|, i requires 0 <= i < |rubric| => rubric[i].category);
    DedupSpec(cats);
    assert forall i :: 0 <= i < |rubric| ==> cats[i] == rubric[i].category;
    Dedup(cats)
  }

  /** One spoke of the radar: the project's pass rate (A) against the pass
      rate over every audit (B). */
  datatype RadarPoint = RadarPoint(subject: string, a: int, b: int, fullMark: int)

  const FullMark: int := 100

  /** `radarData`: one point per category present in the rubric, in order
      of first occurrence. */
  method RadarData(rubric: seq<RubricItem>, projectAudits: seq<Audit>, audits: seq<Audit>)
    returns (points: seq<RadarPoint>)
    ensures |points| == |Categories(rubric)|
    ensures forall i :: 0 <= i < |points| ==>
      var ids := CategoryIds(rubric, Categories(rubric)[i]);
      && points[i].subject == Upper(CategoryName(Categories(rubric)[i]))
      && points[i].a == Rate(TotalPasses(projectAudits, ids), TotalAnswers(projectAudits, ids))
      && points[i].b == Rate(TotalPasses(audits, ids), TotalAnswers(audits, ids))
      && points[i].fullMark == FullMark
    ensures forall i :: 0 <= i < |points| ==> 0 <= points[i].a <= 100 && 0 <= points[i].b <= 100
  {
    var categories := Categories(rubric);
    points := [];
    var c := 0;
    while c < |categories|
      invariant 0 <= c <= |categories|
      invariant |points| == c
      invariant forall i :: 0 <= i < c ==>
        var ids := CategoryIds(rubric, categories[i]);
        && points[i].subject == Upper(CategoryName(categories[i]))
        && points[i].a == Rate(TotalPasses(projectAudits, ids), TotalAnswers(projectAudits, ids))
        && points[i].b == Rate(TotalPasses(audits, ids), TotalAnswers(audits, ids))
        && points[i].fullMark == FullMark
    {
      var cat := categories[c];
      var ids := CategoryIds(rubric, cat);
      var projPass, projTotal := CountAnswers(projectAudits, ids);
      var compPass, compTotal := CountAnswers(audits, ids);
      points := points + [RadarPoint(Upper(CategoryName(cat)), Rate(projPass, projTotal), Rate(compPass, compTotal), FullMark)];
      c := c + 1;
    }
  }

  // ---------------------------------------------------------------------
  // topAgents
  // ---------------------------------------------------------------------

  function AgentNames(audits: seq<Audit>): seq<string> {
    seq(|audits|, i requires 0 <= i < |audits| => audits[i].agentName)
  }

  function AgentTotal(audits: seq<Audit>, name: string): int {
    if audits == [] then 0
    else
      var last := audits[|audits| - 1];
      AgentTotal(audits[..|audits| - 1], name) + (if last.agentName == name then ScoreOrZero(last) else 0)
  }

  function AgentCount(audits: seq<Audit>, name: string): nat {
    if audits == [] then 0
    else AgentCount(audits[..|audits| - 1], name) + (if audits[|audits| - 1].agentName == name then 1 else 0)
  }

  lemma {:induction false} AgentCountPositive(audits: seq<Audit>, name: string)
    requires name in AgentNames(audits)
    ensures AgentCount(audits, name) > 0
  {
    var init := audits[..|audits| - 1];
    if audits[|audits| - 1].agentName != name {
      var k :| 0 <= k < |audits| && audits[k].agentName == name;
      assert k < |init| && AgentNames(init)[k] == name;
      AgentCountPositive(init, name);
    }
  }

  /** The running total and number of audits of one agent. */
  datatype Tally = Tally(total: int, count: nat)

  function TallyOf(audits: seq<Audit>, name: string): Tally {
    Tally(AgentTotal(audits, name), AgentCount(audits, name))
  }

  /** `agentScores`: the agents in order of first appearance, each with
      the total of its scores and its number of audits. */
  method AgentScores(projectAudits: seq<Audit>) returns (names: seq<string>, scores: map<string, Tally>)
    ensures names == Dedup(AgentNames(projectAudits))
    ensures forall n :: n in scores <==> n in names
    ensures forall n :: n in scores ==> scores[n] == TallyOf(projectAudits, n)
  {
    names, scores := [], map[];
    var i := 0;
    while i < |projectAudits|
      invariant 0 <= i <= |projectAudits|
      invariant names == Dedup(AgentNames(projectAudits[..i]))
      invariant scores == TallyMap(projectAudits[..i])
    {
      var a := projectAudits[i];
      ghost var (names0, scores0) := (names, scores);
      var prev := if a.agentName in scores then scores[a.agentName] else Tally(0, 0);
      if a.agentName !in scores {
        names := names + [a.agentName];
      }
      scores := scores[a.agentName := Tally(prev.total + ScoreOrZero(a), prev.count + 1)];
      AgentScoresStep(projectAudits, i, names0, scores0, names, scores);
      i := i + 1;
    }
    assert projectAudits[..i] == projectAudits;
    TallyMapKeys(projectAudits);
  }

  /** One turn of the loop keeps the names and the tallies those of the
      audits seen so far. */
  lemma AgentScoresStep(audits: seq<Audit>, i: int, names: seq<string>, scores: map<string, Tally>,
                        names': seq<string>, scores': map<string, Tally>)
    requires 0 <= i < |audits|
    requires names == Dedup(AgentNames(audits[..i])) && scores == TallyMap(audits[..i])
    requires names' == if audits[i].agentName in scores then names else names + [audits[i].agentName]
    requires scores' == scores[audits[i].agentName := Tally(
      (if audits[i].agentName in scores then scores[audits[i].agentName].total else 0) + ScoreOrZero(audits[i]),
      (if audits[i].agentName in scores then scores[audits[i].agentName].count else 0) + 1)]
    ensures names' == Dedup(AgentNames(audits[..i + 1]))
    ensures scores' == TallyMap(audits[..i + 1])
  {
    NamesStep(audits, i, names);
    TallyMapAt(audits[..i], audits[i].agentName);
    TallyMapStep(audits, i);
  }

  /** The tallies the loop of `agentScores` accumulates, audit by audit. */
  function TallyMap(audits: seq<Audit>): map<string, Tally> {
    if audits == [] then map[]
    else
      var m := TallyMap(audits[..|audits| - 1]);
      var a := audits[|audits| - 1];
      var prev := if a.agentName in m then m[a.agentName] else Tally(0, 0);
      m[a.agentName := Tally(prev.total + ScoreOrZero(a), prev.count + 1)]
  }

  /** One step of the accumulation. */
  lemma TallyMapStep(audits: seq<Audit>, i: int)
    requires 0 <= i < |audits|
    ensures var m := TallyMap(audits[..i]);
      var a := audits[i];
      var prev := if a.agentName in m then m[a.agentName] else Tally(0, 0);
      TallyMap(audits[..i + 1]) == m[a.agentName := Tally(prev.total + ScoreOrZero(a), prev.count + 1)]
  {
    assert audits[..i + 1][..i] == audits[..i];
  }

  /** The accumulated tallies hold exactly the listed agents, each with
      the total of its scores and its number of audits. */
  lemma {:induction false} TallyMapAt(audits: seq<Audit>, n: string)
    ensures n in TallyMap(audits) <==> n in Dedup(AgentNames(audits))
    ensures TallyOf(audits, n) == if n in TallyMap(audits) then TallyMap(audits)[n] else Tally(0, 0)
  {
    if audits != [] {
      var k := |audits| - 1;
      var init := audits[..k];
      TallyMapAt(init, n);
      assert audits[..k + 1] == audits;
      AgentStep(audits, k);
      NamesStep(audits, k, Dedup(AgentNames(init)));
    }
  }

  /** `TallyMapAt` for every name at once. */
  lemma TallyMapKeys(audits: seq<Audit>)
    ensures forall n :: n in TallyMap(audits) <==> n in Dedup(AgentNames(audits))
    ensures forall n :: n in TallyMap(audits) ==> TallyMap(audits)[n] == TallyOf(audits, n)
  {
    forall n
      ensures n in TallyMap(audits) <==> n in Dedup(AgentNames(audits))
      ensures n in TallyMap(audits) ==> TallyMap(audits)[n] == TallyOf(audits, n)
    {
      TallyMapAt(audits, n);
    }
  }

  /** One more audit adds its score and one audit to its agent alone. */
  lemma AgentStep(audits: seq<Audit>, i: int)
    requires 0 <= i < |audits|
    ensures forall n :: AgentTotal(audits[..i + 1], n) ==
                        AgentTotal(audits[..i], n) + (if audits[i].agentName == n then ScoreOrZero(audits[i]) else 0)
    ensures forall n :: AgentCount(audits[..i + 1], n) ==
                        AgentCount(audits[..i], n) + (if audits[i].agentName == n then 1 else 0)
  {
    assert audits[..i + 1][..i] == audits[..i];
  }

  /** One more audit: its agent joins the list of names if new. */
  lemma NamesStep(audits: seq<Audit>, i: int, names: seq<string>)
    requires 0 <= i < |audits| && names == Dedup(AgentNames(audits[..i]))
    ensures Dedup(AgentNames(audits[..i + 1])) ==
            if audits[i].agentName in names then names else names + [audits[i].agentName]
  {
    var xs := AgentNames(audits[..i + 1]);
    assert xs[..|xs| - 1] == AgentNames(audits[..i]);
  }

  datatype AgentScore = AgentScore(name: string, score: int)

  function NegScore(s: AgentScore): int { -s.score }

  /** `Math.round(total / count)`; an agent is only listed once it has an
      audit, so the count is never 0 there. */
  function MeanScore(t: Tally): (r: int)
    ensures t.count == 0 ==> r == 0
    ensures t.count > 0 ==> (2 * t.count) * r <= 2 * t.total + t.count < (2 * t.count) * r + 2 * t.count
    ensures t.count > 0 && 0 <= t.total <= 100 * t.count ==> 0 <= r <= 100
  {
    if t.count == 0 then 0
    else if 0 <= t.total <= 100 * t.count then
      RoundDivBetween(t.total, t.count, 0, 100);
      RoundDiv(t.total, t.count)
    else RoundDiv(t.total, t.count)
  }

  /** Every agent of the project with its mean score, in order of first
      appearance. */
  function ScoredAgents(projectAudits: seq<Audit>): (r: seq<AgentScore>)
    ensures |r| == |Dedup(AgentNames(projectAudits))|
    ensures forall i :: 0 <= i < |r| ==>
      var n := Dedup(AgentNames(projectAudits))[i]; r[i] == AgentScore(n, MeanScore(TallyOf(projectAudits, n)))
  {
    var names := Dedup(AgentNames(projectAudits));
    seq(|names|, i requires 0 <= i < |names| => AgentScore(names[i], MeanScore(TallyOf(projectAudits, names[i]))))
  }

  /** `topAgents`: the agents ranked by mean score, best first (ties keep
      first appearance), at most five. */
  function TopAgents(projectAudits: seq<Audit>): (r: seq<AgentScore>)
    ensures var agents := |Dedup(AgentNames(projectAudits))|; |r| == if agents < 5 then agents else 5
  {
    SortByCorrect(ScoredAgents(projectAudits), NegScore);
    Take(SortBy(ScoredAgents(projectAudits), NegScore), 5)
  }

  /** The scorecard's computation: the tallies of the loop, then the
      ranking. */
  method RankAgents(projectAudits: seq<Audit>) returns (top: seq<AgentScore>)
    ensures top == TopAgents(projectAudits)
  {
    var names, scores := AgentScores(projectAudits);
    var scored: seq<AgentScore> := [];
    var k := 0;
    while k < |names|
      invariant 0 <= k <= |names|
      invariant scored == ScoredAgents(projectAudits)[..k]
    {
      scored := scored + [AgentScore(names[k], MeanScore(scores[names[k]]))];
      k := k + 1;
    }
    assert scored == ScoredAgents(projectAudits);
    top := Take(SortBy(scored, NegScore), 5);
  }

  lemma {:induction false} AgentTotalBounds(audits: seq<Audit>, name: string)
    requires ScoresInRange(audits)
    ensures 0 <= AgentTotal(audits, name) <= 100 * AgentCount(audits, name)
  {
    if audits != [] {
      var init := audits[..|audits| - 1];
      assert forall i :: 0 <= i < |init| ==> init[i] == audits[i];
      AgentTotalBounds(init, name);
    }
  }

  /** The ranking is best first. */
  lemma TopAgentsOrdered(projectAudits: seq<Audit>)
    ensures var r := TopAgents(projectAudits);
      forall i, j :: 0 <= i < j < |r| ==> r[j].score <= r[i].score
  {
    SortByCorrect(ScoredAgents(projectAudits), NegScore);
  }

  /** Each shown agent has audits in the project and is shown with its
      rounded mean; with scores in 0..100 so are the means. */
  lemma TopAgentsScores(projectAudits: seq<Audit>)
    ensures var r := TopAgents(projectAudits);
      forall i :: 0 <= i < |r| ==>
        r[i].name in AgentNames(projectAudits) && AgentCount(projectAudits, r[i].name) > 0 &&
        r[i].score == RoundDiv(AgentTotal(projectAudits, r[i].name), AgentCount(projectAudits, r[i].name))
    ensures var r := TopAgents(projectAudits);
      ScoresInRange(projectAudits) ==> forall i :: 0 <= i < |r| ==> 0 <= r[i].score <= 100
  {
    var names := Dedup(AgentNames(projectAudits));
    DedupSpec(AgentNames(projectAudits));
    var scored := ScoredAgents(projectAudits);
    SortByCorrect(scored, NegScore);
    var r := TopAgents(projectAudits);
    forall i | 0 <= i < |r|
      ensures r[i].name in AgentNames(projectAudits) && AgentCount(projectAudits, r[i].name) > 0
      ensures r[i].score == RoundDiv(AgentTotal(projectAudits, r[i].name), AgentCount(projectAudits, r[i].name))
      ensures ScoresInRange(projectAudits) ==> 0 <= r[i].score <= 100
    {
      assert r[i] in multiset(scored);
      var m :| 0 <= m < |scored| && scored[m] == r[i];
      assert names[m] in names;
      AgentCountPositive(projectAudits, r[i].name);
      if ScoresInRange(projectAudits) {
        AgentTotalBounds(projectAudits, r[i].name);
        RoundDivBetween(AgentTotal(projectAudits, r[i].name), AgentCount(projectAudits, r[i].name), 0, 100);
      }
    }
  }

  /** An agent left out never has a better mean than one shown. */
  lemma TopAgentsComplete(projectAudits: seq<Audit>)
    ensures var r := TopAgents(projectAudits);
      forall i, k | 0 <= i < |r| && 0 <= k < |projectAudits| ::
        MeanScore(TallyOf(projectAudits, projectAudits[k].agentName)) > r[i].score ==>
        exists j :: 0 <= j < |r| && r[j].name == projectAudits[k].agentName
  {
    var names := Dedup(AgentNames(projectAudits));
    DedupSpec(AgentNames(projectAudits));
    var scored := ScoredAgents(projectAudits);
    var ranked := SortBy(scored, NegScore);
    SortByCorrect(scored, NegScore);
    var r := TopAgents(projectAudits);
    forall i, k | 0 <= i < |r| && 0 <= k < |projectAudits| &&
                  MeanScore(TallyOf(projectAudits, projectAudits[k].agentName)) > r[i].score
      ensures exists j :: 0 <= j < |r| && r[j].name == projectAudits[k].agentName
    {
      var n := projectAudits[k].agentName;
      assert AgentNames(projectAudits)[k] == n;
      var p :| 0 <= p < |names| && names[p] == n;
      assert scored[p] in multiset(ranked);
      var m :| 0 <= m < |ranked| && ranked[m] == scored[p];
      assert m < |r|;
      assert r[m].name == n;
    }
  }
}

=== FILE: security.dfy ===
/**
 * Content interception (src/services/securityService.ts): four "red"
 * detectors hard-block a text, two "yellow" detectors replace what they
 * match by semantic tags.
 *
 * The regular expressions are not reimplemented: an `Engine` supplies, for
 * each pattern, where its first match at or after a position ends, and the
 * text after a global replace-all. On top of it the module has
 *   - `InterceptAndValidate`, the two loops of the source over a report
 *     record, proved equal to the reference verdict `Intercept` and to the
 *     block/sanitize contract; every detector is asked from the start of the
 *     text, so equal texts get equal verdicts;
 *   - `InterceptAsWritten`, the same scan with the `lastIndex` that the
 *     module-level `/g` expressions keep between calls, and the lemmas
 *     showing that a second call on a blocked text can pass it through.
 */
module Security {
  import opened Common
  import opened Types

  datatype PatternId = FinancialCard | Passwords | GovId | IndustrialSecret | Email | PhoneRegional

  datatype Pattern = Pattern(id: PatternId, labelText: string, tag: string)

  /** The hard-stop patterns, in dictionary order. */
  const RedPatterns: seq<Pattern> := [
    Pattern(FinancialCard, "Datos Financieros (Tarjeta)", "[DATO_FINANCIERO_PROTEGIDO]"),
    Pattern(Passwords, "Credenciales de Acceso", "[CRED_ACCESO_SEGURIDAD]"),
    Pattern(GovId, "Identificación Gubernamental (Cédula)", "[ID_PERSONA_PROTEGIDO]"),
    Pattern(IndustrialSecret, "Secreto Industrial", "[RECURSO_CONFIDENCIAL]")
  ]

  /** The sanitizing patterns, in dictionary order. */
  const YellowPatterns: seq<Pattern> := [
    Pattern(Email, "Correo Electrónico", "[EMAIL_SISTEMA_PROTEGIDO]"),
    Pattern(PhoneRegional, "Número Telefónico", "[CONTACTO_PRIVADO_SISTEMA]")
  ]

  const BlockedPlaceholder: string := "[CONTENIDO_BLOQUEADO_POR_SEGURIDAD]"
  const ScanPassed: string := "Security Scan Passed"
  const ViolationDetected: string := "Critical Security Violation Detected"
  const PiiSanitized: string := "Content Sanitized (PII Detected)"
  const BlockedReasonPrefix: string := "Contenido Bloqueado: "

  /** The regular-expression engine. `search(p, s, from)` is the index just
      past the first match of pattern p in s that starts at or after `from`
      (None when there is none); `replaceAll(p, s, tag)` is
      `s.replace(regex, tag)` for p's global expression. */
  datatype Engine = Engine(
    search: (PatternId, string, nat) -> Option<nat>,
    replaceAll: (PatternId, string, string) -> string)

  /** `regex.test(s)` on an expression whose `lastIndex` is 0. */
  predicate Matches(e: Engine, p: Pattern, s: string) {
    e.search(p.id, s, 0).Some?
  }

  predicate AnyMatch(e: Engine, ps: seq<Pattern>, s: string) {
    exists j :: 0 <= j < |ps| && Matches(e, ps[j], s)
  }

  /** The labels of the patterns of ps that match s, in the order of ps. */
  function MatchedLabels(e: Engine, ps: seq<Pattern>, s: string): (r: seq<string>)
    ensures |r| <= |ps|
  {
    if ps == [] then []
    else
      var last := ps[|ps| - 1];
      MatchedLabels(e, ps[..|ps| - 1], s) + (if Matches(e, last, s) then [last.labelText] else [])
  }

  /** The labels of ps, in order. */
  function Labels(ps: seq<Pattern>): (r: seq<string>)
    ensures |r| == |ps|
  {
    seq(|ps|, i requires 0 <= i < |ps| => ps[i].labelText)
  }

  lemma LabelsSnoc(ps: seq<Pattern>, p: Pattern)
    ensures Labels(ps + [p]) == Labels(ps) + [p.labelText]
  {
  }

  /** `p => p.regex.test(s)` for a fresh expression. */
  function MatchesIn(e: Engine, s: string): Pattern -> bool {
    p => Matches(e, p, s)
  }

  /** The last pattern of ps that matches s. */
  function LastMatched(e: Engine, ps: seq<Pattern>, s: string): (r: Option<Pattern>)
    ensures r.Some? ==> r.value in ps && Matches(e, r.value, s)
  {
    if ps == [] then None
    else if Matches(e, ps[|ps| - 1], s) then Some(ps[|ps| - 1])
    else
      assert forall q :: q in ps[..|ps| - 1] ==> q in ps;
      LastMatched(e, ps[..|ps| - 1], s)
  }

  /** Replaces, in order, the matches of every pattern of ps that matched
      the original text; later patterns work on the already tagged text.
      A text no pattern matched comes out unchanged. */
  function Sanitize(e: Engine, ps: seq<Pattern>, original: string): (r: string)
    ensures !AnyMatch(e, ps, original) ==> r == original
  {
    if ps == [] then original
    else
      var last := ps[|ps| - 1];
      assert forall j :: 0 <= j < |ps| - 1 ==> ps[..|ps| - 1][j] == ps[j];
      var working := Sanitize(e, ps[..|ps| - 1], original);
      if Matches(e, last, original) then e.replaceAll(last.id, working, last.tag) else working
  }

  /** The reference verdict for a text: blocked exactly when a red pattern
      matches, and then with a reason and the placeholder for content;
      nothing flagged exactly when no pattern of either level matches. */
  function Intercept(e: Engine, content: string): (r: SecurityReport)
    ensures r.isBlocked <==> AnyMatch(e, RedPatterns, content)
    ensures r.reason.Some? <==> r.isBlocked
    ensures r.isBlocked ==> r.sanitizedContent == BlockedPlaceholder
    ensures r.flags == [] <==> !AnyMatch(e, RedPatterns, content) && !AnyMatch(e, YellowPatterns, content)
  {
    LastMatchedIsLast(e, RedPatterns, content);
    MatchedLabelsEmpty(e, RedPatterns, content);
    MatchedLabelsEmpty(e, YellowPatterns, content);
    if AnyMatch(e, RedPatterns, content) then
      SecurityReport(
        true,
        match LastMatched(e, RedPatterns, content)
        case Some(p) => Some(BlockedReasonPrefix + p.labelText)
        case None => None,
        MatchedLabels(e, RedPatterns, content),
        ViolationDetected,
        BlockedPlaceholder)
    else
      var flags := MatchedLabels(e, YellowPatterns, content);
      SecurityReport(
        false,
        None,
        flags,
        if flags == [] then ScanPassed else PiiSanitized,
        Sanitize(e, YellowPatterns, content))
  }

  // ---------------------------------------------------------------------
  // The interception as the source runs it, over a report record.
  // ---------------------------------------------------------------------

  /** `interceptAndValidate` with every detector asked from the start of
      the text. */
  method InterceptAndValidate(e: Engine, content: string) returns (report: SecurityReport)
    ensures report == Intercept(e, content)
    ensures report.isBlocked <==> AnyMatch(e, RedPatterns, content)
  {
    report := SecurityReport(false, None, [], ScanPassed, content);

    // Red level: every pattern is tested; a hit blocks and overwrites the reason.
    var i := 0;
    while i < |RedPatterns|
      invariant 0 <= i <= |RedPatterns|
      invariant report.isBlocked <==> AnyMatch(e, RedPatterns[..i], content)
      invariant report.flags == MatchedLabels(e, RedPatterns[..i], content)
      invariant report.reason == match LastMatched(e, RedPatterns[..i], content)
                                 case Some(p) => Some(BlockedReasonPrefix + p.labelText)
                                 case None => None
      invariant report.details == if report.isBlocked then ViolationDetected else ScanPassed
      invariant report.sanitizedContent == content
    {
      var pattern := RedPatterns[i];
      PrefixStep(e, RedPatterns, content, i);
      if Matches(e, pattern, content) {
        report := report.(
          flags := report.flags + [pattern.labelText],
          isBlocked := true,
          reason := Some(BlockedReasonPrefix + pattern.labelText),
          details := ViolationDetected);
      }
      i := i + 1;
    }
    assert RedPatterns[..i] == RedPatterns;
    MatchedLabelsEmpty(e, RedPatterns, content);
    LastMatchedIsLast(e, RedPatterns, content);

    if report.isBlocked {
      report := report.(sanitizedContent := BlockedPlaceholder);
      return;
    }

    // Yellow level: tag what matched the original text.
    var working := content;
    var hasYellowFindings := false;
    var k := 0;
    while k < |YellowPatterns|
      invariant 0 <= k <= |YellowPatterns|
      invariant report == SecurityReport(false, None, MatchedLabels(e, YellowPatterns[..k], content), ScanPassed, content)
      invariant hasYellowFindings <==> report.flags != []
      invariant working == Sanitize(e, YellowPatterns[..k], content)
    {
      var pattern := YellowPatterns[k];
      PrefixStep(e, YellowPatterns, content, k);
      if Matches(e, pattern, content) {
        hasYellowFindings := true;
        report := report.(flags := report.flags + [pattern.labelText]);
        working := e.replaceAll(pattern.id, working, pattern.tag);
      }
      k := k + 1;
    }
    assert YellowPatterns[..k] == YellowPatterns;

    if hasYellowFindings {
      report := report.(details := PiiSanitized);
    }
    report := report.(sanitizedContent := working);
  }

  /** Asking one more detector extends the verdict on the prefix. */
  lemma PrefixStep(e: Engine, ps: seq<Pattern>, s: string, i: int)
    requires 0 <= i < |ps|
    ensures MatchedLabels(e, ps[..i + 1], s) ==
      MatchedLabels(e, ps[..i], s) + (if Matches(e, ps[i], s) then [ps[i].labelText] else [])
    ensures AnyMatch(e, ps[..i + 1], s) <==> AnyMatch(e, ps[..i], s) || Matches(e, ps[i], s)
    ensures LastMatched(e, ps[..i + 1], s) == if Matches(e, ps[i], s) then Some(ps[i]) else LastMatched(e, ps[..i], s)
    ensures Sanitize(e, ps[..i + 1], s) ==
      if Matches(e, ps[i], s) then e.replaceAll(ps[i].id, Sanitize(e, ps[..i], s), ps[i].tag) else Sanitize(e, ps[..i], s)
  {
    var pre := ps[..i + 1];
    assert pre[..i] == ps[..i] && pre[i] == ps[i];
    if AnyMatch(e, pre, s) && !Matches(e, ps[i], s) {
      var j :| 0 <= j < i + 1 && Matches(e, pre[j], s);
      assert j < i && ps[..i][j] == pre[j];
    }
    if AnyMatch(e, ps[..i], s) {
      var j :| 0 <= j < i && Matches(e, ps[..i][j], s);
      assert pre[j] == ps[..i][j];
    }
  }

  // ---------------------------------------------------------------------
  // Properties of the verdict.
  // ---------------------------------------------------------------------

  /** A label is flagged exactly when its pattern matched. */
  lemma {:induction false} MatchedLabelsExactly(e: Engine, ps: seq<Pattern>, s: string, x: string)
    ensures x in MatchedLabels(e, ps, s) <==> exists j :: 0 <= j < |ps| && Matches(e, ps[j], s) && ps[j].labelText == x
  {
    if ps != [] {
      var init := ps[..|ps| - 1];
      MatchedLabelsExactly(e, init, s, x);
      if exists j :: 0 <= j < |ps| && Matches(e, ps[j], s) && ps[j].labelText == x {
        var j :| 0 <= j < |ps| && Matches(e, ps[j], s) && ps[j].labelText == x;
        if j < |ps| - 1 {
          assert init[j] == ps[j];
        }
      }
      if exists j :: 0 <= j < |init| && Matches(e, init[j], s) && init[j].labelText == x {
        var j :| 0 <= j < |init| && Matches(e, init[j], s) && init[j].labelText == x;
        assert ps[j] == init[j];
      }
    }
  }

  /** Nothing is flagged exactly when no pattern matched. */
  lemma {:induction false} MatchedLabelsEmpty(e: Engine, ps: seq<Pattern>, s: string)
    ensures MatchedLabels(e, ps, s) == [] <==> !AnyMatch(e, ps, s)
  {
    if ps != [] {
      var init := ps[..|ps| - 1];
      MatchedLabelsEmpty(e, init, s);
      if AnyMatch(e, init, s) {
        var j :| 0 <= j < |init| && Matches(e, init[j], s);
        assert ps[j] == init[j];
      }
      if AnyMatch(e, ps, s) && !Matches(e, ps[|ps| - 1], s) {
        var j :| 0 <= j < |ps| && Matches(e, ps[j], s);
        assert init[j] == ps[j];
      }
    }
  }

  /** The flags are the labels of the matching patterns, each once and in
      the order of ps: a sub-sequence of the labels of ps. */
  lemma {:induction false} MatchedLabelsInOrder(e: Engine, ps: seq<Pattern>, s: string)
    ensures MatchedLabels(e, ps, s) == Labels(Filter(ps, MatchesIn(e, s)))
    ensures IsSubseq(MatchedLabels(e, ps, s), Labels(ps))
    ensures |MatchedLabels(e, ps, s)| <= |ps|
  {
    if ps != [] {
      var init, last := ps[..|ps| - 1], ps[|ps| - 1];
      MatchedLabelsInOrder(e, init, s);
      assert ps == init + [last];
      FilterAppend(init, [last], MatchesIn(e, s));
      var kept := Filter(init, MatchesIn(e, s));
      LabelsSnoc(init, last);
      IsSubseqSnoc(MatchedLabels(e, init, s), Labels(init), last.labelText);
      if Matches(e, last, s) {
        assert Filter([last], MatchesIn(e, s)) == [last];
        LabelsSnoc(kept, last);
      } else {
        assert Filter([last], MatchesIn(e, s)) == [];
        assert kept + [] == kept;
      }
    }
  }

  /** The reason names the last matching pattern: it matched, and no later
      pattern did. */
  lemma {:induction false} LastMatchedIsLast(e: Engine, ps: seq<Pattern>, s: string)
    ensures LastMatched(e, ps, s).Some? <==> AnyMatch(e, ps, s)
    ensures LastMatched(e, ps, s).Some? ==>
      exists j :: 0 <= j < |ps| && ps[j] == LastMatched(e, ps, s).value && Matches(e, ps[j], s) &&
        forall k :: j < k < |ps| ==> !Matches(e, ps[k], s)
  {
    if ps != [] {
      var init := ps[..|ps| - 1];
      LastMatchedIsLast(e, init, s);
      if AnyMatch(e, ps, s) && !Matches(e, ps[|ps| - 1], s) {
        var j :| 0 <= j < |ps| && Matches(e, ps[j], s);
        assert init[j] == ps[j];
      }
      if AnyMatch(e, init, s) {
        var j :| 0 <= j < |init| && Matches(e, init[j], s);
        assert ps[j] == init[j];
      }
      if !Matches(e, ps[|ps| - 1], s) && LastMatched(e, init, s).Some? {
        var j :| 0 <= j < |init| && init[j] == LastMatched(e, init, s).value && Matches(e, init[j], s) &&
          forall k :: j < k < |init| ==> !Matches(e, init[k], s);
        assert ps[j] == init[j];
        forall k | j < k < |ps| ensures !Matches(e, ps[k], s) {
          if k < |ps| - 1 {
            assert ps[k] == init[k];
          }
        }
      }
    }
  }

  /** With no red and no yellow match, the text passes unchanged. */
  lemma CleanTextPasses(e: Engine, content: string)
    requires !AnyMatch(e, RedPatterns, content) && !AnyMatch(e, YellowPatterns, content)
    ensures Intercept(e, content) == SecurityReport(false, None, [], ScanPassed, content)
  {
    MatchedLabelsEmpty(e, YellowPatterns, content);
  }

  /** A blocked text is replaced by the fixed placeholder, whatever it was;
      the reason names the last red pattern that matched, and the flags
      name every red pattern that matched, once each. */
  lemma BlockedVerdict(e: Engine, content: string, other: string)
    requires AnyMatch(e, RedPatterns, content) && AnyMatch(e, RedPatterns, other)
    ensures Intercept(e, content).sanitizedContent == Intercept(e, other).sanitizedContent == BlockedPlaceholder
    ensures Intercept(e, content).details == ViolationDetected
    ensures exists j ::
              && 0 <= j < |RedPatterns| && Matches(e, RedPatterns[j], content)
              && Intercept(e, content).reason == Some(BlockedReasonPrefix + RedPatterns[j].labelText)
              && (forall k :: j < k < |RedPatterns| ==> !Matches(e, RedPatterns[k], content))
    ensures forall x :: x in Intercept(e, content).flags <==>
      exists j :: 0 <= j < |RedPatterns| && Matches(e, RedPatterns[j], content) && RedPatterns[j].labelText == x
    ensures Intercept(e, content).flags == MatchedLabels(e, RedPatterns, content)
    ensures IsSubseq(Intercept(e, content).flags, Labels(RedPatterns))
    ensures |Intercept(e, content).flags| <= |RedPatterns|
  {
    LastMatchedIsLast(e, RedPatterns, content);
    forall x ensures x in Intercept(e, content).flags <==>
      exists j :: 0 <= j < |RedPatterns| && Matches(e, RedPatterns[j], content) && RedPatterns[j].labelText == x
    {
      MatchedLabelsExactly(e, RedPatterns, content, x);
    }
    MatchedLabelsInOrder(e, RedPatterns, content);
  }

  /** An unblocked verdict carries no reason; its flags are the yellow
      labels that matched, and it reports sanitizing exactly when one did. */
  lemma UnblockedVerdict(e: Engine, content: string)
    requires !AnyMatch(e, RedPatterns, content)
    ensures Intercept(e, content).reason == None
    ensures Intercept(e, content).details == PiiSanitized <==> AnyMatch(e, YellowPatterns, content)
    ensures Intercept(e, content).details == ScanPassed <==> !AnyMatch(e, YellowPatterns, content)
    ensures Intercept(e, content).flags == MatchedLabels(e, YellowPatterns, content)
    ensures Intercept(e, content).sanitizedContent ==
      var afterEmail := if Matches(e, YellowPatterns[0], content)
                        then e.replaceAll(Email, content, "[EMAIL_SISTEMA_PROTEGIDO]") else content;
      if Matches(e, YellowPatterns[1], content)
      then e.replaceAll(PhoneRegional, afterEmail, "[CONTACTO_PRIVADO_SISTEMA]") else afterEmail
  {
    MatchedLabelsEmpty(e, YellowPatterns, content);
    assert YellowPatterns[..1][..0] == [];
    assert YellowPatterns[..|YellowPatterns| - 1] == YellowPatterns[..1];
    assert YellowPatterns[..1] == [YellowPatterns[0]];
    var afterEmail := Sanitize(e, YellowPatterns[..1], content);
    assert Sanitize(e, YellowPatterns[..1][..0], content) == content;
    assert YellowPatterns[0].tag == "[EMAIL_SISTEMA_PROTEGIDO]";
    assert afterEmail == if Matches(e, YellowPatterns[0], content)
                         then e.replaceAll(Email, content, "[EMAIL_SISTEMA_PROTEGIDO]") else content;
  }

  // ---------------------------------------------------------------------
  // The interception as written: module-level /g expressions keep
  // `lastIndex` from one call to the next.
  // ---------------------------------------------------------------------

  /** The `lastIndex` of every expression; a pattern not in the map is at 0. */
  type RegexState = map<PatternId, nat>

  function LastIndex(st: RegexState, id: PatternId): nat {
    if id in st then st[id] else 0
  }

  /** `regex.test(s)` on a global expression: the search starts at
      `lastIndex`; a hit moves `lastIndex` to the end of the match, a miss
      (or a `lastIndex` beyond the text) resets it to 0. */
  function TestStep(e: Engine, st: RegexState, p: Pattern, s: string): (r: (bool, RegexState))
    ensures r.0 <==> LastIndex(st, p.id) <= |s| && e.search(p.id, s, LastIndex(st, p.id)).Some?
    ensures LastIndex(r.1, p.id) == if r.0 then e.search(p.id, s, LastIndex(st, p.id)).value else 0
  {
    var from := LastIndex(st, p.id);
    if from > |s| then (false, st[p.id := 0])
    else match e.search(p.id, s, from)
      case Some(end) => (true, st[p.id := end])
      case None => (false, st[p.id := 0])
  }

  /** The red loop as written, over the patterns in order: the labels that
      tested positive, the last of those patterns, and the expressions'
      state afterwards. */
  function RedScanAsWritten(e: Engine, st: RegexState, ps: seq<Pattern>, s: string)
    : (r: (seq<string>, Option<Pattern>, RegexState))
    ensures |r.0| <= |ps|
    ensures r.1.Some? <==> r.0 != []
    decreases |ps|
  {
    if ps == [] then ([], None, st)
    else
      var (flags, last, st1) := RedScanAsWritten(e, st, ps[..|ps| - 1], s);
      var p := ps[|ps| - 1];
      var (hit, st2) := TestStep(e, st1, p, s);
      (if hit then flags + [p.labelText] else flags, if hit then Some(p) else last, st2)
  }

  /** The yellow loop as written: a positive test is followed by a global
      replace on the working text, which leaves `lastIndex` at 0. */
  function YellowScanAsWritten(e: Engine, st: RegexState, ps: seq<Pattern>, s: string)
    : (r: (seq<string>, string, RegexState))
    ensures |r.0| <= |ps|
    ensures r.0 == [] ==> r.1 == s
    decreases |ps|
  {
    if ps == [] then ([], s, st)
    else
      var (flags, working, st1) := YellowScanAsWritten(e, st, ps[..|ps| - 1], s);
      var p := ps[|ps| - 1];
      var (hit, st2) := TestStep(e, st1, p, s);
      if hit then (flags + [p.labelText], e.replaceAll(p.id, working, p.tag), st2[p.id := 0])
      else (flags, working, st2)
  }

  /** `interceptAndValidate` as written, with the expressions' state before
      and after the call. */
  function InterceptAsWritten(e: Engine, st: RegexState, content: string): (r: (SecurityReport, RegexState))
    ensures r.0.isBlocked ==> r.0.sanitizedContent == BlockedPlaceholder && r.0.details == ViolationDetected
    ensures !r.0.isBlocked ==> r.0.reason == None
  {
    var (redFlags, last, st1) := RedScanAsWritten(e, st, RedPatterns, content);
    if redFlags != [] then
      (SecurityReport(
         true,
         match last case Some(p) => Some(BlockedReasonPrefix + p.labelText) case None => None,
         redFlags, ViolationDetected, BlockedPlaceholder),
       st1)
    else
      var (flags, working, st2) := YellowScanAsWritten(e, st1, YellowPatterns, content);
      (SecurityReport(false, None, flags, if flags == [] then ScanPassed else PiiSanitized, working), st2)
  }

  /** A test hits exactly when the search from `lastIndex` (within the
      text) finds a match; `lastIndex` moves to the match's end on a hit and
      back to 0 on a miss; no other expression's state changes. */
  lemma TestStepSpec(e: Engine, st: RegexState, p: Pattern, s: string)
    ensures var (hit, st1) := TestStep(e, st, p, s);
      && (hit <==> LastIndex(st, p.id) <= |s| && e.search(p.id, s, LastIndex(st, p.id)).Some?)
      && LastIndex(st1, p.id) == (if hit then e.search(p.id, s, LastIndex(st, p.id)).value else 0)
      && forall id :: id != p.id ==> LastIndex(st1, id) == LastIndex(st, id)
  {
  }

  /** The red loop flags each pattern at most once, in the order of ps
      (a sub-sequence of their labels); it has a reason exactly when it
      flagged something, and the reason's pattern is one of the loop's,
      the one flagged last. */
  lemma {:induction false} RedScanAsWrittenSpec(e: Engine, st: RegexState, ps: seq<Pattern>, s: string)
    ensures var (flags, last, _) := RedScanAsWritten(e, st, ps, s);
      && IsSubseq(flags, Labels(ps))
      && |flags| <= |ps|
      && (last.Some? <==> flags != [])
      && (last.Some? ==> last.value in ps && flags[|flags| - 1] == last.value.labelText)
  {
    if ps != [] {
      var init := ps[..|ps| - 1];
      var p := ps[|ps| - 1];
      RedScanAsWrittenSpec(e, st, init, s);
      RedScanFlagsInOrder(e, st, ps, s);
      var (flags, last, st1) := RedScanAsWritten(e, st, init, s);
      var hit := TestStep(e, st1, p, s).0;
      assert RedScanAsWritten(e, st, ps, s).0 == if hit then flags + [p.labelText] else flags;
      assert RedScanAsWritten(e, st, ps, s).1 == if hit then Some(p) else last;
      if last.Some? {
        assert last.value in init;
        assert forall q :: q in init ==> q in ps;
      }
    }
  }

  lemma {:induction false} RedScanFlagsInOrder(e: Engine, st: RegexState, ps: seq<Pattern>, s: string)
    ensures IsSubseq(RedScanAsWritten(e, st, ps, s).0, Labels(ps))
  {
    if ps != [] {
      var init, p := ps[..|ps| - 1], ps[|ps| - 1];
      RedScanFlagsInOrder(e, st, init, s);
      var (flags, _, st1) := RedScanAsWritten(e, st, init, s);
      assert ps == init + [p];
      LabelsSnoc(init, p);
      IsSubseqSnoc(flags, Labels(init), p.labelText);
    }
  }

  /** The yellow loop flags each pattern at most once, in the order of ps
      (a sub-sequence of their labels), and a text it flags nothing in
      comes out unchanged. */
  lemma {:induction false} YellowScanAsWrittenSpec(e: Engine, st: RegexState, ps: seq<Pattern>, s: string)
    ensures var (flags, working, _) := YellowScanAsWritten(e, st, ps, s);
      && IsSubseq(flags, Labels(ps))
      && |flags| <= |ps|
      && (flags == [] ==> working == s)
  {
    if ps != [] {
      var init := ps[..|ps| - 1];
      YellowScanAsWrittenSpec(e, st, init, s);
      assert ps == init + [ps[|ps| - 1]];
      LabelsSnoc(init, ps[|ps| - 1]);
      IsSubseqSnoc(YellowScanAsWritten(e, st, init, s).0, Labels(init), ps[|ps| - 1].labelText);
    }
  }

  /** A report of the call as written is blocked exactly when it has a
      reason, and then it has flags and the placeholder for content; a
      report with no flags passes the text unchanged. */
  lemma InterceptAsWrittenSpec(e: Engine, st: RegexState, content: string)
    ensures var (r, _) := InterceptAsWritten(e, st, content);
      && (r.isBlocked <==> r.reason.Some?)
      && (r.isBlocked ==> r.flags != [] && r.sanitizedContent == BlockedPlaceholder)
      && (r.flags == [] ==> r == SecurityReport(false, None, [], ScanPassed, content))
  {
    RedScanAsWrittenSpec(e, st, RedPatterns, content);
    var st1 := RedScanAsWritten(e, st, RedPatterns, content).2;
    YellowScanAsWrittenSpec(e, st1, YellowPatterns, content);
  }

  function Ids(ps: seq<Pattern>): set<PatternId> {
    set p | p in ps :: p.id
  }

  lemma IdsSnoc(ps: seq<Pattern>, p: Pattern)
    ensures Ids(ps + [p]) == Ids(ps) + {p.id}
  {
    assert forall q :: q in ps + [p] <==> q in ps || q == p;
  }

  /** `lastIndex` after one `test` that started from 0. */
  function IndexAfterFirstTest(e: Engine, p: Pattern, s: string): nat {
    match e.search(p.id, s, 0)
    case Some(end) => end
    case None => 0
  }

  predicate DistinctIds(ps: seq<Pattern>) {
    forall i, j :: 0 <= i < j < |ps| ==> ps[i].id != ps[j].id
  }

  /** From a state where none of its expressions has moved, the red loop as
      written computes the reference flags and reason, and touches only the
      state of its own expressions. */
  lemma {:induction false} RedScanFromRest(e: Engine, st: RegexState, ps: seq<Pattern>, s: string)
    requires DistinctIds(ps)
    requires forall j :: 0 <= j < |ps| ==> LastIndex(st, ps[j].id) == 0
    ensures RedScanAsWritten(e, st, ps, s).0 == MatchedLabels(e, ps, s)
    ensures RedScanAsWritten(e, st, ps, s).1 == LastMatched(e, ps, s)
    ensures forall id :: id !in Ids(ps) ==> LastIndex(RedScanAsWritten(e, st, ps, s).2, id) == LastIndex(st, id)
    ensures forall j :: 0 <= j < |ps| ==> LastIndex(RedScanAsWritten(e, st, ps, s).2, ps[j].id) == IndexAfterFirstTest(e, ps[j], s)
  {
    RedScanStateFromRest(e, st, ps, s);
    if ps != [] {
      var init := ps[..|ps| - 1];
      var p := ps[|ps| - 1];
      assert forall j :: 0 <= j < |init| ==> init[j] == ps[j];
      RedScanFromRest(e, st, init, s);
      assert p.id !in Ids(init);
      TestFromRest(e, RedScanAsWritten(e, st, init, s).2, p, s);
    }
  }

  /** The state half of the above: each of the loop's expressions ends where
      its first test put it, and no other expression moves. */
  lemma {:induction false} RedScanStateFromRest(e: Engine, st: RegexState, ps: seq<Pattern>, s: string)
    requires DistinctIds(ps)
    requires forall j :: 0 <= j < |ps| ==> LastIndex(st, ps[j].id) == 0
    ensures forall id :: id !in Ids(ps) ==> LastIndex(RedScanAsWritten(e, st, ps, s).2, id) == LastIndex(st, id)
    ensures forall j :: 0 <= j < |ps| ==> LastIndex(RedScanAsWritten(e, st, ps, s).2, ps[j].id) == IndexAfterFirstTest(e, ps[j], s)
  {
    if ps != [] {
      var init := ps[..|ps| - 1];
      var p := ps[|ps| - 1];
      assert forall j :: 0 <= j < |init| ==> init[j] == ps[j];
      RedScanStateFromRest(e, st, init, s);
      var st1 := RedScanAsWritten(e, st, init, s).2;
      assert p.id !in Ids(init);
      IdsSnoc(init, p);
      assert ps == init + [p];
      TestFromRest(e, st1, p, s);
      var st2 := TestStep(e, st1, p, s).1;
      forall j | 0 <= j < |ps|
        ensures LastIndex(st2, ps[j].id) == IndexAfterFirstTest(e, ps[j], s)
      {
        if j < |init| {
          assert ps[j] == init[j] && ps[j].id != p.id;
        }
      }
    }
  }

  /** A test from `lastIndex` 0 is a plain match, and leaves `lastIndex`
      at the end of the first match. */
  lemma TestFromRest(e: Engine, st: RegexState, p: Pattern, s: string)
    requires LastIndex(st, p.id) == 0
    ensures TestStep(e, st, p, s).0 == Matches(e, p, s)
    ensures TestStep(e, st, p, s).1 == st[p.id := IndexAfterFirstTest(e, p, s)]
  {
  }

  /** The same for the yellow loop, with the reference sanitized text. */
  lemma {:induction false} YellowScanFromRest(e: Engine, st: RegexState, ps: seq<Pattern>, s: string)
    requires DistinctIds(ps)
    requires forall j :: 0 <= j < |ps| ==> LastIndex(st, ps[j].id) == 0
    ensures YellowScanAsWritten(e, st, ps, s).0 == MatchedLabels(e, ps, s)
    ensures YellowScanAsWritten(e, st, ps, s).1 == Sanitize(e, ps, s)
    ensures forall id :: id !in Ids(ps) ==> LastIndex(YellowScanAsWritten(e, st, ps, s).2, id) == LastIndex(st, id)
  {
    YellowScanFrame(e, st, ps, s);
    if ps != [] {
      var init := ps[..|ps| - 1];
      var p := ps[|ps| - 1];
      assert forall j :: 0 <= j < |init| ==> init[j] == ps[j];
      YellowScanFromRest(e, st, init, s);
      assert p.id !in Ids(init);
      TestFromRest(e, YellowScanAsWritten(e, st, init, s).2, p, s);
    }
  }

  /** The yellow loop moves no expression outside it, from any state. */
  lemma {:induction false} YellowScanFrame(e: Engine, st: RegexState, ps: seq<Pattern>, s: string)
    ensures forall id :: id !in Ids(ps) ==> LastIndex(YellowScanAsWritten(e, st, ps, s).2, id) == LastIndex(st, id)
  {
    if ps != [] {
      var init := ps[..|ps| - 1];
      var p := ps[|ps| - 1];
      YellowScanFrame(e, st, init, s);
      IdsSnoc(init, p);
      assert ps == init + [p];
      TestStepSpec(e, YellowScanAsWritten(e, st, init, s).2, p, s);
    }
  }

  /** Starting from the initial state, the as-written scan agrees with the
      reference verdict: the discrepancy needs state left by an earlier call. */
  lemma AsWrittenFreshAgrees(e: Engine, content: string)
    ensures InterceptAsWritten(e, map[], content).0 == Intercept(e, content)
  {
    PatternIds();
    RedScanFromRest(e, map[], RedPatterns, content);
    MatchedLabelsEmpty(e, RedPatterns, content);
    LastMatchedIsLast(e, RedPatterns, content);
    var st1 := RedScanAsWritten(e, map[], RedPatterns, content).2;
    if !AnyMatch(e, RedPatterns, content) {
      forall j | 0 <= j < |YellowPatterns| ensures LastIndex(st1, YellowPatterns[j].id) == 0 {
        assert YellowPatterns[j].id !in Ids(RedPatterns);
      }
      YellowScanFromRest(e, st1, YellowPatterns, content);
    }
  }

  /** When no expression tests positive from the given state, the red
      loop as written flags nothing and leaves other expressions alone. */
  lemma {:induction false} RedScanMisses(e: Engine, st: RegexState, ps: seq<Pattern>, s: string)
    requires DistinctIds(ps)
    requires forall j :: 0 <= j < |ps| ==> !TestStep(e, st, ps[j], s).0
    ensures RedScanAsWritten(e, st, ps, s).0 == []
    ensures forall id :: id !in Ids(ps) ==> LastIndex(RedScanAsWritten(e, st, ps, s).2, id) == LastIndex(st, id)
  {
    if ps != [] {
      var init := ps[..|ps| - 1];
      var p := ps[|ps| - 1];
      assert forall j :: 0 <= j < |init| ==> init[j] == ps[j];
      RedScanMisses(e, st, init, s);
      assert p.id !in Ids(init);
      assert Ids(ps) == Ids(init) + {p.id} by {
        assert ps == init + [p];
      }
    }
  }

  /** The first call on a text whose only red match is a card number is
      blocked, and leaves the card expression at the end of that match and
      every other expression at 0. */
  lemma FirstCallLeavesCardAtEnd(e: Engine, s: string, end: nat)
    requires e.search(FinancialCard, s, 0) == Some(end)
    requires e.search(Passwords, s, 0) == None
    requires e.search(GovId, s, 0) == None
    requires e.search(IndustrialSecret, s, 0) == None
    ensures InterceptAsWritten(e, map[], s).0.isBlocked
    ensures LastIndex(InterceptAsWritten(e, map[], s).1, FinancialCard) == end
    ensures forall id :: id != FinancialCard ==> LastIndex(InterceptAsWritten(e, map[], s).1, id) == 0
  {
    RedScanFromRest(e, map[], RedPatterns, s);
    var st1 := RedScanAsWritten(e, map[], RedPatterns, s).2;
    assert RedPatterns[0].id == FinancialCard;
    assert Matches(e, RedPatterns[0], s);
    MatchedLabelsEmpty(e, RedPatterns, s);
    forall id | id != FinancialCard
      ensures LastIndex(st1, id) == 0
    {
      if id !in Ids(RedPatterns) {
      } else {
        var j :| 0 <= j < |RedPatterns| && RedPatterns[j].id == id;
        assert IndexAfterFirstTest(e, RedPatterns[j], s) == 0;
      }
    }
  }

  /** From a state where the card expression sits past its only match and
      every other expression at 0, a text with no other match passes
      unchanged. */
  lemma SecondCallPasses(e: Engine, st: RegexState, s: string)
    requires e.search(FinancialCard, s, LastIndex(st, FinancialCard)) == None
    requires forall id :: id != FinancialCard ==> LastIndex(st, id) == 0
    requires e.search(Passwords, s, 0) == None
    requires e.search(GovId, s, 0) == None
    requires e.search(IndustrialSecret, s, 0) == None
    requires e.search(Email, s, 0) == None && e.search(PhoneRegional, s, 0) == None
    ensures var r := InterceptAsWritten(e, st, s).0;
      !r.isBlocked && r.sanitizedContent == s && r.details == ScanPassed
  {
    SecondRedScanMisses(e, st, s);
    var st2 := RedScanAsWritten(e, st, RedPatterns, s).2;
    YellowScanFromRest(e, st2, YellowPatterns, s);
    MatchedLabelsEmpty(e, YellowPatterns, s);
  }

  lemma SecondRedScanMisses(e: Engine, st: RegexState, s: string)
    requires e.search(FinancialCard, s, LastIndex(st, FinancialCard)) == None
    requires forall id :: id != FinancialCard ==> LastIndex(st, id) == 0
    requires e.search(Passwords, s, 0) == None
    requires e.search(GovId, s, 0) == None
    requires e.search(IndustrialSecret, s, 0) == None
    ensures RedScanAsWritten(e, st, RedPatterns, s).0 == []
    ensures LastIndex(RedScanAsWritten(e, st, RedPatterns, s).2, Email) == 0
    ensures LastIndex(RedScanAsWritten(e, st, RedPatterns, s).2, PhoneRegional) == 0
  {
    RedTestsMiss(e, st, s);
    PatternIds();
    RedScanMisses(e, st, RedPatterns, s);
  }

  lemma RedTestsMiss(e: Engine, st: RegexState, s: string)
    requires e.search(FinancialCard, s, LastIndex(st, FinancialCard)) == None
    requires forall id :: id != FinancialCard ==> LastIndex(st, id) == 0
    requires e.search(Passwords, s, 0) == None
    requires e.search(GovId, s, 0) == None
    requires e.search(IndustrialSecret, s, 0) == None
    ensures forall j :: 0 <= j < |RedPatterns| ==> !TestStep(e, st, RedPatterns[j], s).0
  {
    forall j | 0 <= j < |RedPatterns|
      ensures !TestStep(e, st, RedPatterns[j], s).0
    {
      var p := RedPatterns[j];
      if p.id != FinancialCard {
        assert LastIndex(st, p.id) == 0;
        assert e.search(p.id, s, 0) == None;
      }
    }
  }

  /** The red expressions are four distinct ones, none of them yellow, and
      the two yellow ones are distinct. */
  lemma PatternIds()
    ensures DistinctIds(RedPatterns) && DistinctIds(YellowPatterns)
    ensures Email !in Ids(RedPatterns) && PhoneRegional !in Ids(RedPatterns)
    ensures forall j :: 0 <= j < |YellowPatterns| ==> YellowPatterns[j].id in {Email, PhoneRegional}
  {
  }

  /** Run after a blocked call on a text whose only red match is one card
      number, the same text is let through, and is not replaced by the
      placeholder: the card expression resumes its search after the match
      it found the first time. The stateless verdict blocks it every time. */
  lemma RepeatedScanMissesCard(e: Engine, s: string, end: nat)
    requires e.search(FinancialCard, s, 0) == Some(end)
    requires e.search(FinancialCard, s, end) == None
    requires e.search(Passwords, s, 0) == None
    requires e.search(GovId, s, 0) == None
    requires e.search(IndustrialSecret, s, 0) == None
    requires e.search(Email, s, 0) == None && e.search(PhoneRegional, s, 0) == None
    ensures InterceptAsWritten(e, map[], s).0.isBlocked
    ensures var second := InterceptAsWritten(e, InterceptAsWritten(e, map[], s).1, s).0;
      !second.isBlocked && second.sanitizedContent == s && second.details == ScanPassed
    ensures Intercept(e, s).isBlocked
  {
    AsWrittenFreshAgrees(e, s);
    FirstCallLeavesCardAtEnd(e, s, end);
    SecondCallPasses(e, InterceptAsWritten(e, map[], s).1, s);
  }

  /** The engine's answers for the text "4111 1111 1111 1111": the card
      expression matches the whole text from position 0 and nothing from
      any later position; no other expression matches. */
  function CardOnlyEngine(): Engine {
    Engine(
      (id: PatternId, t: string, from: nat) =>
        if id == FinancialCard && t == "4111 1111 1111 1111" && from == 0 then Some(19) else None,
      (id: PatternId, t: string, tag: string) => t)
  }

  /** The card number that is blocked on the first call is forwarded in
      clear on the second. */
  lemma CardNumberPassesOnSecondCall()
    ensures var e := CardOnlyEngine();
      var (first, st) := InterceptAsWritten(e, map[], "4111 1111 1111 1111");
      var (second, _) := InterceptAsWritten(e, st, "4111 1111 1111 1111");
      first.isBlocked && !second.isBlocked && second.sanitizedContent == "4111 1111 1111 1111"
  {
    RepeatedScanMissesCard(CardOnlyEngine(), "4111 1111 1111 1111", 19);
  }
}

=== FILE: storage.dfy ===
/**
 * The local store (src/services/storageService.ts). Every list lives under
 * its own localStorage key; an operation loads the list, changes it (an
 * in-place replacement, a push or unshift, a filter) and writes it back. The
 * `Store` class holds the stored lists as fields; a missing key is the empty
 * list, except for the rubric, whose absence makes `getRubric` store the
 * defaults.
 */
module Storage {
  import opened Common
  import opened Types

  // ---------------------------------------------------------------------
  // Id-keyed lists.
  // ---------------------------------------------------------------------

  /** `xs.findIndex(x => key(x) === k)`. */
  function IndexOfKey<T>(xs: seq<T>, key: T -> string, k: string): (r: int)
    ensures -1 <= r < |xs|
    ensures r >= 0 ==> key(xs[r]) == k && forall j :: 0 <= j < r ==> key(xs[j]) != k
    ensures r == -1 <==> !HasKey(xs, key, k)
  {
    if xs == [] then -1
    else if key(xs[0]) == k then 0
    else
      var i := IndexOfKey(xs[1..], key, k);
      if i == -1 then -1 else i + 1
  }

  /** Replace the first entry with x's key by x, or append x. */
  function Upsert<T>(xs: seq<T>, x: T, key: T -> string): (r: seq<T>)
    ensures HasKey(xs, key, key(x)) ==>
      var i := IndexOfKey(xs, key, key(x));
      |r| == |xs| && r[i] == x && forall j :: 0 <= j < |xs| && j != i ==> r[j] == xs[j]
    ensures !HasKey(xs, key, key(x)) ==> r == xs + [x]
    ensures HasKey(r, key, key(x))
  {
    var i := IndexOfKey(xs, key, key(x));
    if i >= 0 then xs[i := x] else assert (xs + [x])[|xs|] == x; xs + [x]
  }

  /** Replace the first entry with x's key by x, or insert x at the front. */
  function UpsertFront<T>(xs: seq<T>, x: T, key: T -> string): (r: seq<T>)
    ensures HasKey(xs, key, key(x)) ==>
      var i := IndexOfKey(xs, key, key(x));
      |r| == |xs| && r[i] == x && forall j :: 0 <= j < |xs| && j != i ==> r[j] == xs[j]
    ensures !HasKey(xs, key, key(x)) ==> r == [x] + xs
    ensures HasKey(r, key, key(x))
  {
    var i := IndexOfKey(xs, key, key(x));
    if i >= 0 then xs[i := x] else assert ([x] + xs)[0] == x; [x] + xs
  }

  /** `xs.filter(x => key(x) !== k)`. */
  function KeyIsNot<T>(key: T -> string, k: string): T -> bool {
    (y: T) => key(y) != k
  }

  /** `xs.filter(x => x.id !== id)`: exactly the entries with another id
      remain, so none with the deleted one. */
  function RemoveKey<T>(xs: seq<T>, key: T -> string, k: string): (r: seq<T>)
    ensures forall i :: 0 <= i < |xs| && key(xs[i]) != k ==> xs[i] in r
    ensures forall j :: 0 <= j < |r| ==> r[j] in xs
    ensures !HasKey(r, key, k)
  {
    var r := Filter(xs, KeyIsNot(key, k));
    FilterExact(xs, KeyIsNot(key, k));
    assert forall j :: 0 <= j < |r| ==> r[j] in r;
    r
  }

  /** An upsert never shortens the list, and the ids afterwards are the ids
      before plus the new one. */
  lemma {:induction false} UpsertKeys<T>(xs: seq<T>, x: T, key: T -> string, k: string)
    ensures |Upsert(xs, x, key)| >= |xs|
    ensures HasKey(Upsert(xs, x, key), key, k) <==> HasKey(xs, key, k) || k == key(x)
  {
    var r := Upsert(xs, x, key);
    if HasKey(xs, key, key(x)) {
      var i := IndexOfKey(xs, key, key(x));
      if HasKey(xs, key, k) {
        var j :| 0 <= j < |xs| && key(xs[j]) == k;
        assert key(r[j]) == k;
      }
      if HasKey(r, key, k) {
        var j :| 0 <= j < |r| && key(r[j]) == k;
        assert j != i ==> key(xs[j]) == k;
      }
    } else {
      if HasKey(xs, key, k) {
        var j :| 0 <= j < |xs| && key(xs[j]) == k;
        assert r[j] == xs[j];
      }
      if HasKey(r, key, k) {
        var j :| 0 <= j < |r| && key(r[j]) == k;
        assert j < |xs| ==> r[j] == xs[j];
      }
    }
  }

  /** A delete keeps the relative order: deleting from a concatenation
      deletes from each part; deleting an absent id changes nothing. */
  lemma RemoveKeyOrder<T>(a: seq<T>, b: seq<T>, key: T -> string, k: string)
    ensures RemoveKey(a + b, key, k) == RemoveKey(a, key, k) + RemoveKey(b, key, k)
    ensures !HasKey(a, key, k) ==> RemoveKey(a, key, k) == a
  {
    FilterAppend(a, b, KeyIsNot(key, k));
    if !HasKey(a, key, k) {
      FilterAll(a, KeyIsNot(key, k));
    }
  }

  function AuditId(a: Audit): string { a.id }
  function AgentId(a: Agent): string { a.id }
  function ProjectId(p: Project): string { p.id }
  function RubricId(r: RubricItem): string { r.id }
  function UserId(u: User): string { u.id }
  function SessionId(s: ChatSession): string { s.id }

  // ---------------------------------------------------------------------
  // Rubric defaults and toggling.
  // ---------------------------------------------------------------------

  /** `SYSTEM_DEFAULT_LABELS`, in key order. */
  const DefaultLabels: seq<(string, string)> := [
    ("cordiality", "Protocolo y Saludo"),
    ("pauses", "Control de Silencios"),
    ("activeListening", "Escucha Activa"),
    ("empathy", "Inteligencia Emocional"),
    ("scriptUsage", "Alineación de Narrativa"),
    ("solution", "Resolución de Problemas"),
    ("compliance", "Cumplimiento Regulatorio"),
    ("emotionHandling", "Capacidad de Desescalación"),
    ("grammar", "Sintaxis y Semántica"),
    ("accessEase", "Agilidad Operativa")
  ]

  function DefaultItem(entry: (string, string)): RubricItem {
    var (key, text) := entry;
    RubricItem(key, text, if key == "grammar" || key == "compliance" then Hard else Soft, true, BOTH)
  }

  /** The rubric `getRubric` stores when there is none. */
  function DefaultRubric(): (r: seq<RubricItem>)
    ensures |r| == |DefaultLabels|
    ensures forall i :: 0 <= i < |r| ==> r[i] == DefaultItem(DefaultLabels[i])
  {
    seq(|DefaultLabels|, i requires 0 <= i < |DefaultLabels| => DefaultItem(DefaultLabels[i]))
  }

  /** The ten defaults are active, for both channels, with distinct ids;
      exactly grammar and compliance are 'hard', the rest 'soft'. */
  lemma DefaultRubricShape()
    ensures |DefaultRubric()| == 10
    ensures forall i :: 0 <= i < 10 ==> DefaultRubric()[i].isActive && DefaultRubric()[i].channel == BOTH
    ensures forall i :: 0 <= i < 10 ==>
      (DefaultRubric()[i].category == Hard <==> DefaultRubric()[i].id in {"grammar", "compliance"})
    ensures forall i :: 0 <= i < 10 ==> DefaultRubric()[i].category != Compliance
    ensures forall i, j :: 0 <= i < j < 10 ==> DefaultRubric()[i].id != DefaultRubric()[j].id
  {
    var r := DefaultRubric();
    forall i | 0 <= i < 10
      ensures r[i].id == DefaultLabels[i].0
    {
    }
    forall i, j | 0 <= i < j < 10
      ensures r[i].id != r[j].id
    {
      assert DefaultLabels[i].0 != DefaultLabels[j].0;
    }
  }

  /** The first item with the id has its `isActive` flipped; nothing else
      changes, and nothing at all when the id is absent. */
  function Toggled(rubric: seq<RubricItem>, id: string): (r: seq<RubricItem>)
    ensures |r| == |rubric|
    ensures forall j :: 0 <= j < |r| ==>
      r[j].id == rubric[j].id && r[j].labelText == rubric[j].labelText &&
      r[j].category == rubric[j].category && r[j].channel == rubric[j].channel
    ensures forall j :: 0 <= j < |r| ==>
      (r[j].isActive != rubric[j].isActive <==> j == IndexOfKey(rubric, RubricId, id))
    ensures !HasKey(rubric, RubricId, id) ==> r == rubric
  {
    var i := IndexOfKey(rubric, RubricId, id);
    if i >= 0 then rubric[i := rubric[i].(isActive := !rubric[i].isActive)] else rubric
  }

  /** Toggling the same id twice restores the rubric. */
  lemma ToggleTwice(rubric: seq<RubricItem>, id: string)
    ensures Toggled(Toggled(rubric, id), id) == rubric
  {
    var once := Toggled(rubric, id);
    var i := IndexOfKey(rubric, RubricId, id);
    if i >= 0 {
      assert forall j :: 0 <= j < |once| ==> RubricId(once[j]) == RubricId(rubric[j]);
      assert IndexOfKey(once, RubricId, id) == i by {
        IndexOfKeySameKeys(rubric, once, RubricId, id);
      }
    } else {
      assert once == rubric;
    }
  }

  /** Lists with the same keys position by position have the same index. */
  lemma {:induction false} IndexOfKeySameKeys<T>(xs: seq<T>, ys: seq<T>, key: T -> string, k: string)
    requires |xs| == |ys|
    requires forall j :: 0 <= j < |xs| ==> key(xs[j]) == key(ys[j])
    ensures IndexOfKey(xs, key, k) == IndexOfKey(ys, key, k)
  {
    if xs != [] && key(xs[0]) != k {
      IndexOfKeySameKeys(xs[1..], ys[1..], key, k);
    }
  }

  // ---------------------------------------------------------------------
  // The CSV export.
  // ---------------------------------------------------------------------

  const CsvHeaders: seq<string> := ["Date", "ID", "Agent", "Project", "Status", "CSAT", "Score"]

  /** `a.readableId || a.id`. */
  function ShownId(a: Audit): string {
    if a.readableId != "" then a.readableId else a.id
  }

  /** The seven fields of an audit's row. */
  function CsvFields(a: Audit): (r: seq<string>)
    ensures |r| == |CsvHeaders|
    ensures r[1] == ShownId(a) && r[6] == IntToString(ScoreOrZero(a)) + "%"
  {
    [a.date, ShownId(a), a.agentName, a.project, StatusName(a.status), IntToString(a.csat),
     IntToString(ScoreOrZero(a)) + "%"]
  }

  function CsvLines(audits: seq<Audit>): (r: seq<string>)
    ensures |r| == |audits|
    ensures forall i :: 0 <= i < |audits| ==> r[i] == Join(CsvFields(audits[i]), ",")
  {
    seq(|audits|, i requires 0 <= i < |audits| => Join(CsvFields(audits[i]), ","))
  }

  /** The text `downloadCSV` puts in the file: the header line, then one
      line per audit; fields are joined with "," and lines with "\n", with
      no quoting. */
  function CsvText(audits: seq<Audit>): (r: string)
    ensures audits == [] ==> r == Join(CsvHeaders, ",")
    ensures audits != [] ==> r == Join(CsvHeaders, ",") + "\n" + Join(CsvLines(audits), "\n")
  {
    var lines := [Join(CsvHeaders, ",")] + CsvLines(audits);
    assert lines[1..] == CsvLines(audits);
    Join(lines, "\n")
  }

  predicate PlainField(f: string) {
    ',' !in f && '\n' !in f
  }

  /** The fields that a CSV reader splitting on "\n" and "," gets back are
      the header and each audit's fields, in order, as long as no field
      holds a comma or a line break. */
  lemma CsvReadBack(audits: seq<Audit>)
    requires forall i, j :: 0 <= i < |audits| && 0 <= j < 7 ==> PlainField(CsvFields(audits[i])[j])
    ensures |Split(CsvText(audits), '\n')| == |audits| + 1
    ensures Split(Split(CsvText(audits), '\n')[0], ',') == CsvHeaders
    ensures forall i :: 0 <= i < |audits| ==>
      Split(Split(CsvText(audits), '\n')[i + 1], ',') == CsvFields(audits[i])
  {
    var body := CsvLines(audits);
    var lines := [Join(CsvHeaders, ",")] + body;
    HeaderReadBack();
    forall i | 0 <= i < |audits|
      ensures '\n' !in body[i]
      ensures Split(body[i], ',') == CsvFields(audits[i])
    {
      AuditLineReadBack(audits[i]);
    }
    LinesReadBack(lines);
  }

  /** An audit whose fields are plain gives a line that reads back as them. */
  lemma AuditLineReadBack(a: Audit)
    requires forall j :: 0 <= j < 7 ==> PlainField(CsvFields(a)[j])
    ensures '\n' !in Join(CsvFields(a), ",")
    ensures Split(Join(CsvFields(a), ","), ',') == CsvFields(a)
  {
    PlainLineReadBack(CsvFields(a));
  }

  /** Lines without line breaks, joined with "\n", split back into themselves. */
  lemma LinesReadBack(lines: seq<string>)
    requires |lines| >= 1
    requires forall j :: 0 <= j < |lines| ==> '\n' !in lines[j]
    ensures Split(Join(lines, "\n"), '\n') == lines
  {
    SplitJoin(lines, '\n');
  }

  /** The header line reads back as the header names. */
  lemma HeaderReadBack()
    ensures '\n' !in Join(CsvHeaders, ",")
    ensures Split(Join(CsvHeaders, ","), ',') == CsvHeaders
  {
    forall j | 0 <= j < |CsvHeaders| ensures PlainField(CsvHeaders[j]) {
    }
    PlainLineReadBack(CsvHeaders);
  }

  /** A line of plain fields holds no line break and splits back into
      its fields. */
  lemma PlainLineReadBack(fields: seq<string>)
    requires |fields| >= 1
    requires forall j :: 0 <= j < |fields| ==> PlainField(fields[j])
    ensures '\n' !in Join(fields, ",")
    ensures Split(Join(fields, ","), ',') == fields
  {
    NoCharInJoin(fields, ",", '\n');
    SplitJoin(fields, ',');
  }

  /** A character absent from every part and from the separator is absent
      from the joined text. */
  lemma {:induction false} NoCharInJoin(parts: seq<string>, sep: string, c: char)
    requires c !in sep
    requires forall i :: 0 <= i < |parts| ==> c !in parts[i]
    ensures c !in Join(parts, sep)
  {
    if |parts| > 1 {
      NoCharInJoin(parts[1..], sep, c);
    }
  }

  // ---------------------------------------------------------------------
  // The store.
  // ---------------------------------------------------------------------

  const DefaultCompanyName: string := "Rc506 | Gestion de Calidad"

  const ZeroUsage: UsageStats := UsageStats(0, 0)

  /** `getAppSettings` with nothing stored. */
  const DefaultSettings: AppSettings := AppSettings(DefaultCompanyName, Some(FREE), Some(ZeroUsage))

  /** The stored rubric, or the defaults `getRubric` would store. */
  function RubricOrDefaults(stored: Option<seq<RubricItem>>): seq<RubricItem> {
    match stored
    case Some(r) => r
    case None => DefaultRubric()
  }

  /** The first user whose id and PIN both match. */
  function FindUser(users: seq<User>, id: string, pin: string): (r: Option<User>)
    ensures r.Some? ==> r.value in users && r.value.id == id && r.value.pin == pin
    ensures r.None? <==> forall u :: u in users ==> !(u.id == id && u.pin == pin)
    ensures forall i :: (0 <= i < |users| && users[i].id == id && users[i].pin == pin &&
      (forall j :: 0 <= j < i ==> !(users[j].id == id && users[j].pin == pin))) ==> r == Some(users[i])
  {
    if users == [] then None
    else if users[0].id == id && users[0].pin == pin then Some(users[0])
    else
      assert forall u :: u in users[1..] ==> u in users;
      assert forall i :: 0 < i < |users| ==> users[1..][i - 1] == users[i];
      FindUser(users[1..], id, pin)
  }

  class Store {
    var audits: seq<Audit>
    var agents: seq<Agent>
    var projects: seq<Project>
    var rubric: Option<seq<RubricItem>>
    var users: seq<User>
    var sessions: seq<ChatSession>
    var settings: Option<AppSettings>

    /** An empty localStorage. */
    constructor ()
      ensures audits == [] && agents == [] && projects == [] && users == [] && sessions == []
      ensures rubric == None && settings == None
    {
      audits := [];
      agents := [];
      projects := [];
      rubric := None;
      users := [];
      sessions := [];
      settings := None;
    }

    /** `getAppSettings`. */
    function AppSettingsNow(): AppSettings
      reads this
    {
      match settings
      case Some(s) => s
      case None => DefaultSettings
    }

    /** `getUsageStats`. */
    function UsageNow(): UsageStats
      reads this
    {
      match AppSettingsNow().usage
      case Some(u) => u
      case None => ZeroUsage
    }

    /** `saveAudit`: an upsert of the audit stamped with the company name. */
    method SaveAudit(audit: Audit)
      modifies this`audits
      ensures audits == Upsert(old(audits), audit.(organizationId := Some(AppSettingsNow().companyName)), AuditId)
    {
      var toSave := audit.(organizationId := Some(AppSettingsNow().companyName));
      var idx := IndexOfKey(audits, AuditId, audit.id);
      if idx >= 0 {
        audits := audits[idx := toSave];
      } else {
        audits := audits + [toSave];
      }
    }

    method DeleteAudit(id: string)
      modifies this`audits
      ensures audits == RemoveKey(old(audits), AuditId, id)
    {
      audits := RemoveKey(audits, AuditId, id);
    }

    method SaveAgent(agent: Agent)
      modifies this`agents
      ensures agents == Upsert(old(agents), agent, AgentId)
    {
      var idx := IndexOfKey(agents, AgentId, agent.id);
      if idx >= 0 {
        agents := agents[idx := agent];
      } else {
        agents := agents + [agent];
      }
    }

    method DeleteAgent(id: string)
      modifies this`agents
      ensures agents == RemoveKey(old(agents), AgentId, id)
    {
      agents := RemoveKey(agents, AgentId, id);
    }

    /** `saveProject`: the project is rebuilt from its parts and stamped
        with the company name. */
    method SaveProject(id: string, name: string, targets: Option<ProjectTargets>, rubricIds: Option<seq<string>>)
      modifies this`projects
      ensures projects == Upsert(old(projects),
        Project(id, name, targets, rubricIds, Some(AppSettingsNow().companyName)), ProjectId)
    {
      var project := Project(id, name, targets, rubricIds, Some(AppSettingsNow().companyName));
      var idx := IndexOfKey(projects, ProjectId, id);
      if idx >= 0 {
        projects := projects[idx := project];
      } else {
        projects := projects + [project];
      }
    }

    method DeleteProject(id: string)
      modifies this`projects
      ensures projects == RemoveKey(old(projects), ProjectId, id)
    {
      projects := RemoveKey(projects, ProjectId, id);
    }

    /** `getRubric`: the stored rubric, or the ten defaults, which are then
        stored. */
    method GetRubric() returns (r: seq<RubricItem>)
      modifies this`rubric
      ensures r == RubricOrDefaults(old(rubric))
      ensures rubric == Some(r)
    {
      if rubric.Some? {
        r := rubric.value;
      } else {
        r := DefaultRubric();
        rubric := Some(r);
      }
    }

    method SaveRubricItem(item: RubricItem)
      modifies this`rubric
      ensures rubric == Some(Upsert(RubricOrDefaults(old(rubric)), item, RubricId))
    {
      var current := GetRubric();
      var idx := IndexOfKey(current, RubricId, item.id);
      if idx >= 0 {
        current := current[idx := item];
      } else {
        current := current + [item];
      }
      rubric := Some(current);
    }

    /** `toggleRubricItem`. Loading the rubric may store the defaults even
        when the id is absent. */
    method ToggleRubricItem(id: string)
      modifies this`rubric
      ensures rubric == Some(Toggled(RubricOrDefaults(old(rubric)), id))
    {
      var current := GetRubric();
      var idx := IndexOfKey(current, RubricId, id);
      if idx >= 0 {
        var item := current[idx];
        current := current[idx := item.(isActive := !item.isActive)];
        rubric := Some(current);
      }
    }

    method DeleteRubricItem(id: string)
      modifies this`rubric
      ensures rubric == Some(RemoveKey(RubricOrDefaults(old(rubric)), RubricId, id))
    {
      var current := GetRubric();
      rubric := Some(RemoveKey(current, RubricId, id));
    }

    method SaveUser(user: User)
      modifies this`users
      ensures users == Upsert(old(users), user, UserId)
    {
      var idx := IndexOfKey(users, UserId, user.id);
      if idx >= 0 {
        users := users[idx := user];
      } else {
        users := users + [user];
      }
    }

    method DeleteUser(id: string)
      modifies this`users
      ensures users == RemoveKey(old(users), UserId, id)
    {
      users := RemoveKey(users, UserId, id);
    }

    /** `authenticate`: the first stored user with this id and PIN. */
    function Authenticate(id: string, pin: string): (r: Option<User>)
      reads this
      ensures r.Some? ==> r.value in users && r.value.id == id && r.value.pin == pin
      ensures r.None? <==> forall u :: u in users ==> !(u.id == id && u.pin == pin)
      ensures forall i :: (0 <= i < |users| && users[i].id == id && users[i].pin == pin &&
        (forall j :: 0 <= j < i ==> !(users[j].id == id && users[j].pin == pin))) ==> r == Some(users[i])
    {
      FindUser(users, id, pin)
    }

    /** `saveChatSession`: replaced in place, or a new session first. */
    method SaveChatSession(session: ChatSession)
      modifies this`sessions
      ensures sessions == UpsertFront(old(sessions), session, SessionId)
    {
      var idx := IndexOfKey(sessions, SessionId, session.id);
      if idx >= 0 {
        sessions := sessions[idx := session];
      } else {
        sessions := [session] + sessions;
      }
    }

    method DeleteChatSession(id: string)
      modifies this`sessions
      ensures sessions == RemoveKey(old(sessions), SessionId, id)
    {
      sessions := RemoveKey(sessions, SessionId, id);
    }

    /** `updateUsageStats`: one more AI audit and `tokens` more tokens; the
        rest of the settings is kept. */
    method UpdateUsageStats(tokens: int)
      modifies this`settings
      ensures settings.Some?
      ensures UsageNow() == UsageStats(old(UsageNow()).aiAuditsCount + 1, old(UsageNow()).estimatedTokens + tokens)
      ensures AppSettingsNow().companyName == old(AppSettingsNow()).companyName
      ensures AppSettingsNow().subscriptionTier == old(AppSettingsNow()).subscriptionTier
    {
      var current := AppSettingsNow();
      var usage := UsageNow();
      settings := Some(current.(usage := Some(UsageStats(usage.aiAuditsCount + 1, usage.estimatedTokens + tokens))));
    }
  }
}

=== FILE: subscription.dfy ===
/**
 * The quota gate of the AI scoring (src/services/subscriptionService.ts):
 * the per-plan limits and the allow/deny decision for a user and their
 * usage counters.
 */
module Subscription {
  import opened Common
  import opened Types

  datatype AiModel = Basic | Advanced

  datatype PlanLimits = PlanLimits(audits: nat, aiModel: AiModel, copilot: bool)

  /** `PLAN_LIMITS`. Only the free plan goes without the copilot and only
      the two top plans get the advanced model. */
  function Limits(tier: SubscriptionTier): (r: PlanLimits)
    ensures r.copilot <==> tier != FREE
    ensures r.aiModel == Advanced <==> tier == AI_PRO || tier == ENTERPRISE
    ensures r.audits >= 3
    ensures tier == FREE ==> r.audits == 3
    ensures tier == STANDARD ==> r.audits == 50
    ensures tier == AI_PRO || tier == ENTERPRISE ==> r.audits == 9999
  {
    match tier
    case FREE => PlanLimits(3, Basic, false)
    case STANDARD => PlanLimits(50, Basic, true)
    case AI_PRO => PlanLimits(9999, Advanced, true)
    case ENTERPRISE => PlanLimits(9999, Advanced, true)
  }

  /** The answer of the gate: a denial carries a reason, an allow none. */
  datatype UsageDecision = UsageDecision(allowed: bool, reason: Option<string>)

  const NotAuthenticated: string := "Usuario no autenticado"

  /** The organization whose users are never limited. */
  const InternalOrganization: string := "RC506"

  /** Administrators and the internal organization bypass the limits. */
  predicate Bypasses(user: User) {
    user.role == ADMIN || user.organizationId == InternalOrganization
  }

  /** `user.subscriptionTier || FREE`. */
  function TierOf(user: User): SubscriptionTier {
    match user.subscriptionTier
    case Some(t) => t
    case None => FREE
  }

  /** `usage?.aiAuditsCount || 0`. */
  function UsageCount(usage: Option<UsageStats>): int {
    match usage
    case Some(u) => u.aiAuditsCount
    case None => 0
  }

  function LimitReason(limit: nat, tier: SubscriptionTier): string {
    "Límite de auditorías alcanzado (" + NatToString(limit) + ") para el plan " + TierName(tier)
      + ". Actualiza tu plan para continuar."
  }

  /** `checkUsageLimit`: no user is denied; a bypassing user is allowed
      before any count is looked at; anyone else is allowed exactly while
      the count is below the plan's limit (reaching it denies). */
  function CheckUsageLimit(user: Option<User>, usage: Option<UsageStats>): (r: UsageDecision)
    ensures user.None? ==> r == UsageDecision(false, Some(NotAuthenticated))
    ensures user.Some? && Bypasses(user.value) ==> r == UsageDecision(true, None)
    ensures user.Some? && !Bypasses(user.value) ==>
      (r.allowed <==> UsageCount(usage) < Limits(TierOf(user.value)).audits)
    ensures r.allowed <==> r.reason == None
    ensures user.Some? && !r.allowed ==>
      r.reason == Some(LimitReason(Limits(TierOf(user.value)).audits, TierOf(user.value)))
  {
    match user
    case None => UsageDecision(false, Some(NotAuthenticated))
    case Some(u) =>
      if Bypasses(u) then UsageDecision(true, None)
      else
        var tier := TierOf(u);
        var limits := Limits(tier);
        if UsageCount(usage) >= limits.audits then UsageDecision(false, Some(LimitReason(limits.audits, tier)))
        else UsageDecision(true, None)
  }

  /** For a user who does not bypass the limits, a denial at one count is a
      denial at every higher count. */
  lemma DenialPersists(user: User, usage: UsageStats, more: UsageStats)
    requires !Bypasses(user)
    requires usage.aiAuditsCount <= more.aiAuditsCount
    requires !CheckUsageLimit(Some(user), Some(usage)).allowed
    ensures !CheckUsageLimit(Some(user), Some(more)).allowed
  {
  }

  /** A free user without recorded usage may run three scorings, the
      third bringing the count to the limit. */
  lemma FreeUserQuota(user: User)
    requires !Bypasses(user) && user.subscriptionTier.None?
    ensures CheckUsageLimit(Some(user), None).allowed
    ensures CheckUsageLimit(Some(user), Some(UsageStats(2, 0))).allowed
    ensures !CheckUsageLimit(Some(user), Some(UsageStats(3, 0))).allowed
  {
  }

  /** The denial reason names the limit in decimal and the plan. */
  lemma ReasonNamesLimit(limit: nat, tier: SubscriptionTier)
    ensures exists i, j :: OccursAt(LimitReason(limit, tier), NatToString(limit), i) &&
                           OccursAt(LimitReason(limit, tier), TierName(tier), j)
  {
    var prefix := "Límite de auditorías alcanzado (";
    var middle := ") para el plan ";
    var suffix := ". Actualiza tu plan para continuar.";
    var s := LimitReason(limit, tier);
    var digits := NatToString(limit);
    var name := TierName(tier);
    assert s == prefix + digits + middle + name + suffix;
    assert s == prefix + digits + (middle + name + suffix);
    assert s[|prefix|..|prefix| + |digits|] == digits;
    assert OccursAt(s, digits, |prefix|);
    var j := |prefix| + |digits| + |middle|;
    assert s == (prefix + digits + middle) + name + suffix;
    assert s[j..j + |name|] == name;
    assert OccursAt(s, TierName(tier), j);
  }
}

=== FILE: types.dfy ===
/**
 * The data shapes of the application (src/types.ts). Optional fields of the
 * TypeScript interfaces are `Option`s; text is `string`; counters and
 * scores are integers.
 */
module Types {
  import opened Common

  datatype AuditType = VOICE | CHAT

  datatype AuditStatus = DRAFT | PENDING_REVIEW | APPROVED | REJECTED | SECURITY_BLOCKED

  datatype SubscriptionTier = FREE | STANDARD | AI_PRO | ENTERPRISE

  datatype UserRole = ADMIN | AUDITOR | CLIENT

  datatype Perception = OPTIMAL | ACCEPTABLE | POOR

  datatype Sentiment = POSITIVE | NEUTRAL | NEGATIVE | MIXED

  datatype ParticipantRole = AGENT | CUSTOMER | SUPERVISOR | INTERNAL_STAFF | UNKNOWN

  datatype InteractionType = INTERNAL | EXTERNAL

  /** The `type` of a rubric item: one channel or both. */
  datatype RubricChannel = OnlyVoice | OnlyChat | BOTH

  datatype RubricCategory = Soft | Hard | Compliance

  /** The string value of each enumeration, as the TypeScript enum holds it. */
  function AuditTypeName(t: AuditType): string {
    match t
    case VOICE => "VOICE"
    case CHAT => "CHAT"
  }

  function StatusName(s: AuditStatus): string {
    match s
    case DRAFT => "DRAFT"
    case PENDING_REVIEW => "PENDING_REVIEW"
    case APPROVED => "APPROVED"
    case REJECTED => "REJECTED"
    case SECURITY_BLOCKED => "SECURITY_BLOCKED"
  }

  function TierName(t: SubscriptionTier): string {
    match t
    case FREE => "FREE"
    case STANDARD => "STANDARD"
    case AI_PRO => "AI_PRO"
    case ENTERPRISE => "ENTERPRISE"
  }

  function CategoryName(c: RubricCategory): string {
    match c
    case Soft => "soft"
    case Hard => "hard"
    case Compliance => "compliance"
  }

  datatype SecurityReport = SecurityReport(
    isBlocked: bool,
    reason: Option<string>,
    flags: seq<string>,
    details: string,
    sanitizedContent: string)

  datatype Participant = Participant(
    name: string,
    role: ParticipantRole,
    sentiment: Sentiment,
    tone: string)

  /** A JavaScript number as far as the model needs it: an integer or NaN. */
  datatype Number = Int(n: int) | NaN

  datatype SmartAnalysisResult = SmartAnalysisResult(
    score: Number,
    csat: Number,
    notes: string,
    customData: map<string, bool>,
    sentiment: Sentiment,
    interactionType: InteractionType,
    participants: seq<Participant>,
    durationAnalysis: string)

  datatype RubricItem = RubricItem(
    id: string,
    labelText: string,
    category: RubricCategory,
    isActive: bool,
    channel: RubricChannel)

  datatype ProjectTargets = ProjectTargets(score: int, csat: int)

  datatype Audit = Audit(
    id: string,
    readableId: string,
    agentName: string,
    project: string,
    date: string,
    auditType: AuditType,
    status: AuditStatus,
    csat: int,
    qualityScore: Option<int>,
    customData: Option<map<string, bool>>,
    organizationId: Option<string>)

  datatype Agent = Agent(id: string, name: string, projectId: Option<string>)

  datatype Project = Project(
    id: string,
    name: string,
    targets: Option<ProjectTargets>,
    rubricIds: Option<seq<string>>,
    organizationId: Option<string>)

  datatype User = User(
    id: string,
    name: string,
    role: UserRole,
    pin: string,
    organizationId: string,
    subscriptionTier: Option<SubscriptionTier>)

  datatype UsageStats = UsageStats(aiAuditsCount: int, estimatedTokens: int)

  datatype AppSettings = AppSettings(
    companyName: string,
    subscriptionTier: Option<SubscriptionTier>,
    usage: Option<UsageStats>)

  datatype Message = Message(fromUser: bool, text: string, timestamp: int)

  datatype ChatSession = ChatSession(id: string, title: string, date: int, messages: seq<Message>)

  /** The ids that occur in a rubric. */
  function RubricIds(rubric: seq<RubricItem>): set<string> {
    set r | r in rubric :: r.id
  }

  /** `a.qualityScore || 0`: a missing (or zero) score counts as 0. */
  function ScoreOrZero(a: Audit): int {
    match a.qualityScore
    case Some(s) => s
    case None => 0
  }
}
